=== FILE: README.md ===
# doi-jekyll in Dafny

doi-jekyll registers a DOI with the DataCite Metadata Store for one post of
a Jekyll blog. From the blog configuration (`_config.yml`, its `doi_jekyll`
block and top-level `url`), the post's YAML front matter and the author's
front matter, it does the following:

- It derives a DOI name: the prefix, `/`, the blog's suffix base, `-`, and the
  first six characters of the base64 encoding of the post title.
- It assembles a DataCite kernel-4 record, section by section, in a fixed
  order. A license short name maps to an SPDX entry.
- It deep-merges two optional layers of extra metadata onto that record.
- It PUTs the record and then a `doi=`/`url=` body naming the post's
  permalink.
- It writes the DOI's resolver address back into the post.

Two releases exist: the package (`doijekyll/`) and an older stand-alone
script (`doi-jekyll.py`). In the script:

- the record has no blog relation and no overrides;
- the permalink takes its title part from the post's file name, not from a
  fixed placeholder.

The model is a set of pure functions over an immutable JSON-like value
(`Json.Value`). Mappings are ordered association lists, because Python dict
order becomes the order of the XML elements. The modules follow the
program's structure:

- `Json`: values, `d.get`, `d[k] = v`.
- `Text`: `split`, `lower`, `rstrip`, decimal digits.
- `Bytes`: the octet type.
- `Base64`: RFC 4648, section 4.
- `Utf8`: `str.encode()`, and the matching decoder.
- `Doi`: `genDoi`.
- `License`: `parseLicense`.
- `Calendar`: `strftime`.
- `DeepMerge`: `mergedeep.merge`.
- `Paths`: `PurePath`.
- `Metadata`: the `getMd*` builders and `assembleMetadata`.
- `Sharing`: the post's objects that the record holds and `merge` updates in place.
- `Permalink`: `genPermalink`.
- `Registry`: endpoints and the URL body.
- `Sources`: `collectBlogData`, `updateBlogpostMarkdown`.
- `Workflow`: `main`.

A whole run (`Workflow.Run`) returns an `Outcome`. It holds the list of
effects: the metadata PUT, the URL PUT and the rewrite of the post. It also
holds the DOI, or the reason the run stopped. DataCite's answers are inputs
(`Replies`).

Every failure the code can reach is a `Result` failure with its own `Error`
constructor. That covers a missing key (`KeyError`), an unknown license
(`sys.exit`), an unparsable date, a file name without a date prefix
(`None.group`), a rejected request and an already registered post. It also
covers the two failures of `main` as written: the undefined name `debug`
(`NameError`) and the missing argument of `assembleMetadata` (`TypeError`).

The package's record holds two of the post's own objects, not copies:
the post's `version` becomes the record's `version`, and its `abstract`
becomes `descriptions.description.#text`. `merge` recurses into mappings in
place. So when such an object is a mapping and an override names a mapping
at its place, the override's keys land in the post too. The post that `main`
writes back then carries them (`Sharing.PostAfterAssembly`,
`Workflow.PostAfter`).

Three behaviours are modelled exactly as the code has them:

- `rightsList` is present even for a post without a license, with
  `rights` None.
- The package's permalink always uses the placeholder `asf`.
- The script's permalink fails on a file name without a date prefix.

Two defects of `main` are modelled both ways (see "## Findings").
`Workflow.RunAsWritten` is the code as written; `Workflow.Run` is the
intended behaviour, and the rest of the model builds on it:

- `main` tests the undefined `debug.ok` after the metadata PUT. The
  intended run checks the metadata reply there.
- The package's `main` calls `assembleMetadata` without its
  `additional_metadata` argument. The intended run passes the caller's
  extra metadata as an input (`Inputs.additional`).

## Model

| member | source | states |
|---|---|---|
| Json.Put | doijekyll/doijekyll.py:131 | `d[k] = v`: afterwards `k` maps to `v` and every other key maps to what it did; an existing key keeps its place, a new key is appended; keys stay unique |
| Json.PutSame | doijekyll/doijekyll.py:131 | storing a key's own value again changes nothing |
| Json.PutPosition | doijekyll/doijekyll.py:131-136 | assigning to a key already at position `i` replaces exactly entry `i` and leaves the length and every other entry unchanged |
| Json.GetAppend | doijekyll/metadata.py:178-192 | looking a key up in sections joined one after another finds the earlier section's entry first |
| Text.Split | doijekyll/metadata.py:136 | `str.split()` yields only non-empty words free of Python whitespace |
| Text.SplitJoin | doijekyll/metadata.py:136 | splitting whitespace-free words joined by single spaces gives back exactly those words, in order |
| Text.SplitKeepsText | doijekyll/metadata.py:136 | the words of a split, concatenated, are the input with its whitespace removed: nothing else is lost or reordered |
| Text.SplitAtSpace | doijekyll/metadata.py:136 | any whitespace character (tab, line break, one of a run of spaces) splits the text into independent parts: the words of the whole are the words before it followed by the words after it |
| Text.SplitOfToken | doijekyll/metadata.py:136 | a non-empty text without whitespace is a single word |
| Text.Lower | doijekyll/metadata.py:34 | `lower()` keeps the length and lower-cases each character |
| Text.RStrip | doijekyll/doijekyll.py:90 | `rstrip('/')` is the longest prefix not ending in `/`, and everything removed is `/` |
| Text.Decimal | doijekyll/metadata.py:100 | the decimal text of a number is all digits, has no leading zero and reads back as the number |
| Text.Pad2 | doijekyll/doijekyll.py:92 | `%m`/`%d` print two digits that read back as the number |
| Text.DecimalFourDigits | doijekyll/metadata.py:100 | a year from 1000 to 9999 prints as four digits |
| Base64.Encode | doijekyll/doijekyll.py:65 | the base64 text of `n` bytes has `4 * ceil(n / 3)` characters |
| Base64.Index | doijekyll/doijekyll.py:65 | the alphabet index of a character is a 6-bit value naming that character |
| Base64.DecodeEncode | doijekyll/doijekyll.py:65 | decoding the base64 text of any byte string gives back that byte string |
| Base64.QuadRoundTrip | doijekyll/doijekyll.py:65 | each group of three, two or one bytes decodes back from its four characters, padding included |
| Base64.EncodeFirstTwo | doijekyll/doijekyll.py:65 | the first two characters depend on the first two bytes only |
| Utf8.CharBytes | doijekyll/doijekyll.py:65 | a character takes one, two, three or four bytes as its code point is below U+0080, U+0800, U+10000 or above; the lead byte's marker bits and the continuation bytes `10xxxxxx` carry the code point's bits, most significant first |
| Utf8.Encode | doijekyll/doijekyll.py:65 | the encoding has between one and four bytes per character |
| Utf8.DecodeChar | doijekyll/doijekyll.py:65 | a decoded character takes one to four of the bytes there are |
| Utf8.DecodeCharBytes | doijekyll/doijekyll.py:65 | a character's bytes decode back to that character, whatever bytes follow |
| Utf8.DecodeEncode | doijekyll/doijekyll.py:65 | decoding the encoding of any string gives the string back |
| Utf8.Umlaut | doijekyll/doijekyll.py:65 | `"ä"` encodes to the two bytes `C3 A4` |
| Utf8.EncodeAppend | doijekyll/doijekyll.py:65 | the encoding of a concatenation is the concatenation of the encodings |
| Utf8.EncodePrefix | doijekyll/doijekyll.py:65 | the first `n` bytes are fixed by the first `n` characters |
| Utf8.EncodeAscii | doijekyll/doijekyll.py:65 | an ASCII title encodes to its character codes, one byte each |
| Doi.Fragment | doijekyll/doijekyll.py:66 | the slice `[0:6]` of the base64 text is a prefix of it, of length 0, 4 or 6 by title length |
| Doi.GenDoi | doijekyll/doijekyll.py:57-67 | the DOI is `prefix/base-` followed by the leading six (or fewer) characters of the title's base64 text |
| Doi.FragmentPadding | doijekyll/doijekyll.py:65-66 | the fragment ends in `=` exactly for titles of one or two bytes |
| Doi.FragmentOfFirstFive | doijekyll/doijekyll.py:65-66 | for titles of five or more bytes, the fragment is determined by the first five bytes |
| Doi.SharedPrefixCollides | doijekyll/doijekyll.py:57-67 | two titles sharing their first five bytes get the same DOI |
| Doi.FragmentDecodes | doijekyll/doijekyll.py:65-66 | a title of up to three bytes decodes back whole from its fragment; a longer title's first three bytes decode back from the first four characters |
| License.ParseLicense | doijekyll/metadata.py:24-56 | no `license` gives `None`; success exactly for a known short name; the entry has the SPDX scheme URI and scheme name first; an unknown name stops with that name |
| License.CaseInsensitive | doijekyll/metadata.py:34 | two short names equal up to case give the same outcome |
| License.TableEntries | doijekyll/metadata.py:34-46 | each of `mit`, `cc0`, `cc-by4`, `gpl3`, in any case, yields its SPDX identifier and URL |
| License.UpperCaseAccepted | doijekyll/metadata.py:34-37 | the short name `MIT` yields the MIT entry |
| License.LookupInjective | doijekyll/metadata.py:35-46 | distinct short names never share an SPDX entry |
| License.UnknownCodeAborts | doijekyll/metadata.py:47-49 | a short name whose lower-cased form is none of `mit`, `cc0`, `cc-by4`, `gpl3` stops the run with that name |
| License.KnownRights | doijekyll/metadata.py:34-49 | a license that is accepted is a string whose lower-cased form is one of `mit`, `cc0`, `cc-by4`, `gpl3` |
| Calendar.YearText | doijekyll/metadata.py:100 | `%Y` prints digits that read back as the year, four of them from the year 1000 on |
| Calendar.DatePathReadsBack | doijekyll/doijekyll.py:92 | `%Y/%m/%d` is ten characters with `/` at positions 4 and 7, and its digit groups read back as year, month and day |
| Calendar.DatePathInjective | doijekyll/doijekyll.py:92 | distinct dates give distinct date paths |
| DeepMerge.Merge | doijekyll/metadata.py:193 | the destination's keys keep their order and the source's new keys follow in the source's order; keys stay unique |
| DeepMerge.AppendNewExtends | doijekyll/metadata.py:193 | merging keeps the destination keys as a prefix, and adds only source keys |
| DeepMerge.MergeGet | doijekyll/metadata.py:193 | a key the source names gets the merged value (two mappings merge recursively, anything else replaces); every other key keeps its value |
| DeepMerge.MergeUntouched | doijekyll/metadata.py:193 | a key the source does not name keeps its value |
| DeepMerge.MergeReplaces | doijekyll/metadata.py:193 | a non-mapping source value, or any value over a non-mapping, replaces the destination value |
| DeepMerge.MergeKeepsSiblings | doijekyll/metadata.py:195 | a mapping merged onto a mapping keeps the sibling keys the source does not mention |
| DeepMerge.LaterMergeWins | doijekyll/metadata.py:193-195 | of two successive merges, the later one decides a leaf both name |
| DeepMerge.MergeKeyOrder | doijekyll/metadata.py:193 | merging never moves or drops a destination key; the result's keys are those of the destination and the source |
| Paths.LastComponent | doijekyll/doijekyll.py:93 | the last component is the suffix of the path after its last `/`, and holds no `/` |
| Paths.SuffixStart | doijekyll/doijekyll.py:93 | the suffix starts at the last dot of the name, never at its first or last character; there is no suffix exactly when no dot strictly inside the name is the last dot |
| Paths.StemOfDotted | doijekyll/doijekyll.py:93 | the stem of `base.ext` is `base` |
| Paths.WithSuffix | doijekyll/doijekyll.py:55 | `with_suffix` fails exactly when the path has an empty name |
| Paths.WithSuffixAfterDir | doijekyll/doijekyll.py:55 | `with_suffix` on `dir/name` gives `dir/` plus the name's stem plus the new suffix |
| Paths.AuthorPath | doijekyll/doijekyll.py:52-55 | the author file path is never empty, and fails exactly when no explicit file is given and the joined path has no name |
| Paths.DefaultAuthorPath | doijekyll/doijekyll.py:55 | without an explicit file, author `Jane` in `dir` is `dir/jane.md`; an empty explicit file counts as none |
| Paths.SuffixReplaced | doijekyll/doijekyll.py:55 | a dotted author name has its last suffix replaced by `.md`, not extended |
| Paths.ExplicitAuthorFile | doijekyll/doijekyll.py:52-53 | a non-empty explicit author file is used as given |
| Permalink.DayOrMonth | doi-jekyll.py:236 | `\d{1,2}-` matches exactly when one or two digits followed by `-` start there, and the match is the only one |
| Permalink.PrefixAt | doi-jekyll.py:236 | the anchored match ends where four digits, `-`, one or two digits, `-`, one or two digits and `-` end; it exists exactly when such text starts there, is the only one, and is 9 to 11 characters long |
| Permalink.UnpaddedPrefix | doi-jekyll.py:236-242 | `2022-8-1-hello` matches at 0 with an unpadded month and day |
| Permalink.LaterPrefix | doi-jekyll.py:236-242 | in `draft-2022-08-01-x` the leftmost match starts at 6 and ends after the day's dash |
| Permalink.Search | doi-jekyll.py:242 | `re.search` finds the leftmost position where the date prefix matches, or reports that none does |
| Permalink.RestOfLine | doi-jekyll.py:236 | `(.*)` takes the longest prefix without a line break |
| Permalink.BaseAndDate | doijekyll/doijekyll.py:90-92 | the permalink needs a string `url` in the blog data, a `date` in the post and a parsed date; it uses the URL without trailing slashes |
| Permalink.PackageIgnoresFileName | doijekyll/doijekyll.py:93-101 | the package's permalink is the same whatever the file name |
| Permalink.PackagePermalinkParts | doijekyll/doijekyll.py:90-101 | the package's permalink is the slash-stripped blog URL, the date path and `asf.html` |
| Permalink.TrailingSlashIrrelevant | doijekyll/doijekyll.py:90 | a trailing slash on the blog URL changes neither release's permalink |
| Permalink.ScriptPermalinkOfJekyllFile | doi-jekyll.py:238-243 | the script maps `YYYY-MM-DD-slug.md` to `<url>/<front-matter date path>/slug.html` |
| Permalink.PrefixOfJekyllStem | doi-jekyll.py:236-242 | the leftmost match in a Jekyll post stem is its 11-character date prefix, at position 0 |
| Permalink.ScriptNeedsDatePrefix | doi-jekyll.py:242 | a stem without a date prefix makes the script's permalink fail where the package's succeeds |
| Permalink.FirstOfAugust | doijekyll/doijekyll.py:92 | 1 August 2022 prints as the prefix `2022-08-01-` and the path `2022/08/01` |
| Registry.MetadataEndpoint | doijekyll/doijekyll.py:77 | the metadata address is the provider URL, `/metadata/`, then the DOI |
| Registry.UrlEndpoint | doijekyll/doijekyll.py:121 | the URL address is the provider URL, `/doi/`, then the DOI |
| Registry.EndpointsDiffer | doijekyll/doijekyll.py:77 | the two requests of one registration go to different addresses |
| Registry.EndpointsInjective | doijekyll/doijekyll.py:121 | distinct DOIs under one provider get distinct addresses |
| Registry.Lines | doijekyll/doijekyll.py:110-115 | splitting a text at line breaks yields at least one line, none holding a line break |
| Registry.PayloadReadsBack | doijekyll/doijekyll.py:110-115 | the dedented URL body has three lines: the content-type comment, `doi= <doi>`, and `url= <url>` followed by the eight trailing spaces |
| Sources.CollectBlogData | doijekyll/doijekyll.py:32-43 | the blog data exists exactly when the configuration has a mapping `doi_jekyll` and a `url` |
| Sources.BlogUrlWins | doijekyll/doijekyll.py:39-43 | the top-level `url` overrides one inside the block, every other key keeps its value, and the block's order is kept |
| Sources.WriteBack | doijekyll/doijekyll.py:131 | the post's `doi` becomes `https://doi.org/` plus the DOI |
| Sources.WriteBackKeepsRest | doijekyll/doijekyll.py:131-136 | writing the DOI back changes no other key, keeps the key order and unique keys |
| Sources.WriteBackInPlace | doijekyll/doijekyll.py:131-136 | an existing `doi` is overwritten in place; every other entry stays where it was |
| Metadata.Required | doijekyll/metadata.py:67 | `d[k]` succeeds exactly when the key is present, with its value; otherwise it fails naming the key |
| Metadata.RequiredText | doijekyll/metadata.py:136 | a value used as a string is there and is a string |
| Metadata.PublicationYear | doijekyll/metadata.py:98-101 | the publication year needs a `date` that parses, and is that date's `%Y` |
| Metadata.VersionOf | doijekyll/metadata.py:123-126 | `version` is the post's version, `"1.0"` when it has none |
| Metadata.ReadCreator | doijekyll/metadata.py:63-88 | the identifier and creator builders succeed exactly when the post's `doi`, the author's names and string ORCID, and the blog's affiliation are present, and read those values |
| Metadata.ReadPost | doijekyll/metadata.py:89-138 | the later builders succeed exactly when title, a parsable date, publisher, an accepted license and string tags are there, and read those values |
| Metadata.Gather | doijekyll/metadata.py:178-192 | reading the builders' inputs succeeds exactly when all are present and well formed, and then holds the values read from blog, post and author |
| Metadata.Fixed | doijekyll/metadata.py:179-190 | the fourteen always-present sections carry the builders' keys, in the builders' order |
| Metadata.LayoutShape | doijekyll/metadata.py:178-192 | the record's keys are the fourteen fixed ones, then `descriptions` and `relatedIdentifiers` when built, and no key twice |
| Metadata.LayoutFixed | doijekyll/metadata.py:179-190 | each fixed section is found under its key with its builder's value |
| Metadata.Sections | doijekyll/metadata.py:178-192 | the sections are built exactly when every builder's input is present |
| Metadata.SectionsRead | doijekyll/metadata.py:178-192 | the sections are the layout of the values read from the three sources |
| Metadata.SectionOrder | doijekyll/metadata.py:178-192 | the key order is the builders' order; descriptions exactly with an abstract, the relation exactly with a blog DOI; unique keys |
| Metadata.IdentifierVerbatim | doijekyll/metadata.py:63-69 | the identifier is a DOI identifier carrying the post's `doi` unchanged |
| Metadata.CreatorFromAuthor | doijekyll/metadata.py:70-88 | the one creator is the author: name, given and family name, the ORCID URL of `orcid_id`, and the blog's affiliation |
| Metadata.VersionDefault | doijekyll/metadata.py:123-126 | the `version` section is the post's version, or `"1.0"` |
| Metadata.RightsListAlwaysPresent | doijekyll/metadata.py:127-132 | `rightsList` is always there, with `rights` `None` without a license and the SPDX entry otherwise |
| Metadata.SubjectsFromTags | doijekyll/metadata.py:133-138 | the subjects are the post's tags split at whitespace |
| Metadata.SubjectsOfSpacedTags | doijekyll/metadata.py:136 | tags written as space-separated words give exactly those words as subjects |
| Metadata.DescriptionsIffAbstract | doijekyll/metadata.py:139-151 | a descriptions section exists exactly when the post has an abstract, and carries it as an `Abstract` description |
| Metadata.RelationIffBlogDoi | doijekyll/metadata.py:152-165 | an `IsPartOf` relation exists exactly when built and the blog has a DOI, and names that DOI |
| Metadata.Override | doijekyll/metadata.py:166-171 | an override succeeds exactly when it is falsy or a mapping; a falsy one changes nothing; the record's keys stay in front |
| Metadata.Overrides | doijekyll/metadata.py:193-195 | both override layers succeed exactly when each is falsy or a mapping, and never drop or move a key |
| Metadata.Assemble | doijekyll/metadata.py:172-198 | the record exists exactly when the builders' inputs are there and both overrides are mergeable, and is a single `resource` mapping |
| Metadata.AssembleSteps | doijekyll/metadata.py:193-198 | the `resource` is the sections under the caller's and then the post's override |
| Metadata.FalsyOverridesChangeNothing | doijekyll/metadata.py:166-171 | falsy overrides leave the sections exactly as built |
| Metadata.PostOverrideWins | doijekyll/metadata.py:193-195 | a leaf named by both overrides takes the post's value |
| Metadata.CallerOverrideApplies | doijekyll/metadata.py:193 | a leaf only the caller's override names takes the caller's value |
| Metadata.OverrideUntouched | doijekyll/metadata.py:193-195 | a key neither override names keeps the value its builder gave it |
| Metadata.OverrideKeepsSiblings | doijekyll/metadata.py:194-195 | a nested override leaf is merged into its section, keeping the siblings |
| Metadata.OverridesKeepOrder | doijekyll/metadata.py:178-195 | the built keys stay, in order, in front of any keys the overrides add |
| Metadata.MalformedOverrideFails | doijekyll/metadata.py:194-195 | a post override that is neither falsy nor a mapping stops the assembly |
| Sharing.Follow | doijekyll/metadata.py:193 | a merge whose source does not name the first key keeps the shared mapping; a non-mapping at the path lets go of it; a missing path keeps it or lets go |
| Sharing.FollowMerges | doijekyll/metadata.py:193 | a mapping at the path in the source is merged into the shared mapping |
| Sharing.Reshare | doijekyll/metadata.py:193-195 | settling one entry keeps the keys, settles that entry's mapping, and leaves every other entry and unique keys alone |
| Sharing.PostAfterAssembly | doijekyll/metadata.py:123-151 | after the assembly, a mapping `version` or `abstract` of the post carries what the two overrides merged into it, in order; every other entry and the key order are as they were |
| Sharing.AssemblyInPlace | doijekyll/metadata.py:193-195 | the assembly keeps the post's length and key order, and changes no entry but `version` and `abstract` |
| Sharing.FollowTracksRecord | doijekyll/metadata.py:193 | while one merge keeps the shared mapping, the record's node at its path is exactly the mapping as the merge left it |
| Sharing.OverrideTracksRecord | doijekyll/metadata.py:193-195 | the same for one override layer |
| Sharing.OverridesTrackRecord | doijekyll/metadata.py:193-195 | while both layers keep the shared mapping, the record's node is the mapping settled through both |
| Sharing.RecordSharesVersion | doijekyll/metadata.py:123-126 | while no override replaced it, the record's `version` and the post's `version` after the assembly are the same value |
| Sharing.RecordSharesAbstract | doijekyll/metadata.py:139-151 | while no override replaced it, the record's `descriptions.description.#text` and the post's `abstract` after the assembly are the same value |
| Sharing.AssembledParts | doijekyll/metadata.py:172-198 | the record is the sections under both overrides, and the sections hold the post's `version` (or `"1.0"`) and `abstract` at their places |
| Sharing.VersionTakesOverride | doijekyll/metadata.py:123-126 | the post's own override naming a mapping `version` is merged into the post's mapping `version` |
| Sharing.AbstractTakesOverride | doijekyll/metadata.py:139-151 | the caller's override naming a mapping at `descriptions.description.#text` is merged into the post's mapping `abstract` |
| Sharing.ReplacedVersionDetaches | doijekyll/metadata.py:193 | a caller's override with a plain `version` replaces the record's node: the post keeps its `version` and the record no longer holds it |
| Sharing.NoOverrideKeepsPost | doijekyll/metadata.py:166-171 | with a falsy caller override and no override in the post, the assembly leaves the post exactly as it was |
| Sharing.MajorMinor | doijekyll/metadata.py:194-195 | a post with `version: {major: 1}` and its own override `version: {minor: 2}` comes out with both keys |
| Metadata.ScriptAssemble | doi-jekyll.py:193-215 | the script's record exists exactly when the builders' inputs are there, as a single `resource` mapping |
| Metadata.ScriptMatchesPackage | doi-jekyll.py:193-215 | the script's record equals the package's for a blog without DOI and with falsy overrides |
| Metadata.ScriptOrder | doi-jekyll.py:199-212 | the script's keys are the package's order without `relatedIdentifiers` |
| Workflow.Credentials | doijekyll/doijekyll.py:24-31 | credentials succeed exactly with both user and password; a missing user is reported first |
| Workflow.AuthorData | doijekyll/doijekyll.py:47-56 | the post must name an author; an explicit file is used as given, otherwise the lower-cased name's `.md` file in the authors directory; a named author whose file exists is read, in both cases |
| Workflow.NewDoi | doijekyll/doijekyll.py:159 | the DOI is built from the post's title and the blog's suffix base and prefix, all three required strings; no title fails with that key |
| Workflow.Collect | doijekyll/doijekyll.py:147-155 | the blog data and author data are read only after the credentials check, and are read whenever the credentials, blog data and author file are there |
| Workflow.Build | doijekyll/doijekyll.py:159-162 | building succeeds exactly when the record can be built from the post with its new DOI; the post gets the DOI under `doi`, and the post kept is that post as the assembly left its shared objects |
| Workflow.Prepare | doijekyll/doijekyll.py:157-162 | a post with a DOI fails without force; otherwise the post's `doi` is the new DOI built from the blog data; a post without a DOI, or any post under force, whose stages all succeed is prepared |
| Workflow.PrepareSteps | doijekyll/doijekyll.py:150-162 | a successful preparation is credentials, blog data, author, DOI and record in turn; the post kept is the post with its DOI after the assembly |
| Workflow.PostAfter | doijekyll/doijekyll.py:159-162 | building the record changes no entry of the post but `version` and `abstract`, and keeps its keys in order; the script changes nothing |
| Workflow.Register | doijekyll/doijekyll.py:168-198 | a dry run sends nothing and reports the DOI; any success reports the DOI the record was prepared under |
| Workflow.RegisterOrderly | doijekyll/doijekyll.py:168-198 | every registration keeps the order of effects; a successful real run ends by rewriting the post with the DOI written back |
| Workflow.RegisterEndsWithRewrite | doijekyll/doijekyll.py:195-198 | a successful real registration has effects, and the last one rewrites the post file with the DOI written back |
| Workflow.Send | doijekyll/doijekyll.py:171-198 | the metadata goes first to the metadata address; a rejection stops there, with the metadata request as the only effect; the URL is sent only after the metadata is accepted; the rewrite comes last, only on success |
| Workflow.UrlRequest | doijekyll/doijekyll.py:108-125 | the URL request exists exactly when the permalink does, goes to the URL address and carries the DOI and the permalink |
| Workflow.Run | doijekyll/doijekyll.py:146-200 | no effects on a dry run, and none and a failure for a registered post without force |
| Workflow.RunOrderly | doijekyll/doijekyll.py:146-200 | at most three effects, metadata first; no URL request with skip-url; the rewrite only as the last step of success, and every successful real run ends with it |
| Workflow.FullRegistration | doijekyll/doijekyll.py:168-198 | a successful full run is exactly the metadata PUT, the URL PUT and the rewrite, in that order |
| Workflow.SkipUrlDropsOnlyUrl | doijekyll/doijekyll.py:180-185 | with skip-url, a run that would succeed has the same effects minus the URL request, and the same result |
| Workflow.SkipRegistration | doijekyll/doijekyll.py:180-198 | with skip-url, accepted metadata is followed by the rewrite alone |
| Workflow.RegisterSucceeded | doijekyll/doijekyll.py:171-193 | a successful full run needed a provider URL, both replies positive, and a permalink |
| Workflow.DryRunPreviews | doijekyll/doijekyll.py:168-199 | a dry run has no effects and reports the DOI a real run registers |
| Workflow.RecordNamesTheDoi | doijekyll/doijekyll.py:159-162 | the record sent names the DOI it is registered under, whenever neither the caller's override nor the post's `doi-additional-metadata` names `identifier` |
| Workflow.RecordIdentifier | doijekyll/metadata.py:63-69 | the record's identifier carries the post's `doi` when no override names it |
| Workflow.OverrideAfterDoi | doijekyll/doijekyll.py:159-162 | setting the post's `doi` leaves the post's own `doi-additional-metadata` override as it was |
| Workflow.RunCompletes | doijekyll/doijekyll.py:146-200 | a prepared run with a provider address, a permalink and both replies positive succeeds with three effects |
| Workflow.RunAsWritten | doijekyll/doijekyll.py:162-198 | as written, no run sends a URL request or rewrites the post; the package sends nothing and always fails; only a dry run of the script succeeds |
| Workflow.PackageAsWritten | doijekyll/doijekyll.py:157-162 | as written, the package's `main` fails before any request |
| Workflow.DebugAsWritten | doi-jekyll.py:308-318 | with the `debug.ok` defect, a dry run sends nothing, and a real run sends at most the metadata and then fails |
| Workflow.DebugAsWrittenFails | doijekyll/doijekyll.py:171-178 | with the `debug.ok` defect, a real run that would succeed sends the same metadata request first and then stops at the undefined `debug` |
| Workflow.PackageAsWrittenFails | doijekyll/doijekyll.py:162 | as written, a package run that gets past the DOI stops with the missing `additional_metadata` argument |
| Workflow.ScriptAsWrittenFails | doi-jekyll.py:311-318 | as written, a real script run that would succeed sends the same metadata request first and then stops at the undefined `debug` |
| Workflow.ScriptStopsAfterMetadata | doi-jekyll.py:308-333 | for a file name without a date prefix, the script stops after the metadata PUT, where the package completes all three steps |
| Workflow.RunWritesBack | doijekyll/doijekyll.py:157-198 | a successful real run writes back the post it read, with `doi` set to the resolver address of the new DOI, and, in the package, with whatever the overrides merged into its shared `version` and `abstract` |
| Workflow.WrittenVersionMerged | doijekyll/doijekyll.py:162-198 | a package run on a post whose `version` is a mapping, with its own override naming a mapping `version`, writes back the two merged |
| Workflow.RegisterWritesBack | doijekyll/doijekyll.py:198 | a successful real registration rewrites the post with the DOI written back |
| Workflow.ForcedRewriteInPlace | doijekyll/doijekyll.py:157-198 | a forced run on a post with a DOI rewrites that entry in place; every key stays where it was; every other entry is kept, except that the package may have merged into `version` and `abstract` |
| Workflow.RewriteTwiceInPlace | doijekyll/doijekyll.py:126-137 | storing the bare DOI, assembling, and storing its resolver address under an existing `doi` keeps the keys in place and changes no other entry but the shared ones |

## Left out

- Reading `_config.yml` and the front matter, and `frontmatter.dump`. The model takes parsed values and returns the rewritten front matter as an effect, because file I/O is outside the model.
- `requests.put` and HTTP. The requests are effects, and DataCite's answers are the inputs `Replies.metadataOk` and `Replies.urlOk`.
- `xmltodict.unparse`. The record is sent as the JSON-like value; XML serialisation belongs to a library.
- `dateparser.parse` is not modelled. The parsed date is an input `Option<CivilDate>`, where `None` stands for a date the parser rejects.
- Command-line parsing (`doijekyll/cli.py`, the argparse block of `doi-jekyll.py`), environment defaults, logging, `print` and verbosity. The switches are the `Flags` datatype.
- The unused `extDict` class of `doijekyll/metadata.py`.
- `collectPostData`: it only loads a file.
- Workflow.Register: the undefined `debug.ok` is modelled as the metadata reply's `ok` (see "## Findings"). As written, the code raises a `NameError` right after the metadata PUT.
- Workflow.Prepare: the caller's extra metadata is passed to the package's `assembleMetadata` (see "## Findings"). As written, `main` omits that argument and raises a `TypeError`.
- Metadata.Override: a truthy override that is not a mapping always fails as `OverrideNotMapping`. mergedeep iterates over any truthy value, so a list of integers such as `[0]` is merged index by index, giving the record an integer key. The model's keys are strings; such a record would in any case fail in `xmltodict.unparse` before any request.
- Metadata.Overrides: the same integer-list case as `Metadata.Override`.
- Metadata.Assemble: the same integer-list case as `Metadata.Override`; `assembleMetadata` itself returns a record there.
- Metadata.MalformedOverrideFails: the same integer-list case as `Metadata.Override`.
- Text.Lower: only ASCII letters are lower-cased. This covers the license short names, but not non-ASCII author names.
- Workflow.Register: `provider_url` must be a string; a non-string fails as `NotText`. The f-strings that build the two endpoints would format any value with `str()`.
- YAML anchors and aliases are not modelled: each front matter value is its own object. Two keys sharing one object could let a merge reach both.
- The record also holds the blog's and the author's objects, but those are never written back, so sharing them changes nothing the model observes. The post's `title` is placed the same way, but a run needs a string title, which no merge changes.
- Permalink.Search: `\d` is taken as the ASCII digits. Python's `\d` also matches other Unicode decimal digits.
- Paths.WithSuffix: paths are not normalised. `.` components, doubled slashes and Windows separators are out of scope; POSIX paths only.
- Workflow.NewDoi: the title, suffix base and prefix must be strings. Python would format a non-string base or prefix with `str()`.
- Metadata.ReadCreator: `orcid_id` must be a string. The f-string would format any value.
- Registry.PayloadReadsBack: stated for a DOI and URL without line breaks. `textwrap.dedent` is modelled by its result for such single-line values, not as a general algorithm.
- Workflow.AuthorData: a missing author file is a failure `AuthorFileMissing`. The loader's own exceptions are not distinguished.
- License.ParseLicense: an unknown name is one failure `UnknownLicense`. The package's `sys.exit` (a `NameError`, since `sys` is not imported there) and the script's `sys.exit` both end the run at the same point.

## Findings

| source | as written | input that shows it | evidently intended | confidence | as-written member | corrected member |
|---|---|---|---|---|---|---|
| doijekyll/doijekyll.py:174 | `if not debug.ok:` reads `debug`, a name the module never defines, so a `NameError` follows every metadata PUT (reached once the call at line 162 is fixed) | any real run that reaches the metadata PUT | test the metadata reply, `dj_regMd_result.ok` | high; not executed | Workflow.DebugAsWrittenFails | Workflow.FullRegistration |
| doi-jekyll.py:314 | the same undefined `debug.ok` in the script | any real script run that reaches the metadata PUT | test the metadata reply | high; not executed | Workflow.ScriptAsWrittenFails | Workflow.FullRegistration |
| doijekyll/doijekyll.py:162 | `assembleMetadata` is called without its required `additional_metadata` argument (doijekyll/metadata.py:172), a `TypeError` | any package run whose post gets a DOI, dry runs included | pass the caller's extra metadata, or default it to none | high; not executed | Workflow.PackageAsWrittenFails | Workflow.RunCompletes |

=== FILE: base64.dfy ===
/** Base64 encoding with the alphabet and `=` padding of section 4 of
    RFC 4648 (Python's `base64.b64encode`), and the matching strict decoder. */
module Base64 {
  import opened Wrappers
  import opened Bytes

  /** The character for a 6-bit value: `A`-`Z`, `a`-`z`, `0`-`9`, `+`, `/`. */
  function Char(i: int): char
    requires 0 <= i < 64
  {
    if i < 26 then ('A' as int + i) as char
    else if i < 52 then ('a' as int + (i - 26)) as char
    else if i < 62 then ('0' as int + (i - 52)) as char
    else if i == 62 then '+'
    else '/'
  }

  /** The 6-bit value of an alphabet character; `None` for anything else,
      the padding character included. */
  function Index(c: char): (r: Option<int>)
    ensures r.Some? ==> 0 <= r.value < 64 && Char(r.value) == c
  {
    if 'A' <= c <= 'Z' then Some(c as int - 'A' as int)
    else if 'a' <= c <= 'z' then Some(c as int - 'a' as int + 26)
    else if '0' <= c <= '9' then Some(c as int - '0' as int + 52)
    else if c == '+' then Some(62)
    else if c == '/' then Some(63)
    else None
  }

  lemma IndexOfChar(i: int)
    requires 0 <= i < 64
    ensures Index(Char(i)) == Some(i)
  {
  }

  /** Each group of three bytes becomes four characters; a final group of one
      or two bytes is padded with `==` or `=`. */
  function Encode(b: seq<byte>): (r: string)
    ensures |r| == 4 * ((|b| + 2) / 3)
    decreases |b|
  {
    if |b| == 0 then []
    else if |b| == 1 then
      [Char(b[0] / 4), Char(b[0] % 4 * 16), '=', '=']
    else if |b| == 2 then
      [Char(b[0] / 4), Char(b[0] % 4 * 16 + b[1] / 16), Char(b[1] % 16 * 4), '=']
    else
      [Char(b[0] / 4), Char(b[0] % 4 * 16 + b[1] / 16), Char(b[1] % 16 * 4 + b[2] / 64), Char(b[2] % 64)]
      + Encode(b[3..])
  }

  /** Decodes one group of four characters; `last` allows padding. Unused
      bits in front of the padding must be zero, as `Encode` leaves them. */
  function DecodeQuad(q: string, last: bool): Option<seq<byte>>
    requires |q| == 4
  {
    var a :- Index(q[0]);
    var b :- Index(q[1]);
    if last && q[2] == '=' && q[3] == '=' then
      if b % 16 == 0 then Some([a * 4 + b / 16]) else None
    else
      var c :- Index(q[2]);
      if last && q[3] == '=' then
        if c % 4 == 0 then Some([a * 4 + b / 16, b % 16 * 16 + c / 4]) else None
      else
        var d :- Index(q[3]);
        Some([a * 4 + b / 16, b % 16 * 16 + c / 4, c % 4 * 64 + d])
  }

  /** Strict base64 decoding: whole groups of four, padding only at the end. */
  function Decode(s: string): Option<seq<byte>>
    decreases |s|
  {
    if s == [] then Some([])
    else if |s| < 4 then None
    else if |s| == 4 then DecodeQuad(s, true)
    else
      var head :- DecodeQuad(s[..4], false);
      var tail :- Decode(s[4..]);
      Some(head + tail)
  }

  lemma QuadRoundTrip(x: byte, y: byte, z: byte)
    ensures DecodeQuad([Char(x / 4), Char(x % 4 * 16 + y / 16), Char(y % 16 * 4 + z / 64), Char(z % 64)], false)
      == Some([x, y, z])
    ensures DecodeQuad([Char(x / 4), Char(x % 4 * 16 + y / 16), Char(y % 16 * 4 + z / 64), Char(z % 64)], true)
      == Some([x, y, z])
    ensures DecodeQuad([Char(x / 4), Char(x % 4 * 16 + y / 16), Char(y % 16 * 4), '='], true) == Some([x, y])
    ensures DecodeQuad([Char(x / 4), Char(x % 4 * 16), '=', '='], true) == Some([x])
  {
    QuadThree(x, y, z);
    QuadTwo(x, y);
    QuadOne(x);
  }

  lemma QuadThree(x: byte, y: byte, z: byte)
    ensures DecodeQuad([Char(x / 4), Char(x % 4 * 16 + y / 16), Char(y % 16 * 4 + z / 64), Char(z % 64)], false)
      == Some([x, y, z])
    ensures DecodeQuad([Char(x / 4), Char(x % 4 * 16 + y / 16), Char(y % 16 * 4 + z / 64), Char(z % 64)], true)
      == Some([x, y, z])
  {
    var a, b, c, d := x / 4, x % 4 * 16 + y / 16, y % 16 * 4 + z / 64, z % 64;
    IndexOfChar(a);
    IndexOfChar(b);
    IndexOfChar(c);
    IndexOfChar(d);
    assert a * 4 + b / 16 == x by {
      assert b / 16 == x % 4;
    }
    assert b % 16 * 16 + c / 4 == y by {
      assert b % 16 == y / 16;
      assert c / 4 == y % 16;
    }
    assert c % 4 * 64 + d == z by {
      assert c % 4 == z / 64;
    }
  }

  lemma QuadTwo(x: byte, y: byte)
    ensures DecodeQuad([Char(x / 4), Char(x % 4 * 16 + y / 16), Char(y % 16 * 4), '='], true) == Some([x, y])
  {
    var a, b, c := x / 4, x % 4 * 16 + y / 16, y % 16 * 4;
    IndexOfChar(a);
    IndexOfChar(b);
    IndexOfChar(c);
    assert a * 4 + b / 16 == x by {
      assert b / 16 == x % 4;
    }
    assert b % 16 * 16 + c / 4 == y by {
      assert b % 16 == y / 16;
      assert c / 4 == y % 16;
    }
    assert c % 4 == 0;
  }

  lemma QuadOne(x: byte)
    ensures DecodeQuad([Char(x / 4), Char(x % 4 * 16), '=', '='], true) == Some([x])
  {
    var a, b := x / 4, x % 4 * 16;
    IndexOfChar(a);
    IndexOfChar(b);
    assert a * 4 + b / 16 == x;
    assert b % 16 == 0;
  }

  /** Decoding undoes encoding, for every byte string. */
  lemma {:induction false} DecodeEncode(b: seq<byte>)
    ensures Decode(Encode(b)) == Some(b)
    decreases |b|
  {
    if |b| == 1 {
      DecodeEncodeOne(b);
    } else if |b| == 2 {
      DecodeEncodeTwo(b);
    } else if |b| == 3 {
      DecodeEncodeThree(b);
    } else if |b| > 3 {
      DecodeEncode(b[3..]);
      DecodeEncodeStep(b);
    }
  }

  lemma DecodeEncodeStep(b: seq<byte>)
    requires |b| > 3 && Decode(Encode(b[3..])) == Some(b[3..])
    ensures Decode(Encode(b)) == Some(b)
  {
    assert b[..3] + b[3..] == b;
    var q := [Char(b[0] / 4), Char(b[0] % 4 * 16 + b[1] / 16), Char(b[1] % 16 * 4 + b[2] / 64), Char(b[2] % 64)];
    EncodeStep(b);
    QuadOfPrefix(b);
    DecodeAppend(q, Encode(b[3..]), b[..3], b[3..]);
  }

  lemma EncodeStep(b: seq<byte>)
    requires |b| > 3
    ensures Encode(b) == [Char(b[0] / 4), Char(b[0] % 4 * 16 + b[1] / 16), Char(b[1] % 16 * 4 + b[2] / 64), Char(b[2] % 64)]
      + Encode(b[3..])
  {
  }

  lemma QuadOfPrefix(b: seq<byte>)
    requires |b| >= 3
    ensures DecodeQuad([Char(b[0] / 4), Char(b[0] % 4 * 16 + b[1] / 16), Char(b[1] % 16 * 4 + b[2] / 64), Char(b[2] % 64)], false)
      == Some(b[..3])
    ensures DecodeQuad([Char(b[0] / 4), Char(b[0] % 4 * 16 + b[1] / 16), Char(b[1] % 16 * 4 + b[2] / 64), Char(b[2] % 64)], true)
      == Some(b[..3])
  {
    QuadRoundTrip(b[0], b[1], b[2]);
    Spelled(b[..3]);
  }

  /** A three-byte string is its three bytes. */
  lemma Spelled(b: seq<byte>)
    requires |b| == 3
    ensures b == [b[0], b[1], b[2]]
  {
  }

  /** Decoding proceeds group by group. */
  lemma DecodeAppend(q: string, rest: string, h: seq<byte>, t: seq<byte>)
    requires |q| == 4 && rest != []
    requires DecodeQuad(q, false) == Some(h) && Decode(rest) == Some(t)
    ensures Decode(q + rest) == Some(h + t)
  {
    var s := q + rest;
    assert s[..4] == q && s[4..] == rest;
  }

  lemma DecodeEncodeOne(b: seq<byte>)
    requires |b| == 1
    ensures Decode(Encode(b)) == Some(b)
  {
    var q := [Char(b[0] / 4), Char(b[0] % 4 * 16), '=', '='];
    assert Encode(b) == q;
    assert Decode(q) == DecodeQuad(q, true);
    QuadOne(b[0]);
    assert b == [b[0]];
  }

  lemma DecodeEncodeTwo(b: seq<byte>)
    requires |b| == 2
    ensures Decode(Encode(b)) == Some(b)
  {
    var q := [Char(b[0] / 4), Char(b[0] % 4 * 16 + b[1] / 16), Char(b[1] % 16 * 4), '='];
    assert Encode(b) == q;
    assert Decode(q) == DecodeQuad(q, true);
    QuadTwo(b[0], b[1]);
    assert b == [b[0], b[1]];
  }

  lemma DecodeEncodeThree(b: seq<byte>)
    requires |b| == 3
    ensures Decode(Encode(b)) == Some(b)
  {
    var q := [Char(b[0] / 4), Char(b[0] % 4 * 16 + b[1] / 16), Char(b[1] % 16 * 4 + b[2] / 64), Char(b[2] % 64)];
    EncodeThree(b);
    DecodeSingle(q);
    QuadThree(b[0], b[1], b[2]);
    Spelled(b);
  }

  lemma EncodeThree(b: seq<byte>)
    requires |b| == 3
    ensures Encode(b) == [Char(b[0] / 4), Char(b[0] % 4 * 16 + b[1] / 16), Char(b[1] % 16 * 4 + b[2] / 64), Char(b[2] % 64)]
  {
    assert b[3..] == [];
  }

  lemma DecodeSingle(q: string)
    requires |q| == 4
    ensures Decode(q) == DecodeQuad(q, true)
  {
  }

  /** The first two characters of an encoding of at least two bytes depend
      on those two bytes only. */
  lemma EncodeFirstTwo(b: seq<byte>)
    requires |b| >= 2
    ensures Encode(b)[..2] == [Char(b[0] / 4), Char(b[0] % 4 * 16 + b[1] / 16)]
  {
  }
}

=== FILE: bytes.dfy ===
/** Octets, the unit both the UTF-8 encoder and the base64 codec work on
    (Python's `bytes` elements). */
module Bytes {

  type byte = x: int | 0 <= x < 256
}

=== FILE: calendar.dfy ===
/** The parsed post date and the two ways the tool prints it: `%Y` for the
    publication year and `%Y/%m/%d` for the permalink. */
module Calendar {
  import opened Text

  /** A calendar date as `datetime` holds it. */
  datatype Date = Date(year: int, month: int, day: int)

  predicate Valid(d: Date) {
    1 <= d.year <= 9999 && 1 <= d.month <= 12 && 1 <= d.day <= 31
  }

  /** The dates `datetime` can represent. */
  type CivilDate = d: Date | Valid(d) witness Date(1970, 1, 1)

  /** `strftime('%Y')`: the year in decimal. */
  function YearText(d: CivilDate): (r: string)
    ensures forall i :: 0 <= i < |r| ==> IsDigit(r[i])
    ensures DigitsValue(r) == d.year
    ensures 1000 <= d.year ==> |r| == 4
  {
    YearWidth(d.year);
    Decimal(d.year)
  }

  lemma YearWidth(n: nat)
    ensures 1000 <= n <= 9999 ==> |Decimal(n)| == 4
  {
    if 1000 <= n <= 9999 {
      DecimalFourDigits(n);
    }
  }

  /** `strftime('%Y/%m/%d')`: year, then two-digit month and day. */
  function DatePath(d: CivilDate): string {
    YearText(d) + "/" + Pad2(d.month) + "/" + Pad2(d.day)
  }

  /** For four-digit years the path is `YYYY/MM/DD`, and reading its three
      digit groups back gives the date. */
  lemma DatePathReadsBack(d: CivilDate)
    requires 1000 <= d.year
    ensures |DatePath(d)| == 10 && DatePath(d)[4] == '/' && DatePath(d)[7] == '/'
    ensures forall i :: 0 <= i < 10 && i != 4 && i != 7 ==> IsDigit(DatePath(d)[i])
    ensures DigitsValue(DatePath(d)[..4]) == d.year
    ensures DigitsValue(DatePath(d)[5..7]) == d.month
    ensures DigitsValue(DatePath(d)[8..]) == d.day
  {
    var y, m, dd := YearText(d), Pad2(d.month), Pad2(d.day);
    var p := DatePath(d);
    assert p[..4] == y;
    assert p[5..7] == m;
    assert p[8..] == dd;
  }

  /** Distinct dates have distinct paths. */
  lemma DatePathInjective(a: CivilDate, b: CivilDate)
    requires 1000 <= a.year && 1000 <= b.year
    requires DatePath(a) == DatePath(b)
    ensures a == b
  {
    DatePathReadsBack(a);
    DatePathReadsBack(b);
  }
}

=== FILE: deep_merge.dfy ===
/** `mergedeep.merge(destination, source)` with its default REPLACE strategy,
    restated as a pure function on association lists: for each key of the
    source, in order, two mappings are merged recursively; otherwise the
    source value (a list included) replaces the destination value; keys the
    destination lacks are appended after its existing keys. */
module DeepMerge {
  import opened Wrappers
  import opened Json

  /** `ks` followed by the keys of `ns` that are not yet present, in order of
      first appearance: the key order a merge produces. */
  function AppendNew(ks: seq<string>, ns: seq<string>): seq<string>
    decreases |ns|
  {
    if ns == [] then ks
    else AppendNew(if ns[0] in ks then ks else ks + [ns[0]], ns[1..])
  }

  /** Merges the entries `src[i..]` into `dst`, one key after the other. */
  function MergeFrom(dst: Fields, src: Fields, i: nat): (r: Fields)
    requires i <= |src|
    ensures Keys(r) == AppendNew(Keys(dst), Keys(src)[i..])
    ensures UniqueKeys(dst) ==> UniqueKeys(r)
    decreases Obj(src), 0, |src| - i
  {
    if i == |src| then dst
    else
      var r := MergeFrom(MergeKey(dst, src[i].0, src[i].1), src, i + 1);
      assert Keys(src)[i..][1..] == Keys(src)[i + 1..];
      r
  }

  /** The value a key ends up with when `v` is merged onto the destination's
      `prior` value: two mappings merge, anything else is replaced. */
  function MergedValue(prior: Option<Value>, v: Value): Value
    decreases v, 1
  {
    match prior
    case Some(Obj(d)) => if v.Obj? then Obj(MergeFrom(d, v.fields, 0)) else v
    case _ => v
  }

  /** Merges one source entry `(k, v)` into `dst`. */
  function MergeKey(dst: Fields, k: string, v: Value): (r: Fields)
    ensures Keys(r) == if HasKey(dst, k) then Keys(dst) else Keys(dst) + [k]
    ensures UniqueKeys(dst) ==> UniqueKeys(r)
    decreases v, 2
  {
    Put(dst, k, MergedValue(Get(dst, k), v))
  }

  /** `merge(dst, src)`: the destination's keys keep their positions and the
      source's new keys follow, in the source's order. */
  function Merge(dst: Fields, src: Fields): (r: Fields)
    ensures Keys(r) == AppendNew(Keys(dst), Keys(src))
    ensures UniqueKeys(dst) ==> UniqueKeys(r)
  {
    MergeFrom(dst, src, 0)
  }

  /** Every key of `ks` keeps its position, and only keys of `ns` are added. */
  lemma {:induction false} AppendNewExtends(ks: seq<string>, ns: seq<string>)
    ensures |ks| <= |AppendNew(ks, ns)|
    ensures AppendNew(ks, ns)[..|ks|] == ks
    ensures forall x :: x in AppendNew(ks, ns) <==> x in ks || x in ns
    decreases |ns|
  {
    if ns != [] {
      var ks' := if ns[0] in ks then ks else ks + [ns[0]];
      AppendNewExtends(ks', ns[1..]);
      assert AppendNew(ks, ns)[..|ks|] == ks'[..|ks|];
      assert forall x :: x in ns <==> x == ns[0] || x in ns[1..];
    }
  }

  /** The value semantics of merging `src[i..]`: a key the source names gets
      the merged value, every other key keeps the destination's value. */
  lemma {:induction false} MergeFromGet(dst: Fields, src: Fields, i: nat, k: string)
    requires UniqueKeys(src) && i <= |src|
    ensures Get(MergeFrom(dst, src, i), k) ==
      match Get(src[i..], k)
      case Some(v) => Some(MergedValue(Get(dst, k), v))
      case None => Get(dst, k)
    decreases |src| - i
  {
    if i < |src| {
      var k0, v0 := src[i].0, src[i].1;
      MergeFromGet(MergeKey(dst, k0, v0), src, i + 1, k);
      MergeKeyGet(dst, k0, v0, k);
      SuffixGet(src, i, k);
    }
  }

  lemma MergeKeyGet(dst: Fields, k0: string, v0: Value, k: string)
    ensures Get(MergeKey(dst, k0, v0), k) ==
      if k == k0 then Some(MergedValue(Get(dst, k), v0)) else Get(dst, k)
  {
  }

  /** Looking a key up in `src[i..]` either finds it at `i` or in `src[i + 1..]`,
      and with unique keys never in both. */
  lemma SuffixGet(src: Fields, i: nat, k: string)
    requires UniqueKeys(src) && i < |src|
    ensures k == src[i].0 ==> Get(src[i..], k) == Some(src[i].1) && Get(src[i + 1..], k) == None
    ensures k != src[i].0 ==> Get(src[i..], k) == Get(src[i + 1..], k)
  {
    var t := src[i..];
    assert t[0] == src[i] && t[1..] == src[i + 1..];
    var u := src[i + 1..];
    assert forall j :: 0 <= j < |u| ==> u[j] == src[i + 1 + j];
  }

  /** The value semantics of `merge(dst, src)`. */
  lemma MergeGet(dst: Fields, src: Fields, k: string)
    requires UniqueKeys(src)
    ensures Get(Merge(dst, src), k) ==
      match Get(src, k)
      case Some(v) => Some(MergedValue(Get(dst, k), v))
      case None => Get(dst, k)
  {
    MergeFromGet(dst, src, 0, k);
    assert src[0..] == src;
  }

  /** A key the source does not name keeps its value. */
  lemma MergeUntouched(dst: Fields, src: Fields, k: string)
    requires UniqueKeys(src) && !HasKey(src, k)
    ensures Get(Merge(dst, src), k) == Get(dst, k)
  {
    MergeGet(dst, src, k);
  }

  /** A source value that is not merged recursively (a string, a list, or a
      mapping onto a non-mapping) replaces the destination's value wholesale. */
  lemma MergeReplaces(dst: Fields, src: Fields, k: string, v: Value)
    requires UniqueKeys(src) && Get(src, k) == Some(v)
    requires !v.Obj? || !(Get(dst, k).Some? && Get(dst, k).value.Obj?)
    ensures Get(Merge(dst, src), k) == Some(v)
  {
    MergeGet(dst, src, k);
  }

  /** Two mappings under the same key are merged, not replaced: the sibling
      keys the source does not mention survive with their values. */
  lemma MergeKeepsSiblings(dst: Fields, src: Fields, k: string, d: Fields, s: Fields, sibling: string)
    requires UniqueKeys(src) && UniqueKeys(s)
    requires Get(dst, k) == Some(Obj(d)) && Get(src, k) == Some(Obj(s))
    requires !HasKey(s, sibling)
    ensures Get(Merge(dst, src), k) == Some(Obj(Merge(d, s)))
    ensures Get(Merge(d, s), sibling) == Get(d, sibling)
  {
    MergeGet(dst, src, k);
    MergeGet(d, s, sibling);
  }

  /** Of two successive merges, the later one decides a leaf both name. */
  lemma LaterMergeWins(dst: Fields, a: Fields, b: Fields, k: string, va: Value, vb: Value)
    requires UniqueKeys(a) && UniqueKeys(b)
    requires Get(a, k) == Some(va) && Get(b, k) == Some(vb)
    requires !vb.Obj?
    ensures Get(Merge(Merge(dst, a), b), k) == Some(vb)
  {
    MergeGet(Merge(dst, a), b, k);
  }

  /** Merging never moves or drops a destination key: the destination's keys
      are a prefix of the result's, and every other key comes from the source. */
  lemma MergeKeyOrder(dst: Fields, src: Fields)
    ensures Keys(dst) <= Keys(Merge(dst, src))
    ensures forall x :: HasKey(Merge(dst, src), x) <==> HasKey(dst, x) || HasKey(src, x)
  {
    AppendNewExtends(Keys(dst), Keys(src));
  }
}

=== FILE: doi.dfy ===
/** DOI generation (`genDoi`, identical in the package and in the script):
    `prefix + "/" + base + "-"` followed by the first six characters of the
    base64 encoding of the title's UTF-8 bytes. */
module Doi {
  import opened Wrappers
  import opened Bytes
  import opened Base64

  /** `base64.b64encode(title)[0:6]`: a slice, so shorter encodings are kept whole. */
  function Fragment(title: seq<byte>): (f: string)
    ensures |f| == if |title| == 0 then 0 else if |title| <= 3 then 4 else 6
    ensures f <= Encode(title)
  {
    var e := Encode(title);
    if |e| <= 6 then e else e[..6]
  }

  /** `genDoi(title, base, prefix)`: the DOI is the prefix, a slash, the
      blog's suffix base, a dash, and then exactly the leading (at most six)
      characters of the title's base64 text. */
  function GenDoi(title: seq<byte>, base: string, prefix: string): (r: string)
    ensures |r| == |prefix| + |base| + 2 + |Fragment(title)|
    ensures r[..|prefix| + |base| + 2] == prefix + "/" + base + "-"
    ensures r[|prefix| + |base| + 2..] <= Encode(title)
    ensures |r[|prefix| + |base| + 2..]| == if |Encode(title)| < 6 then |Encode(title)| else 6
  {
    prefix + "/" + base + "-" + Fragment(title)
  }

  /** No alphabet character is the padding character. */
  lemma CharIsNotPadding(i: int)
    requires 0 <= i < 64
    ensures Char(i) != '='
  {
    IndexOfChar(i);
  }

  /** The fragment ends in padding exactly for one- and two-byte titles. */
  lemma FragmentPadding(title: seq<byte>)
    ensures (|Fragment(title)| > 0 && Fragment(title)[|Fragment(title)| - 1] == '=')
      <==> 1 <= |title| <= 2
  {
    var f := Fragment(title);
    if |title| == 3 {
      CharIsNotPadding(title[2] % 64);
    } else if |title| == 4 {
      EncodeStep(title);
      assert title[3..] == [title[3]];
      CharIsNotPadding(title[3] % 4 * 16);
      assert f[5] == Encode(title[3..])[1];
    } else if |title| > 4 {
      EncodeStep(title);
      EncodeFirstTwo(title[3..]);
      CharIsNotPadding(title[3] % 4 * 16 + title[4] / 16);
      assert f[5] == Encode(title[3..])[1];
    }
  }

  /** The fragment of a title of five or more bytes is fixed by its first
      five bytes. */
  lemma FragmentOfFirstFive(title: seq<byte>)
    requires |title| >= 5
    ensures Fragment(title) ==
      [Char(title[0] / 4), Char(title[0] % 4 * 16 + title[1] / 16),
       Char(title[1] % 16 * 4 + title[2] / 64), Char(title[2] % 64),
       Char(title[3] / 4), Char(title[3] % 4 * 16 + title[4] / 16)]
  {
    EncodeStep(title);
    EncodeFirstTwo(title[3..]);
    var e := Encode(title);
    assert e[..6] == e[..4] + Encode(title[3..])[..2];
  }

  /** The known weak point of the scheme: two titles that share their first
      five bytes get the same DOI, whatever follows. */
  lemma SharedPrefixCollides(a: seq<byte>, b: seq<byte>, base: string, prefix: string)
    requires |a| >= 5 && |b| >= 5 && a[..5] == b[..5]
    ensures GenDoi(a, base, prefix) == GenDoi(b, base, prefix)
  {
    FragmentOfFirstFive(a);
    FragmentOfFirstFive(b);
    assert forall i :: 0 <= i < 5 ==> a[i] == a[..5][i] && b[i] == b[..5][i];
  }

  /** What the fragment pins down: a title of at most three bytes is
      recovered whole, a longer title's first three bytes are recovered from
      the first four characters. */
  lemma FragmentDecodes(title: seq<byte>)
    ensures |title| <= 3 ==> Decode(Fragment(title)) == Some(title)
    ensures |title| >= 3 ==> Decode(Fragment(title)[..4]) == Some(title[..3])
  {
    if |title| <= 3 {
      DecodeEncode(title);
      if |title| == 3 {
        assert Fragment(title)[..4] == Fragment(title);
        assert title[..3] == title;
      }
    } else {
      FragmentHeadDecodes(title);
    }
  }

  lemma FragmentHeadDecodes(title: seq<byte>)
    requires |title| > 3
    ensures Decode(Fragment(title)[..4]) == Some(title[..3])
  {
    EncodeStep(title);
    QuadOfPrefix(title);
    var q := [Char(title[0] / 4), Char(title[0] % 4 * 16 + title[1] / 16),
              Char(title[1] % 16 * 4 + title[2] / 64), Char(title[2] % 64)];
    assert Fragment(title)[..4] == q;
  }
}

=== FILE: errors.dfy ===
/** The reasons a run of the tool stops early. Each constructor stands for
    one Python exception or `sys.exit()` the source can reach. */
module Errors {

  datatype Error =
    | MissingKey(key: string)          // KeyError on a required mapping key
    | NotText(key: string)             // a string method called on a non-string value
    | NotMapping(key: string)          // a mapping operation on a non-mapping value
    | UnknownLicense(code: string)     // license short code outside the lookup table
    | UnparsableDate                   // the date parser returned None
    | EmptyName(path: string)          // PurePath.with_suffix on a path with an empty name
    | NoDatePrefix(stem: string)       // the dated-filename regex did not match
    | OverrideNotMapping               // a truthy override that is not a mapping
    | MissingUser                      // no registry user name
    | MissingPassword                  // no registry password
    | AuthorFileMissing(path: string)  // the author file cannot be loaded
    | AlreadyRegistered                // the post has a DOI and force is off
    | MetadataRejected                 // the metadata PUT was not answered "ok"
    | UrlRejected                      // the URL PUT was not answered "ok"
    | UndefinedName(name: string)      // NameError: a name the module never defines
    | MissingArgument(name: string)    // TypeError: a call without a required argument
}

=== FILE: json.dfy ===
/** The JSON-like values the tool moves around: YAML front-matter, the blog
    configuration, author records and the DataCite record itself. A Python
    dict is an ordered association list, because insertion order becomes the
    order of the XML elements. */
module Json {
  import opened Wrappers

  datatype Value =
    | Null
    | Bool(b: bool)
    | Int(i: int)
    | Str(s: string)
    | List(items: seq<Value>)
    | Obj(fields: seq<(string, Value)>)

  type Fields = seq<(string, Value)>

  /** The keys of an association list, in order. */
  function Keys(fs: Fields): (ks: seq<string>)
    ensures |ks| == |fs|
    ensures forall i :: 0 <= i < |fs| ==> ks[i] == fs[i].0
  {
    if fs == [] then [] else [fs[0].0] + Keys(fs[1..])
  }

  /** `dict(zip(ks, vs))` for keys and values of equal length. */
  function Zip(ks: seq<string>, vs: seq<Value>): (r: Fields)
    requires |ks| == |vs|
    ensures |r| == |ks| && Keys(r) == ks
    ensures forall i :: 0 <= i < |ks| ==> r[i] == (ks[i], vs[i])
  {
    if ks == [] then [] else [(ks[0], vs[0])] + Zip(ks[1..], vs[1..])
  }

  /** Python's `k in d`. */
  predicate HasKey(fs: Fields, k: string) {
    k in Keys(fs)
  }

  /** A Python mapping never holds a key twice. */
  predicate UniqueKeys(fs: Fields) {
    forall i, j :: 0 <= i < j < |fs| ==> fs[i].0 != fs[j].0
  }

  /** Python's `d.get(k)`, with absence as `None` (distinct from a stored `Null`). */
  function Get(fs: Fields, k: string): (r: Option<Value>)
    ensures r.Some? <==> HasKey(fs, k)
    ensures r.Some? ==> (k, r.value) in fs
    ensures UniqueKeys(fs) ==> forall i :: 0 <= i < |fs| && fs[i].0 == k ==> r == Some(fs[i].1)
  {
    if fs == [] then None
    else if fs[0].0 == k then Some(fs[0].1)
    else
      var r := Get(fs[1..], k);
      assert forall i :: 1 <= i < |fs| ==> fs[i] == fs[1..][i - 1];
      r
  }

  /** Python's `d[k] = v`: an existing key keeps its position, a new key is
      appended; every other entry is left alone. */
  function Put(fs: Fields, k: string, v: Value): (r: Fields)
    ensures PutSpec(fs, r, k, v)
  {
    if fs == [] then
      [(k, v)]
    else if fs[0].0 == k then
      assert fs == [fs[0]] + fs[1..];
      ReplaceHead(fs[0], fs[1..], k, v);
      [(k, v)] + fs[1..]
    else
      var rest := Put(fs[1..], k, v);
      assert fs == [fs[0]] + fs[1..];
      ConsKeeps(fs[0], fs[1..], rest, k, v);
      [fs[0]] + rest
  }

  /** What `d[k] = v` promises: `k` now maps to `v`, every other key maps to
      what it did, the key order is kept with `k` appended if it is new, and
      no key appears twice that did not before. */
  ghost predicate PutSpec(fs: Fields, r: Fields, k: string, v: Value) {
    && Get(r, k) == Some(v)
    && (forall k' :: k' != k ==> Get(r, k') == Get(fs, k'))
    && Keys(r) == (if HasKey(fs, k) then Keys(fs) else Keys(fs) + [k])
    && (UniqueKeys(fs) ==> UniqueKeys(r))
  }

  lemma ReplaceHead(x: (string, Value), a: Fields, k: string, v: Value)
    requires x.0 == k
    ensures PutSpec([x] + a, [(k, v)] + a, k, v)
  {
    var fs, r := [x] + a, [(k, v)] + a;
    assert fs[1..] == a && r[1..] == a;
    GetConsAll(x, a);
    GetConsAll((k, v), a);
    assert Keys(r) == [k] + Keys(a) == Keys(fs);
    assert UniqueKeys(fs) ==> UniqueKeys(a) && k !in Keys(a);
    UniqueCons((k, v), a);
  }

  lemma ConsKeeps(x: (string, Value), a: Fields, b: Fields, k: string, v: Value)
    requires x.0 != k
    requires PutSpec(a, b, k, v)
    ensures PutSpec([x] + a, [x] + b, k, v)
  {
    ConsGet(x, a, b, k, v);
    ConsKeys(x, a, b, k);
    ConsUnique(x, a, b, k);
  }

  lemma ConsGet(x: (string, Value), a: Fields, b: Fields, k: string, v: Value)
    requires x.0 != k
    requires Get(b, k) == Some(v)
    requires forall k' :: k' != k ==> Get(b, k') == Get(a, k')
    ensures Get([x] + b, k) == Some(v)
    ensures forall k' :: k' != k ==> Get([x] + b, k') == Get([x] + a, k')
  {
    GetConsAll(x, a);
    GetConsAll(x, b);
  }

  lemma ConsKeys(x: (string, Value), a: Fields, b: Fields, k: string)
    requires x.0 != k
    requires Keys(b) == if HasKey(a, k) then Keys(a) else Keys(a) + [k]
    ensures Keys([x] + b) == if HasKey([x] + a, k) then Keys([x] + a) else Keys([x] + a) + [k]
  {
    var fs, r := [x] + a, [x] + b;
    assert fs[1..] == a && r[1..] == b;
    assert Keys(fs) == [x.0] + Keys(a);
    assert Keys(r) == [x.0] + Keys(b);
    assert HasKey(fs, k) <==> HasKey(a, k);
    if !HasKey(a, k) {
      assert [x.0] + (Keys(a) + [k]) == ([x.0] + Keys(a)) + [k];
    }
  }

  lemma ConsUnique(x: (string, Value), a: Fields, b: Fields, k: string)
    requires x.0 != k
    requires Keys(b) == if HasKey(a, k) then Keys(a) else Keys(a) + [k]
    requires UniqueKeys(a) ==> UniqueKeys(b)
    ensures UniqueKeys([x] + a) ==> UniqueKeys([x] + b)
  {
    var fs := [x] + a;
    if UniqueKeys(fs) {
      assert fs[1..] == a;
      assert Keys(fs) == [x.0] + Keys(a);
      assert UniqueKeys(a) && x.0 !in Keys(a);
      assert x.0 !in Keys(b);
      UniqueCons(x, b);
    }
  }

  /** Looking up in a list with a first entry. */
  lemma GetConsAll(x: (string, Value), fs: Fields)
    ensures forall k :: Get([x] + fs, k) == if x.0 == k then Some(x.1) else Get(fs, k)
  {
    assert ([x] + fs)[1..] == fs;
  }

  lemma UniqueCons(x: (string, Value), fs: Fields)
    ensures UniqueKeys(fs) && x.0 !in Keys(fs) ==> UniqueKeys([x] + fs)
  {
    if UniqueKeys(fs) && x.0 !in Keys(fs) {
      var r := [x] + fs;
      forall i, j | 0 <= i < j < |r|
        ensures r[i].0 != r[j].0
      {
        if i == 0 {
          assert r[j].0 == Keys(fs)[j - 1];
        }
      }
    }
  }

  /** Python truthiness: `None`, `False`, `0`, `''`, `[]` and `{}` are falsy. */
  predicate Truthy(v: Value) {
    match v
    case Null => false
    case Bool(b) => b
    case Int(i) => i != 0
    case Str(s) => s != []
    case List(xs) => xs != []
    case Obj(fs) => fs != []
  }

  /** `Put` on a key that is already present leaves the key order as it was,
      and on a fresh key puts the new key last: the dict-assignment rule the
      front-matter rewrite relies on to keep the header's order. */
  lemma {:induction false} PutPosition(fs: Fields, k: string, v: Value, i: nat)
    requires UniqueKeys(fs)
    requires i < |fs| && fs[i].0 == k
    ensures |Put(fs, k, v)| == |fs|
    ensures Put(fs, k, v)[i] == (k, v)
    ensures forall j :: 0 <= j < |fs| && j != i ==> Put(fs, k, v)[j] == fs[j]
  {
    if i == 0 {
    } else {
      assert fs[0].0 != k;
      assert UniqueKeys(fs[1..]);
      PutPosition(fs[1..], k, v, i - 1);
    }
  }

  /** Storing the value a key already has changes nothing. */
  lemma {:induction false} PutSame(fs: Fields, k: string, v: Value)
    requires Get(fs, k) == Some(v)
    ensures Put(fs, k, v) == fs
  {
    assert fs == [fs[0]] + fs[1..];
    if fs[0].0 == k {
      assert fs[0] == (k, v);
    } else {
      PutSame(fs[1..], k, v);
    }
  }

  lemma {:induction false} KeysAppend(a: Fields, b: Fields)
    ensures Keys(a + b) == Keys(a) + Keys(b)
  {
  }

  /** Looking up in a concatenation finds the first part's entry first. */
  lemma {:induction false} GetAppend(a: Fields, b: Fields, k: string)
    ensures Get(a + b, k) == if HasKey(a, k) then Get(a, k) else Get(b, k)
    decreases |a|
  {
    if a == [] {
      assert a + b == b;
    } else {
      assert (a + b)[1..] == a[1..] + b;
      GetAppend(a[1..], b, k);
    }
  }
}

=== FILE: license.dfy ===
/** `parseLicense`: a post's `license` short name, matched without regard to
    case against a fixed table of four SPDX licenses. A post without a
    license has rights `None`; a short name the table lacks ends the run. */
module License {
  import opened Wrappers
  import opened Json
  import opened Errors
  import opened Text

  /** An SPDX identifier and the URL of the license text. */
  datatype Spdx = Spdx(identifier: string, url: string)

  const Mit: Spdx := Spdx("MIT", "https://spdx.org/licenses/MIT.html")
  const Cc0: Spdx := Spdx("CC0-1.0", "https://creativecommons.org/publicdomain/zero/1.0/")
  const CcBy4: Spdx := Spdx("CC-BY-4.0", "https://creativecommons.org/licenses/by/4.0/")
  const Gpl3: Spdx := Spdx("GPL-3.0-only", "https://opensource.org/licenses/GPL-3.0")

  /** The table: lower-case short name to SPDX license. */
  function Lookup(code: string): Option<Spdx> {
    if code == "mit" then Some(Mit)
    else if code == "cc0" then Some(Cc0)
    else if code == "cc-by4" then Some(CcBy4)
    else if code == "gpl3" then Some(Gpl3)
    else None
  }

  /** The scheme URI of every `rights` element. */
  const SpdxSite: string := "https://spdx.org/licenses/"

  /** The short names the table knows. */
  predicate Known(code: string) {
    Lookup(Lower(code)).Some?
  }

  /** The `rights` element for a license, in the DataCite attribute layout. */
  function Rights(l: Spdx): Value {
    Obj([("@schemeURI", Str(SpdxSite)),
         ("@rightsIdentifierScheme", Str("SPDX")),
         ("@rightsIdentifier", Str(l.identifier)),
         ("@rightsURI", Str(l.url))])
  }

  /** The rights of a post: `Null` without a `license` key, the table's
      entry for a known short name, an error otherwise (the run ends there). */
  function ParseLicense(post: Fields): (r: Result<Value, Error>)
    ensures !HasKey(post, "license") ==> r == Success(Null)
    ensures r.Success? <==>
      !HasKey(post, "license") ||
      (Get(post, "license").value.Str? && Known(Get(post, "license").value.s))
    ensures r.Success? && r.value != Null ==>
      r.value.Obj? && |r.value.fields| == 4 &&
      r.value.fields[0] == ("@schemeURI", Str(SpdxSite)) &&
      r.value.fields[1] == ("@rightsIdentifierScheme", Str("SPDX"))
    ensures HasKey(post, "license") && Get(post, "license").value.Str? && r.Failure? ==>
      r.error == UnknownLicense(Get(post, "license").value.s)
  {
    match Get(post, "license")
    case None => Success(Null)
    case Some(Str(code)) =>
      (match Lookup(Lower(code))
       case Some(l) => Success(Rights(l))
       case None => Failure(UnknownLicense(code)))
    case Some(_) => Failure(NotText("license"))
  }

  /** Upper and lower case in the short name make no difference. */
  lemma CaseInsensitive(p: Fields, q: Fields, a: string, b: string)
    requires Get(p, "license") == Some(Str(a)) && Get(q, "license") == Some(Str(b))
    requires Lower(a) == Lower(b)
    ensures ParseLicense(p).Success? <==> ParseLicense(q).Success?
    ensures ParseLicense(p).Success? ==> ParseLicense(p) == ParseLicense(q)
  {
  }

  /** Each of the four short names, in any case, yields its SPDX identifier
      and URL. */
  lemma TableEntries(post: Fields, code: string)
    requires Get(post, "license") == Some(Str(code))
    ensures Lower(code) == "mit" ==>
      ParseLicense(post) == Success(Rights(Mit))
    ensures Lower(code) == "cc0" ==>
      ParseLicense(post) == Success(Rights(Cc0))
    ensures Lower(code) == "cc-by4" ==>
      ParseLicense(post) == Success(Rights(CcBy4))
    ensures Lower(code) == "gpl3" ==>
      ParseLicense(post) == Success(Rights(Gpl3))
  {
  }

  /** The upper-case spellings the posts use are accepted. */
  lemma UpperCaseAccepted(post: Fields)
    requires Get(post, "license") == Some(Str("MIT"))
    ensures ParseLicense(post) == Success(Rights(Mit))
  {
    LowerMit();
    TableEntries(post, "MIT");
  }

  lemma LowerMit()
    ensures Lower("MIT") == "mit"
  {
    assert LowerChar('M') == 'm' && LowerChar('I') == 'i' && LowerChar('T') == 't';
    LowerOf("MIT", "mit");
  }

  lemma LowerOf(s: string, t: string)
    requires |s| == |t| && forall i :: 0 <= i < |s| ==> LowerChar(s[i]) == t[i]
    ensures Lower(s) == t
  {
  }

  /** Distinct short names never share a license: the table is one-to-one. */
  lemma LookupInjective(a: string, b: string)
    requires Lookup(a).Some? && Lookup(a) == Lookup(b)
    ensures a == b
  {
  }

  /** A short name outside the table stops the run, with that name. */
  lemma UnknownCodeAborts(post: Fields, code: string)
    requires Get(post, "license") == Some(Str(code))
    requires Lower(code) !in {"mit", "cc0", "cc-by4", "gpl3"}
    ensures ParseLicense(post) == Failure(UnknownLicense(code))
  {
  }

  /** A license the post names is accepted only if it is a string whose
      lower-cased form is one of the four short names of the table. */
  lemma KnownRights(post: Fields)
    requires HasKey(post, "license") && ParseLicense(post).Success?
    ensures Get(post, "license").value.Str?
    ensures Lower(Get(post, "license").value.s) in {"mit", "cc0", "cc-by4", "gpl3"}
  {
  }
}

=== FILE: metadata.dfy ===
/** The DataCite kernel-4 record of a blog post (`assembleMetadata` and its
    `getMd*` section builders). The builders read the blog configuration,
    the post's front matter and the author's front matter; their sections
    are joined in a fixed order, and two layers of overrides are then deep
    merged onto the result. */
module Metadata {
  import opened Wrappers
  import opened Json
  import opened Errors
  import opened Text
  import opened Calendar
  import opened License
  import opened DeepMerge

  /** `fs[k]`: absent keys raise. */
  function Required(fs: Fields, k: string): (r: Result<Value, Error>)
    ensures r.Success? <==> HasKey(fs, k)
    ensures r.Success? ==> Get(fs, k) == Some(r.value)
    ensures r.Failure? ==> r.error == MissingKey(k)
  {
    match Get(fs, k)
    case Some(v) => Success(v)
    case None => Failure(MissingKey(k))
  }

  /** `fs[k]` used as a string (formatted into a URL, or split). */
  function RequiredText(fs: Fields, k: string): (r: Result<string, Error>)
    ensures r.Success? <==> HasKey(fs, k) && Get(fs, k).value.Str?
    ensures r.Success? ==> Get(fs, k) == Some(Str(r.value))
  {
    var v :- Required(fs, k);
    if v.Str? then Success(v.s) else Failure(NotText(k))
  }

  /** The values the section builders take from the three sources. */
  datatype Parts = Parts(
    doi: Value, name: Value, givenName: Value, familyName: Value, orcid: string,
    affiliation: Value, title: Value, year: string, publisher: Value, version: Value,
    rights: Value, subjects: seq<string>, abstractText: Option<Value>, blogDoi: Option<Value>)

  /** `getMdPublicationYear`: the post must have a `date`, and it must parse
      (`date` is what the date parser made of it). */
  function PublicationYear(post: Fields, date: Option<CivilDate>): (r: Result<string, Error>)
    ensures r.Success? <==> HasKey(post, "date") && date.Some?
    ensures r.Success? ==> r.value == YearText(date.value)
  {
    var _ :- Required(post, "date");
    match date
    case None => Failure(UnparsableDate)
    case Some(d) => Success(YearText(d))
  }

  /** Reads every value the builders need, in the order the builders run;
      the first missing or malformed one is the error. `relation` says
      whether the blog relation section is built at all. */
  function Gather(blog: Fields, post: Fields, author: Fields, date: Option<CivilDate>, relation: bool)
    : (r: Result<Parts, Error>)
    ensures r.Success? <==> Ready(blog, post, author, date)
    ensures r.Success? ==> ReadFrom(r.value, blog, post, author, date, relation)
  {
    var c :- ReadCreator(blog, post, author);
    var q :- ReadPost(blog, post, date);
    Success(Parts(c.0, c.1, c.2, c.3, c.4, c.5, q.0, q.1, q.2, q.3, q.4, Split(q.5),
                  Get(post, "abstract"), if relation then Get(blog, "doi") else None))
  }

  /** The builders up to the creator: the post's `doi`, the author's names
      and ORCID, the blog's affiliation. */
  function ReadCreator(blog: Fields, post: Fields, author: Fields)
    : (r: Result<(Value, Value, Value, Value, string, Value), Error>)
    ensures r.Success? <==> CreatorReady(blog, post, author)
    ensures r.Success? ==> r.value == (Get(post, "doi").value, Get(author, "name").value,
      Get(author, "first_name").value, Get(author, "last_name").value, Get(author, "orcid_id").value.s,
      Get(blog, "affiliation").value)
  {
    var doi :- Required(post, "doi");
    var name :- Required(author, "name");
    var givenName :- Required(author, "first_name");
    var familyName :- Required(author, "last_name");
    var orcid :- RequiredText(author, "orcid_id");
    var affiliation :- Required(blog, "affiliation");
    Success((doi, name, givenName, familyName, orcid, affiliation))
  }

  /** The builders from the title on: title, year, publisher, version,
      license and tags. */
  function ReadPost(blog: Fields, post: Fields, date: Option<CivilDate>)
    : (r: Result<(Value, string, Value, Value, Value, string), Error>)
    ensures r.Success? <==> PostReady(blog, post, date)
    ensures r.Success? ==> r.value == (Get(post, "title").value, YearText(date.value), Get(blog, "publisher").value,
      VersionOf(post), ParseLicense(post).value, Get(post, "tags").value.s)
  {
    var title :- Required(post, "title");
    var year :- PublicationYear(post, date);
    var publisher :- Required(blog, "publisher");
    var version := VersionOf(post);
    var rights :- ParseLicense(post);
    var tags :- RequiredText(post, "tags");
    Success((title, year, publisher, version, rights, tags))
  }

  /** `getMdVersion`: the post's `version`, "1.0" by default. */
  function VersionOf(post: Fields): (r: Value)
    ensures HasKey(post, "version") ==> Some(r) == Get(post, "version")
    ensures !HasKey(post, "version") ==> r == Str("1.0")
  {
    if HasKey(post, "version") then Get(post, "version").value else Str("1.0")
  }

  predicate CreatorReady(blog: Fields, post: Fields, author: Fields) {
    HasKey(post, "doi") && HasKey(author, "name") && HasKey(author, "first_name")
    && HasKey(author, "last_name")
    && HasKey(author, "orcid_id") && Get(author, "orcid_id").value.Str?
    && HasKey(blog, "affiliation")
  }

  predicate PostReady(blog: Fields, post: Fields, date: Option<CivilDate>) {
    HasKey(post, "title") && HasKey(post, "date") && date.Some? && HasKey(blog, "publisher")
    && ParseLicense(post).Success?
    && HasKey(post, "tags") && Get(post, "tags").value.Str?
  }

  /** Everything `Gather` needs is there and well formed. */
  predicate Ready(blog: Fields, post: Fields, author: Fields, date: Option<CivilDate>) {
    CreatorReady(blog, post, author) && PostReady(blog, post, date)
  }

  /** `p` holds what the builders read from the three sources. */
  predicate ReadFrom(p: Parts, blog: Fields, post: Fields, author: Fields, date: Option<CivilDate>, relation: bool)
    requires Ready(blog, post, author, date)
  {
    && p.doi == Get(post, "doi").value
    && p.name == Get(author, "name").value
    && p.givenName == Get(author, "first_name").value
    && p.familyName == Get(author, "last_name").value
    && Get(author, "orcid_id") == Some(Str(p.orcid))
    && p.affiliation == Get(blog, "affiliation").value
    && p.title == Get(post, "title").value
    && p.year == YearText(date.value)
    && p.publisher == Get(blog, "publisher").value
    && p.version == VersionOf(post)
    && p.rights == ParseLicense(post).value
    && p.subjects == Split(Get(post, "tags").value.s)
    && p.abstractText == Get(post, "abstract")
    && p.blogDoi == (if relation then Get(blog, "doi") else None)
  }

  function Strs(ws: seq<string>): (vs: seq<Value>)
    ensures |vs| == |ws| && forall i :: 0 <= i < |ws| ==> vs[i] == Str(ws[i])
  {
    if ws == [] then [] else [Str(ws[0])] + Strs(ws[1..])
  }

  /** `getMdDescriptions`: the abstract section, or nothing. */
  function Descriptions(abstractText: Option<Value>): Fields {
    match abstractText
    case Some(a) =>
      [("descriptions", Obj([("description", Obj([("@descriptionType", Str("Abstract")), ("#text", a)]))]))]
    case None => []
  }

  /** `getMdRelToBlog`: the blog relation section, or nothing. */
  function RelToBlog(blogDoi: Option<Value>): Fields {
    match blogDoi
    case Some(d) =>
      [("relatedIdentifiers", Obj([("relatedIdentifier", Obj([
         ("@relatedIdentifierType", Str("DOI")), ("@relationType", Str("IsPartOf")), ("#text", d)]))]))]
    case None => []
  }

  /** The keys of the fourteen sections every record has, in the order
      their builders run. */
  const FixedKeys: seq<string> :=
    ["@xmlns:xsi", "@xmlns", "@xsi:schemaLocation", "identifier", "creators", "titles",
     "publicationYear", "publisher", "resourceType", "language", "formats",
     "version", "rightsList", "subjects"]

  /** The values of those sections, one builder each. */
  function FixedValues(p: Parts): (vs: seq<Value>)
    ensures |vs| == |FixedKeys|
  {
    [SchemaInstance(), SchemaKernel(), SchemaLocation(), Identifier(p), Creators(p), Titles(p), Str(p.year),
     p.publisher, ResourceType(), Str("en"), Formats(), p.version, RightsList(p), Subjects(p)]
  }

  /** `getMdSchema`: the namespace attributes of the `resource` element. */
  function SchemaInstance(): Value {
    Str(XsiNamespace)
  }

  function SchemaKernel(): Value {
    Str(KernelNamespace)
  }

  function SchemaLocation(): Value {
    Str(KernelNamespace + " " + KernelSchema)
  }

  const XsiNamespace: string := "http://www.w3.org/2001/XMLSchema-instance"
  const KernelNamespace: string := "http://datacite.org/schema/kernel-4"
  const KernelSchema: string := "http://schema.datacite.org/meta/kernel-4/metadata.xsd"

  /** The ORCID site, the scheme of the creator's name identifier. */
  const OrcidSite: string := "https://orcid.org"

  /** `getMdIdentifier`. */
  function Identifier(p: Parts): Value {
    Obj([("@identifierType", Str("DOI")), ("#text", p.doi)])
  }

  /** `getMdCreators`: the author as the one creator, identified by ORCID. */
  function Creators(p: Parts): Value {
    Obj([("creator", Obj([
      ("creatorName", Obj([("@nameType", Str("Personal")), ("#text", p.name)])),
      ("givenName", p.givenName),
      ("familyName", p.familyName),
      ("nameIdentifier", Obj([("@nameIdentifierScheme", Str("ORCID")), ("@schemeURI", Str(OrcidSite)),
                              ("#text", Str(OrcidSite + "/" + p.orcid))])),
      ("affiliation", p.affiliation)]))])
  }

  /** `getMdTitles`. */
  function Titles(p: Parts): Value {
    Obj([("title", Obj([("@xml:lang", Str("en")), ("#text", p.title)]))])
  }

  /** `getMdResourceType`. */
  function ResourceType(): Value {
    Obj([("@resourceTypeGeneral", Str("Text")), ("#text", Str("BlogPosting"))])
  }

  /** `getMdFormats`. */
  function Formats(): Value {
    Obj([("format", Str("HTML"))])
  }

  /** `getMdRightsList`. */
  function RightsList(p: Parts): Value {
    Obj([("rights", p.rights)])
  }

  /** `getMdSubjects`. */
  function Subjects(p: Parts): Value {
    Obj([("subject", List(Strs(p.subjects)))])
  }

  /** The fourteen fixed sections. */
  function Fixed(p: Parts): (r: Fields)
    ensures Keys(r) == FixedKeys
  {
    Zip(FixedKeys, FixedValues(p))
  }

  /** The record before overrides: each `data |= section` adds keys not yet
      present, so the sections simply follow one another. */
  function Layout(p: Parts): Fields {
    Fixed(p) + Descriptions(p.abstractText) + RelToBlog(p.blogDoi)
  }

  /** The record's keys in order: the fourteen fixed ones, then
      `descriptions` and `relatedIdentifiers` when those sections exist. */
  function LayoutKeys(hasAbstract: bool, hasRelation: bool): seq<string> {
    FixedKeys + (if hasAbstract then ["descriptions"] else [])
              + (if hasRelation then ["relatedIdentifiers"] else [])
  }

  /** `assembleMetadata` without the overrides; `relation` selects the
      package's behaviour (with the blog relation) over the script's. */
  function Sections(blog: Fields, post: Fields, author: Fields, date: Option<CivilDate>, relation: bool)
    : (r: Result<Fields, Error>)
    ensures r.Success? <==> Ready(blog, post, author, date)
  {
    var p :- Gather(blog, post, author, date, relation);
    Success(Layout(p))
  }

  /** `addAdditionalMetadata` followed by `merge`: a falsy override changes
      nothing, a mapping is deep merged, anything else cannot be merged. */
  function Override(data: Fields, extra: Value): (r: Result<Fields, Error>)
    ensures r.Success? <==> OverrideOk(extra)
    ensures !Truthy(extra) ==> r == Success(data)
    ensures r.Success? ==> Keys(data) <= Keys(r.value)
  {
    if !Truthy(extra) then Success(data)
    else if extra.Obj? then
      MergeKeyOrder(data, extra.fields);
      Success(Merge(data, extra.fields))
    else Failure(OverrideNotMapping)
  }

  predicate OverrideOk(extra: Value) {
    !Truthy(extra) || extra.Obj?
  }

  /** The post's own override, if it has one. */
  function PostOverride(post: Fields): Value {
    if HasKey(post, "doi-additional-metadata") then Get(post, "doi-additional-metadata").value else Null
  }

  /** The `resource` mapping of an assembled record. */
  function ResourceOf(record: Value): Fields {
    if record.Obj? && |record.fields| == 1 && record.fields[0].1.Obj? then record.fields[0].1.fields else []
  }

  /** The two override layers: the caller's, then the post's. */
  function Overrides(data: Fields, additional: Value, postOverride: Value): (r: Result<Fields, Error>)
    ensures r.Success? <==> OverrideOk(additional) && OverrideOk(postOverride)
    ensures r.Success? ==> Keys(data) <= Keys(r.value)
  {
    var first :- Override(data, additional);
    Override(first, postOverride)
  }

  /** `assembleMetadata` of the package: the sections, then the caller's
      override, then the post's override, wrapped as `{'resource': data}`. */
  function Assemble(blog: Fields, post: Fields, author: Fields, date: Option<CivilDate>, additional: Value)
    : (r: Result<Value, Error>)
    ensures r.Success? <==>
      Ready(blog, post, author, date) && OverrideOk(additional) && OverrideOk(PostOverride(post))
    ensures r.Success? ==>
      r.value.Obj? && |r.value.fields| == 1 && r.value.fields[0].0 == "resource" && r.value.fields[0].1.Obj?
  {
    var data :- Sections(blog, post, author, date, true);
    var resource :- Overrides(data, additional, PostOverride(post));
    Success(Obj([("resource", Obj(resource))]))
  }

  /** `assembleMetadata` of the script: the sections without the blog
      relation, and no overrides. */
  function ScriptAssemble(blog: Fields, post: Fields, author: Fields, date: Option<CivilDate>)
    : (r: Result<Value, Error>)
    ensures r.Success? <==> Ready(blog, post, author, date)
    ensures r.Success? ==>
      r.value.Obj? && |r.value.fields| == 1 && r.value.fields[0].0 == "resource" && r.value.fields[0].1.Obj?
  {
    var data :- Sections(blog, post, author, date, false);
    Success(Obj([("resource", Obj(data))]))
  }

  /** The record's key order, and no key twice. */
  lemma {:induction false} LayoutShape(p: Parts)
    ensures Keys(Layout(p)) == LayoutKeys(p.abstractText.Some?, p.blogDoi.Some?)
    ensures UniqueKeys(Layout(p))
  {
    var f, d, r := Fixed(p), Descriptions(p.abstractText), RelToBlog(p.blogDoi);
    KeysAppend(f, d);
    KeysAppend(f + d, r);
    assert Keys(d) == if p.abstractText.Some? then ["descriptions"] else [];
    assert Keys(r) == if p.blogDoi.Some? then ["relatedIdentifiers"] else [];
    LayoutKeysDistinct(p.abstractText.Some?, p.blogDoi.Some?);
  }

  lemma LayoutKeysDistinct(hasAbstract: bool, hasRelation: bool)
    ensures forall i, j :: 0 <= i < j < |LayoutKeys(hasAbstract, hasRelation)| ==>
      LayoutKeys(hasAbstract, hasRelation)[i] != LayoutKeys(hasAbstract, hasRelation)[j]
  {
    var ks := LayoutKeys(hasAbstract, hasRelation);
    FixedPositions();
    assert forall i :: 0 <= i < 14 ==> ks[i] == FixedKeys[i];
    if hasAbstract {
      assert Position(ks[14]) == 14;
    }
    if hasRelation {
      assert Position(ks[|ks| - 1]) == 15;
    }
  }

  /** Where a key sits in the full layout; it tells the keys apart. */
  function Position(k: string): int {
    if k == "@xmlns:xsi" then 0 else if k == "@xmlns" then 1
    else if k == "@xsi:schemaLocation" then 2 else if k == "identifier" then 3
    else if k == "creators" then 4 else if k == "titles" then 5
    else if k == "publicationYear" then 6 else if k == "publisher" then 7
    else if k == "resourceType" then 8 else if k == "language" then 9
    else if k == "formats" then 10 else if k == "version" then 11
    else if k == "rightsList" then 12 else if k == "subjects" then 13
    else if k == "descriptions" then 14 else if k == "relatedIdentifiers" then 15
    else -1
  }

  lemma FixedPositions()
    ensures forall i :: 0 <= i < |FixedKeys| ==> Position(FixedKeys[i]) == i
  {
  }

  /** A key outside the fixed positions is not a fixed key. */
  lemma NotFixed(k: string)
    requires Position(k) < 0 || 14 <= Position(k)
    ensures k !in FixedKeys
  {
    FixedPositions();
  }

  /** The `i`-th fixed section is found under its key. */
  lemma {:induction false} LayoutFixed(p: Parts, i: nat)
    requires i < |FixedKeys|
    ensures Get(Layout(p), FixedKeys[i]) == Some(FixedValues(p)[i])
  {
    var f, d, r := Fixed(p), Descriptions(p.abstractText), RelToBlog(p.blogDoi);
    var k := FixedKeys[i];
    FixedPositions();
    assert UniqueKeys(f);
    assert f[i] == (k, FixedValues(p)[i]);
    assert Get(f, k) == Some(FixedValues(p)[i]);
    assert HasKey(f, k) && HasKey(f + d, k) by {
      KeysAppend(f, d);
    }
    GetAppend(f, d, k);
    GetAppend(f + d, r, k);
  }

  lemma LayoutIdentifier(p: Parts)
    ensures Get(Layout(p), "identifier") == Some(Identifier(p))
  {
    LayoutFixed(p, 3);
    assert FixedValues(p)[3] == Identifier(p);
    assert FixedKeys[3] == "identifier";
  }

  lemma LayoutVersion(p: Parts)
    ensures Get(Layout(p), "version") == Some(p.version)
  {
    LayoutFixed(p, 11);
    assert FixedValues(p)[11] == p.version;
    assert FixedKeys[11] == "version";
  }

  lemma LayoutRights(p: Parts)
    ensures Get(Layout(p), "rightsList") == Some(RightsList(p))
  {
    LayoutFixed(p, 12);
    assert FixedValues(p)[12] == RightsList(p);
    assert FixedKeys[12] == "rightsList";
  }

  lemma LayoutSubjects(p: Parts)
    ensures Get(Layout(p), "subjects") == Some(Subjects(p))
  {
    LayoutFixed(p, 13);
    assert FixedValues(p)[13] == Subjects(p);
    assert FixedKeys[13] == "subjects";
  }

  lemma LayoutCreators(p: Parts)
    ensures Get(Layout(p), "creators") == Some(Creators(p))
  {
    LayoutFixed(p, 4);
    assert FixedValues(p)[4] == Creators(p);
    assert FixedKeys[4] == "creators";
  }

  lemma {:induction false} LayoutDescriptions(p: Parts)
    ensures Get(Layout(p), "descriptions") ==
      match p.abstractText
      case Some(a) => Some(Obj([("description", Obj([("@descriptionType", Str("Abstract")), ("#text", a)]))]))
      case None => None
  {
    var f, d, r := Fixed(p), Descriptions(p.abstractText), RelToBlog(p.blogDoi);
    var k := "descriptions";
    NotFixed(k);
    GetAppend(f, d, k);
    if p.abstractText.Some? {
      assert HasKey(f + d, k) by {
        KeysAppend(f, d);
      }
    } else {
      assert f + d == f;
    }
    GetAppend(f + d, r, k);
  }

  lemma {:induction false} LayoutRelation(p: Parts)
    ensures Get(Layout(p), "relatedIdentifiers") ==
      match p.blogDoi
      case Some(d) => Some(Obj([("relatedIdentifier", Obj([
        ("@relatedIdentifierType", Str("DOI")), ("@relationType", Str("IsPartOf")), ("#text", d)]))]))
      case None => None
  {
    var f, d, r := Fixed(p), Descriptions(p.abstractText), RelToBlog(p.blogDoi);
    var k := "relatedIdentifiers";
    NotFixed(k);
    assert !HasKey(f + d, k) by {
      KeysAppend(f, d);
    }
    GetAppend(f + d, r, k);
  }

  /** A successful `Gather` turns into the layout of what it read. */
  lemma SectionsRead(blog: Fields, post: Fields, author: Fields, date: Option<CivilDate>, relation: bool)
    requires Ready(blog, post, author, date)
    ensures Gather(blog, post, author, date, relation).Success?
    ensures var p := Gather(blog, post, author, date, relation).value;
      && Sections(blog, post, author, date, relation) == Success(Layout(p))
      && ReadFrom(p, blog, post, author, date, relation)
  {
  }

  /** Before the overrides, the keys follow the builders' order: the three
      schema attributes, identifier, creators, titles, publicationYear,
      publisher, resourceType, language, formats, version, rightsList,
      subjects; then descriptions exactly when the post has an abstract, and
      relatedIdentifiers exactly when the relation is built and the blog has
      a DOI. No key occurs twice. */
  lemma SectionOrder(blog: Fields, post: Fields, author: Fields, date: Option<CivilDate>, relation: bool)
    requires Ready(blog, post, author, date)
    ensures Keys(Sections(blog, post, author, date, relation).value)
      == LayoutKeys(HasKey(post, "abstract"), relation && HasKey(blog, "doi"))
    ensures UniqueKeys(Sections(blog, post, author, date, relation).value)
  {
    SectionsRead(blog, post, author, date, relation);
    LayoutShape(Gather(blog, post, author, date, relation).value);
  }

  /** The identifier is the post's `doi` as it stands. */
  lemma IdentifierVerbatim(blog: Fields, post: Fields, author: Fields, date: Option<CivilDate>, relation: bool)
    requires Ready(blog, post, author, date)
    ensures Get(Sections(blog, post, author, date, relation).value, "identifier")
      == Some(Obj([("@identifierType", Str("DOI")), ("#text", Get(post, "doi").value)]))
  {
    SectionsRead(blog, post, author, date, relation);
    LayoutIdentifier(Gather(blog, post, author, date, relation).value);
  }

  /** The creator is the author, with the ORCID site followed by the
      author's `orcid_id` as name identifier and the blog's affiliation. */
  lemma CreatorFromAuthor(blog: Fields, post: Fields, author: Fields, date: Option<CivilDate>, relation: bool)
    requires Ready(blog, post, author, date)
    ensures Get(Sections(blog, post, author, date, relation).value, "creators")
      == Some(Obj([("creator", Obj([
           ("creatorName", Obj([("@nameType", Str("Personal")), ("#text", Get(author, "name").value)])),
           ("givenName", Get(author, "first_name").value),
           ("familyName", Get(author, "last_name").value),
           ("nameIdentifier", Obj([("@nameIdentifierScheme", Str("ORCID")), ("@schemeURI", Str(OrcidSite)),
                                   ("#text", Str(OrcidSite + "/" + Get(author, "orcid_id").value.s))])),
           ("affiliation", Get(blog, "affiliation").value)]))]))
  {
    SectionsRead(blog, post, author, date, relation);
    var p := Gather(blog, post, author, date, relation).value;
    LayoutCreators(p);
    assert Get(author, "orcid_id").value.s == p.orcid;
  }

  /** `version` defaults to "1.0". */
  lemma VersionDefault(blog: Fields, post: Fields, author: Fields, date: Option<CivilDate>, relation: bool)
    requires Ready(blog, post, author, date)
    ensures Get(Sections(blog, post, author, date, relation).value, "version")
      == Some(if HasKey(post, "version") then Get(post, "version").value else Str("1.0"))
    ensures !HasKey(post, "version") ==>
      Get(Sections(blog, post, author, date, relation).value, "version") == Some(Str("1.0"))
  {
    SectionsRead(blog, post, author, date, relation);
    LayoutVersion(Gather(blog, post, author, date, relation).value);
  }

  /** `rightsList` is always there: its `rights` are `None` for a post
      without a license, and the SPDX entry of the license otherwise. */
  lemma RightsListAlwaysPresent(blog: Fields, post: Fields, author: Fields, date: Option<CivilDate>, relation: bool)
    requires Ready(blog, post, author, date)
    ensures !HasKey(post, "license") ==>
      Get(Sections(blog, post, author, date, relation).value, "rightsList") == Some(Obj([("rights", Null)]))
    ensures HasKey(post, "license") ==>
      Get(Sections(blog, post, author, date, relation).value, "rightsList")
        == Some(Obj([("rights", Rights(Lookup(Lower(Get(post, "license").value.s)).value))]))
  {
    SectionsRead(blog, post, author, date, relation);
    if HasKey(post, "license") {
      LicenseEntry(post);
    }
    LayoutRights(Gather(blog, post, author, date, relation).value);
  }

  lemma LicenseEntry(post: Fields)
    requires HasKey(post, "license") && ParseLicense(post).Success?
    ensures Get(post, "license").value.Str?
    ensures Lookup(Lower(Get(post, "license").value.s)).Some?
    ensures ParseLicense(post).value == Rights(Lookup(Lower(Get(post, "license").value.s)).value)
  {
  }

  /** The subjects are the post's `tags` split at whitespace, in order:
      no empty subject, none holding whitespace, duplicates kept. */
  lemma SubjectsFromTags(blog: Fields, post: Fields, author: Fields, date: Option<CivilDate>, relation: bool)
    requires Ready(blog, post, author, date)
    ensures Get(Sections(blog, post, author, date, relation).value, "subjects")
      == Some(Obj([("subject", List(Strs(Split(Get(post, "tags").value.s))))]))
  {
    SectionsRead(blog, post, author, date, relation);
    LayoutSubjects(Gather(blog, post, author, date, relation).value);
  }

  /** Tags written as space-separated words come back as exactly those
      words. */
  lemma SubjectsOfSpacedTags(blog: Fields, post: Fields, author: Fields, date: Option<CivilDate>,
                             relation: bool, words: seq<string>)
    requires Ready(blog, post, author, date)
    requires forall i :: 0 <= i < |words| ==> IsToken(words[i])
    requires Get(post, "tags") == Some(Str(JoinSpaced(words)))
    ensures Get(Sections(blog, post, author, date, relation).value, "subjects")
      == Some(Obj([("subject", List(Strs(words)))]))
  {
    SubjectsFromTags(blog, post, author, date, relation);
    SplitJoin(words);
  }

  /** A `descriptions` section exists exactly when the post has an
      `abstract`, and it carries the abstract. */
  lemma DescriptionsIffAbstract(blog: Fields, post: Fields, author: Fields, date: Option<CivilDate>, relation: bool)
    requires Ready(blog, post, author, date)
    ensures HasKey(Sections(blog, post, author, date, relation).value, "descriptions") <==> HasKey(post, "abstract")
    ensures HasKey(post, "abstract") ==>
      Get(Sections(blog, post, author, date, relation).value, "descriptions")
        == Some(Obj([("description", Obj([("@descriptionType", Str("Abstract")),
                                          ("#text", Get(post, "abstract").value)]))]))
  {
    SectionsRead(blog, post, author, date, relation);
    LayoutDescriptions(Gather(blog, post, author, date, relation).value);
  }

  /** An IsPartOf relation to the blog exists exactly when it is built and
      the blog has a `doi`, and it names that DOI. */
  lemma RelationIffBlogDoi(blog: Fields, post: Fields, author: Fields, date: Option<CivilDate>, relation: bool)
    requires Ready(blog, post, author, date)
    ensures HasKey(Sections(blog, post, author, date, relation).value, "relatedIdentifiers")
      <==> relation && HasKey(blog, "doi")
    ensures relation && HasKey(blog, "doi") ==>
      Get(Sections(blog, post, author, date, relation).value, "relatedIdentifiers")
        == Some(Obj([("relatedIdentifier", Obj([
             ("@relatedIdentifierType", Str("DOI")), ("@relationType", Str("IsPartOf")),
             ("#text", Get(blog, "doi").value)]))]))
  {
    SectionsRead(blog, post, author, date, relation);
    LayoutRelation(Gather(blog, post, author, date, relation).value);
  }

  /** The resource of a package record is its sections under both
      overrides. */
  lemma AssembleSteps(blog: Fields, post: Fields, author: Fields, date: Option<CivilDate>, additional: Value)
    requires Ready(blog, post, author, date) && OverrideOk(additional) && OverrideOk(PostOverride(post))
    ensures var data := Sections(blog, post, author, date, true).value;
      && Assemble(blog, post, author, date, additional).Success?
      && ResourceOf(Assemble(blog, post, author, date, additional).value)
         == Overrides(data, additional, PostOverride(post)).value
  {
  }

  /** Falsy overrides (none given, `None`, an empty mapping) leave the
      sections exactly as built. */
  lemma FalsyOverridesChangeNothing(data: Fields, additional: Value, postOverride: Value)
    requires !Truthy(additional) && !Truthy(postOverride)
    ensures Overrides(data, additional, postOverride) == Success(data)
  {
  }

  /** A leaf named by both overrides takes the post's value: the post's
      override is merged last. */
  lemma PostOverrideWins(data: Fields, a: Fields, b: Fields, k: string, va: Value, vb: Value)
    requires UniqueKeys(a) && UniqueKeys(b)
    requires Get(a, k) == Some(va) && Get(b, k) == Some(vb) && !vb.Obj?
    ensures Overrides(data, Obj(a), Obj(b)).Success?
    ensures Get(Overrides(data, Obj(a), Obj(b)).value, k) == Some(vb)
  {
    assert Truthy(Obj(a)) && Truthy(Obj(b)) by {
      assert k in Keys(a) && k in Keys(b);
    }
    LaterMergeWins(data, a, b, k, va, vb);
  }

  /** A leaf only the caller's override names takes the caller's value. */
  lemma CallerOverrideApplies(data: Fields, a: Fields, postOverride: Value, k: string, va: Value)
    requires OverrideOk(postOverride)
    requires postOverride.Obj? ==> UniqueKeys(postOverride.fields) && !HasKey(postOverride.fields, k)
    requires UniqueKeys(a) && Get(a, k) == Some(va) && !va.Obj?
    ensures Overrides(data, Obj(a), postOverride).Success?
    ensures Get(Overrides(data, Obj(a), postOverride).value, k) == Some(va)
  {
    assert Truthy(Obj(a)) by {
      assert k in Keys(a);
    }
    var first := Merge(data, a);
    MergeReplaces(data, a, k, va);
    if Truthy(postOverride) {
      MergeUntouched(first, postOverride.fields, k);
    }
  }

  /** A key neither override names keeps the value its builder gave it. */
  lemma OverrideUntouched(data: Fields, additional: Value, postOverride: Value, k: string)
    requires OverrideOk(additional) && OverrideOk(postOverride)
    requires additional.Obj? ==> UniqueKeys(additional.fields) && !HasKey(additional.fields, k)
    requires postOverride.Obj? ==> UniqueKeys(postOverride.fields) && !HasKey(postOverride.fields, k)
    ensures Overrides(data, additional, postOverride).Success?
    ensures Get(Overrides(data, additional, postOverride).value, k) == Get(data, k)
  {
    var first := Override(data, additional).value;
    if Truthy(additional) {
      MergeUntouched(data, additional.fields, k);
    }
    if Truthy(postOverride) {
      MergeUntouched(first, postOverride.fields, k);
    }
  }

  /** Overriding one nested leaf keeps its siblings: a mapping in the post's
      override is merged into the section's mapping, not put in its place. */
  lemma OverrideKeepsSiblings(data: Fields, additional: Value, b: Fields, k: string, d: Fields, s: Fields,
                              sibling: string)
    requires !Truthy(additional)
    requires UniqueKeys(b) && Get(b, k) == Some(Obj(s)) && UniqueKeys(s) && !HasKey(s, sibling)
    requires Get(data, k) == Some(Obj(d))
    ensures Overrides(data, additional, Obj(b)).Success?
    ensures Get(Overrides(data, additional, Obj(b)).value, k) == Some(Obj(Merge(d, s)))
    ensures Get(Merge(d, s), sibling) == Get(d, sibling)
  {
    assert Truthy(Obj(b)) by {
      assert k in Keys(b);
    }
    MergeKeepsSiblings(data, b, k, d, s, sibling);
  }

  /** Overrides never move or drop a section: the built keys stay, in their
      order, in front of the keys the overrides add. */
  lemma OverridesKeepOrder(blog: Fields, post: Fields, author: Fields, date: Option<CivilDate>, additional: Value)
    requires Ready(blog, post, author, date)
    requires OverrideOk(additional) && OverrideOk(PostOverride(post))
    ensures Assemble(blog, post, author, date, additional).Success?
    ensures LayoutKeys(HasKey(post, "abstract"), HasKey(blog, "doi"))
      <= Keys(ResourceOf(Assemble(blog, post, author, date, additional).value))
  {
    AssembleSteps(blog, post, author, date, additional);
    SectionOrder(blog, post, author, date, true);
  }

  /** An override that is neither falsy nor a mapping stops the assembly. */
  lemma MalformedOverrideFails(blog: Fields, post: Fields, author: Fields, date: Option<CivilDate>, additional: Value)
    requires Truthy(PostOverride(post)) && !PostOverride(post).Obj?
    ensures Assemble(blog, post, author, date, additional).Failure?
  {
  }

  /** The script's record is the package's record for a blog without a DOI
      and with no overrides; it never relates the post to the blog. */
  lemma ScriptMatchesPackage(blog: Fields, post: Fields, author: Fields, date: Option<CivilDate>, additional: Value)
    requires !HasKey(blog, "doi") && !Truthy(additional) && !Truthy(PostOverride(post))
    ensures ScriptAssemble(blog, post, author, date) == Assemble(blog, post, author, date, additional)
  {
    if Ready(blog, post, author, date) {
      SectionsRead(blog, post, author, date, true);
      SectionsRead(blog, post, author, date, false);
      FalsyOverridesChangeNothing(Sections(blog, post, author, date, true).value, additional, PostOverride(post));
    }
  }

  /** The script's key order: the package's, without `relatedIdentifiers`. */
  lemma ScriptOrder(blog: Fields, post: Fields, author: Fields, date: Option<CivilDate>)
    requires Ready(blog, post, author, date)
    ensures Keys(ResourceOf(ScriptAssemble(blog, post, author, date).value)) == LayoutKeys(HasKey(post, "abstract"), false)
    ensures !HasKey(ResourceOf(ScriptAssemble(blog, post, author, date).value), "relatedIdentifiers")
  {
    SectionOrder(blog, post, author, date, false);
    RelationIffBlogDoi(blog, post, author, date, false);
  }
}

=== FILE: paths.dfy ===
/** The `pathlib.PurePath` operations the tool uses on POSIX paths: the
    final component (`name`), its `stem`, `with_suffix`, and joining a
    directory with a file name; and the author-file rule of
    `collectAuthorData` built from them. */
module Paths {
  import opened Wrappers
  import opened Errors
  import opened Text

  /** The part of `s` after its last `/` (all of `s` if it has none). */
  function LastComponent(s: string): (r: string)
    ensures |r| <= |s|
    ensures r == s[|s| - |r|..]
    ensures forall i :: 0 <= i < |r| ==> r[i] != '/'
    ensures |r| == |s| || s[|s| - |r| - 1] == '/'
  {
    if s == [] || s[|s| - 1] == '/' then []
    else LastComponent(s[..|s| - 1]) + [s[|s| - 1]]
  }

  /** `PurePath(p).name`: trailing slashes do not count. */
  function Name(p: string): string {
    LastComponent(RStrip(p, '/'))
  }

  /** Where the suffix of a name starts: its last dot, unless that dot is
      the first or the last character. */
  function SuffixStart(name: string): (r: Option<nat>)
    ensures r.Some? ==> 0 < r.value < |name| - 1 && name[r.value] == '.'
    ensures r.Some? ==> forall i :: r.value < i < |name| ==> name[i] != '.'
    ensures r.None? ==>
      forall i :: 0 < i < |name| - 1 && name[i] == '.' ==> exists j :: i < j < |name| && name[j] == '.'
  {
    var i := LastDot(name, |name|);
    if 0 < i < |name| - 1 then Some(i)
    else
      assert i >= 0 && i == |name| - 1 ==> name[|name| - 1] == '.';
      None
  }

  /** The index of the last `.` in `s[..n]`, or -1. */
  function LastDot(s: string, n: nat): (r: int)
    requires n <= |s|
    ensures -1 <= r < n
    ensures r >= 0 ==> s[r] == '.'
    ensures forall i :: r < i < n ==> s[i] != '.'
  {
    if n == 0 then -1 else if s[n - 1] == '.' then n - 1 else LastDot(s, n - 1)
  }

  /** `PurePath(name).stem`: the name without its suffix. */
  function Stem(name: string): (r: string)
    ensures r <= name
  {
    match SuffixStart(name)
    case Some(i) => name[..i]
    case None => name
  }

  /** `PurePath(p).with_suffix(suffix)`: the last component's suffix is
      replaced, not appended to; a path without a name is an error. */
  function WithSuffix(p: string, suffix: string): (r: Result<string, Error>)
    ensures r.Failure? <==> Name(p) == []
  {
    var q := RStrip(p, '/');
    var name := LastComponent(q);
    if name == [] then Failure(EmptyName(p))
    else Success(q[..|q| - |name|] + Stem(name) + suffix)
  }

  /** `PurePath(dir, name)` as a string: an absolute name stands alone, an
      empty part is dropped, otherwise one `/` joins the two. */
  function Join(dir: string, name: string): string {
    if name != [] && name[0] == '/' then name
    else if name == [] then dir
    else if dir == [] then name
    else RStrip(dir, '/') + "/" + name
  }

  /** `collectAuthorData`: a non-empty explicit author file is used as
      given; otherwise the author's lower-cased name inside the authors
      directory, with its suffix replaced by `.md`. */
  function AuthorPath(authorFile: Option<string>, authorsDir: string, author: string): (r: Result<string, Error>)
    ensures r.Success? ==> r.value != []
    ensures r.Failure? <==>
      (authorFile.None? || authorFile.value == []) && Name(Join(authorsDir, Lower(author))) == []
  {
    match authorFile
    case Some(f) => if f != [] then Success(f) else WithSuffix(Join(authorsDir, Lower(author)), ".md")
    case None => WithSuffix(Join(authorsDir, Lower(author)), ".md")
  }

  /** No character but `/` ends a component. */
  predicate Plain(s: string) {
    forall i :: 0 <= i < |s| ==> s[i] != '/' && s[i] != '.'
  }

  lemma {:induction false} LastComponentAfter(pre: string, b: string)
    requires pre == [] || pre[|pre| - 1] == '/'
    requires forall i :: 0 <= i < |b| ==> b[i] != '/'
    ensures LastComponent(pre + b) == b
    decreases |b|
  {
    if b == [] {
      assert pre + b == pre;
    } else {
      var s := pre + b;
      var b' := b[..|b| - 1];
      assert s[..|s| - 1] == pre + b';
      LastComponentStep(s);
      LastComponentAfter(pre, b');
      assert b' + [b[|b| - 1]] == b;
    }
  }

  lemma LastComponentStep(s: string)
    requires s != [] && s[|s| - 1] != '/'
    ensures LastComponent(s) == LastComponent(s[..|s| - 1]) + [s[|s| - 1]]
  {
  }

  lemma LowerPlain(s: string)
    requires Plain(s)
    ensures Plain(Lower(s)) && (s != [] ==> Lower(s) != [])
  {
  }

  lemma StemOfPlain(s: string)
    requires Plain(s)
    ensures Stem(s) == s
  {
    assert LastDot(s, |s|) == -1;
  }

  /** A name is found after a directory that does not end in `/`. */
  lemma WithSuffixAfterDir(dir: string, name: string, suffix: string)
    requires dir != [] && dir[|dir| - 1] != '/'
    requires name != [] && forall i :: 0 <= i < |name| ==> name[i] != '/'
    ensures WithSuffix(Join(dir, name), suffix) == Success(dir + "/" + Stem(name) + suffix)
  {
    var p := dir + "/" + name;
    assert Join(dir, name) == p;
    assert RStrip(p, '/') == p;
    LastComponentAfter(dir + "/", name);
    assert p[..|p| - |name|] == dir + "/";
  }

  /** Without an explicit author file, the author `Jane` in `_authors` is
      `_authors/jane.md`: the lower-cased name with `.md` added. */
  lemma DefaultAuthorPath(dir: string, author: string)
    requires dir != [] && dir[|dir| - 1] != '/'
    requires author != [] && Plain(author)
    ensures AuthorPath(None, dir, author) == Success(dir + "/" + Lower(author) + ".md")
    ensures AuthorPath(Some([]), dir, author) == AuthorPath(None, dir, author)
  {
    LowerPlain(author);
    StemOfPlain(Lower(author));
    WithSuffixAfterDir(dir, Lower(author), ".md");
  }

  /** A dotted author name has its last suffix replaced, not extended:
      `j.doe` becomes `j.md`. */
  lemma SuffixReplaced(dir: string, base: string, ext: string)
    requires dir != [] && dir[|dir| - 1] != '/'
    requires base != [] && Plain(base) && ext != [] && Plain(ext)
    ensures AuthorPath(None, dir, base + "." + ext) == Success(dir + "/" + Lower(base) + ".md")
  {
    LowerDotted(base, ext);
    var name := Lower(base) + "." + Lower(ext);
    StemOfDotted(Lower(base), Lower(ext));
    WithSuffixAfterDir(dir, name, ".md");
  }

  lemma LowerDotted(base: string, ext: string)
    requires base != [] && Plain(base) && ext != [] && Plain(ext)
    ensures Lower(base + "." + ext) == Lower(base) + "." + Lower(ext)
    ensures Lower(base) != [] && Plain(Lower(base)) && Lower(ext) != [] && Plain(Lower(ext))
  {
    LowerPlain(base);
    LowerPlain(ext);
  }

  lemma StemOfDotted(base: string, ext: string)
    requires base != [] && Plain(base) && ext != [] && Plain(ext)
    ensures Stem(base + "." + ext) == base
    ensures forall i :: 0 <= i < |base + "." + ext| ==> (base + "." + ext)[i] != '/'
  {
    var name := base + "." + ext;
    LastDotAfter(name, |base|);
    assert name[..|base|] == base;
  }

  lemma LastDotAfter(s: string, k: nat)
    requires k < |s| && s[k] == '.'
    requires forall i :: k < i < |s| ==> s[i] != '.'
    ensures LastDot(s, |s|) == k
  {
  }

  /** An explicit author file is used exactly as given. */
  lemma ExplicitAuthorFile(file: string, dir: string, author: string)
    requires file != []
    ensures AuthorPath(Some(file), dir, author) == Success(file)
  {
  }
}

=== FILE: permalink.dfy ===
/** `genPermalink`: the address Jekyll gives a post under its default
    permalink style, `<url>/<YYYY>/<MM>/<DD>/<title>.html`. The package
    fills the title part with the constant `asf`; the script takes it from
    the file name, after the leftmost match of
    `(\d{4}-\d{1,2}-\d{1,2}-)(.*)` in the file's stem. */
module Permalink {
  import opened Wrappers
  import opened Json
  import opened Errors
  import opened Text
  import opened Calendar
  import opened Paths
  import opened Metadata

  /** `n` digits from `j` on, then `-`. */
  predicate DigitsDash(s: string, j: nat, n: nat) {
    j + n < |s| && (forall k :: j <= k < j + n ==> IsDigit(s[k])) && s[j + n] == '-'
  }

  /** `\d{1,2}-` matches `s[j..e]`. */
  predicate ShortAt(s: string, j: nat, e: nat) {
    (DigitsDash(s, j, 1) && e == j + 2) || (DigitsDash(s, j, 2) && e == j + 3)
  }

  /** `\d{4}-\d{1,2}-\d{1,2}-` matches `s[i..e]`. */
  predicate DateAt(s: string, i: nat, e: nat) {
    DigitsDash(s, i, 4) && ((DigitsDash(s, i + 5, 1) && ShortAt(s, i + 7, e)) || (DigitsDash(s, i + 5, 2) && ShortAt(s, i + 8, e)))
  }

  /** `\d{1,2}-` at `j`: where the match ends. Two digits are tried before
      one; a failed two-digit attempt cannot be rescued by one digit, since
      the second character is then a digit and not `-`, so the match, if
      any, is the only one. */
  function DayOrMonth(s: string, j: nat): (r: Option<nat>)
    ensures r.Some? ==> ShortAt(s, j, r.value)
    ensures forall e: nat :: ShortAt(s, j, e) ==> r == Some(e)
  {
    if j + 3 <= |s| && IsDigit(s[j]) && IsDigit(s[j + 1]) && s[j + 2] == '-' then Some(j + 3)
    else if j + 2 <= |s| && IsDigit(s[j]) && s[j + 1] == '-' then Some(j + 2)
    else None
  }

  /** `\d{4}-\d{1,2}-\d{1,2}-` anchored at `i`: where group 1 ends. The
      match is the only one at `i`. */
  function PrefixAt(s: string, i: nat): (r: Option<nat>)
    ensures r.Some? ==> i + 9 <= r.value <= i + 11 && r.value <= |s|
    ensures r.Some? ==> DateAt(s, i, r.value)
    ensures forall e: nat :: DateAt(s, i, e) ==> r == Some(e)
  {
    if i + 5 <= |s| && IsDigit(s[i]) && IsDigit(s[i + 1]) && IsDigit(s[i + 2]) && IsDigit(s[i + 3])
       && s[i + 4] == '-' then
      match DayOrMonth(s, i + 5)
      case None => None
      case Some(j) => DayOrMonth(s, j)
    else None
  }

  /** `re.search`: the leftmost position from `i` on where the prefix
      matches, with the end of the prefix. */
  function Search(s: string, i: nat): (r: Option<(nat, nat)>)
    requires i <= |s|
    ensures r.Some? ==> i <= r.value.0 && PrefixAt(s, r.value.0) == Some(r.value.1)
    ensures r.Some? ==> forall k :: i <= k < r.value.0 ==> PrefixAt(s, k).None?
    ensures r.None? ==> forall k :: i <= k <= |s| ==> PrefixAt(s, k).None?
    decreases |s| - i
  {
    match PrefixAt(s, i)
    case Some(e) => Some((i, e))
    case None => if i == |s| then None else Search(s, i + 1)
  }

  /** A month and a day without zero padding match. */
  lemma UnpaddedPrefix()
    ensures Search("2022-8-1-hello", 0) == Some((0, 9))
  {
    var a := "2022-8-1-hello";
    assert DateAt(a, 0, 9) by {
      assert DigitsDash(a, 0, 4) && DigitsDash(a, 5, 1) && DigitsDash(a, 7, 1);
    }
  }

  /** A date further into the stem than its start matches there. */
  lemma LaterPrefix()
    ensures Search("draft-2022-08-01-x", 0) == Some((6, 17))
  {
    var b := "draft-2022-08-01-x";
    assert DateAt(b, 6, 17) by {
      assert DigitsDash(b, 6, 4) && DigitsDash(b, 11, 2) && DigitsDash(b, 14, 2);
    }
    assert forall k :: 0 <= k < 6 ==> !IsDigit(b[k]) by {
      assert b[..6] == "draft-";
    }
    assert Search(b, 6) == Some((6, 17));
    assert Search(b, 5) == Some((6, 17));
    assert Search(b, 4) == Some((6, 17));
    assert Search(b, 3) == Some((6, 17));
    assert Search(b, 2) == Some((6, 17));
    assert Search(b, 1) == Some((6, 17));
  }

  /** `(.*)`: everything up to the first line break. */
  function RestOfLine(s: string): (r: string)
    ensures r <= s
    ensures forall i :: 0 <= i < |r| ==> r[i] != '\n'
    ensures |r| == |s| || s[|r|] == '\n'
  {
    if s == [] || s[0] == '\n' then [] else [s[0]] + RestOfLine(s[1..])
  }

  /** `data_blog['url'].rstrip('/')`, then the parsed front-matter date. */
  function BaseAndDate(blog: Fields, post: Fields, date: Option<CivilDate>): (r: Result<(string, CivilDate), Error>)
    ensures r.Success? <==> HasKey(blog, "url") && Get(blog, "url").value.Str? && HasKey(post, "date") && date.Some?
    ensures r.Success? ==> r.value.0 == RStrip(Get(blog, "url").value.s, '/') && r.value.1 == date.value
  {
    var url :- RequiredText(blog, "url");
    var _ :- Required(post, "date");
    match date
    case None => Failure(UnparsableDate)
    case Some(d) => Success((RStrip(url, '/'), d))
  }

  /** The package's `genPermalink`: the file name is looked at but not used. */
  function PackagePermalink(blog: Fields, post: Fields, fileName: string, date: Option<CivilDate>)
    : Result<string, Error>
  {
    var bd :- BaseAndDate(blog, post, date);
    Success(bd.0 + "/" + DatePath(bd.1) + "/asf.html")
  }

  /** The script's `genPermalink`: the title part is what follows the date
      prefix in the stem; a stem without one has nothing to take. */
  function ScriptPermalink(blog: Fields, post: Fields, fileName: string, date: Option<CivilDate>)
    : Result<string, Error>
  {
    var bd :- BaseAndDate(blog, post, date);
    TitleLink(bd.0, bd.1, Stem(Name(fileName)))
  }

  function TitleLink(base: string, d: CivilDate, stem: string): Result<string, Error> {
    match Search(stem, 0)
    case None => Failure(NoDatePrefix(stem))
    case Some((_, e)) => Success(base + "/" + DatePath(d) + "/" + RestOfLine(stem[e..]) + ".html")
  }

  /** The package's permalink does not depend on the file name. */
  lemma PackageIgnoresFileName(blog: Fields, post: Fields, a: string, b: string, date: Option<CivilDate>)
    ensures PackagePermalink(blog, post, a, date) == PackagePermalink(blog, post, b, date)
  {
  }

  /** The package's permalink is the blog URL without trailing slashes, the
      zero-padded date path, and the placeholder `asf.html`. */
  lemma PackagePermalinkParts(blog: Fields, post: Fields, fileName: string, date: Option<CivilDate>)
    requires HasKey(blog, "url") && Get(blog, "url").value.Str? && HasKey(post, "date") && date.Some?
    ensures var base := RStrip(Get(blog, "url").value.s, '/');
      && PackagePermalink(blog, post, fileName, date) == Success(base + "/" + DatePath(date.value) + "/asf.html")
      && (base == [] || base[|base| - 1] != '/')
  {
  }

  lemma RStripSlash(u: string)
    ensures RStrip(u + "/", '/') == RStrip(u, '/')
  {
    assert (u + "/")[..|u|] == u;
  }

  /** A trailing slash on the blog URL makes no difference to either
      permalink. */
  lemma TrailingSlashIrrelevant(blog: Fields, post: Fields, fileName: string, date: Option<CivilDate>, u: string)
    requires Get(blog, "url") == Some(Str(u))
    ensures PackagePermalink(Put(blog, "url", Str(u + "/")), post, fileName, date)
      == PackagePermalink(blog, post, fileName, date)
    ensures ScriptPermalink(Put(blog, "url", Str(u + "/")), post, fileName, date)
      == ScriptPermalink(blog, post, fileName, date)
  {
    BaseIgnoresSlash(blog, post, date, u);
  }

  lemma BaseIgnoresSlash(blog: Fields, post: Fields, date: Option<CivilDate>, u: string)
    requires Get(blog, "url") == Some(Str(u))
    ensures BaseAndDate(Put(blog, "url", Str(u + "/")), post, date) == BaseAndDate(blog, post, date)
  {
    var blog' := Put(blog, "url", Str(u + "/"));
    assert RequiredText(blog', "url") == Success(u + "/");
    assert RequiredText(blog, "url") == Success(u);
    RStripSlash(u);
  }

  /** The date prefix of a Jekyll post file name, `YYYY-MM-DD-`. */
  function DatePrefix(d: CivilDate): string {
    YearText(d) + "-" + Pad2(d.month) + "-" + Pad2(d.day) + "-"
  }

  /** The script's permalink strips the file's date prefix: a post file
      `YYYY-MM-DD-<slug>.md` lands at `<url>/<date path>/<slug>.html`. The
      date path comes from the front matter, whatever date the file name
      carries. */
  lemma ScriptPermalinkOfJekyllFile(blog: Fields, post: Fields, fileDate: CivilDate, slug: string,
                                     date: Option<CivilDate>)
    requires 1000 <= fileDate.year
    requires forall i :: 0 <= i < |slug| ==> slug[i] != '/' && slug[i] != '\n'
    requires HasKey(blog, "url") && Get(blog, "url").value.Str? && HasKey(post, "date") && date.Some?
    ensures ScriptPermalink(blog, post, DatePrefix(fileDate) + slug + ".md", date)
      == Success(RStrip(Get(blog, "url").value.s, '/') + "/" + DatePath(date.value) + "/" + slug + ".html")
  {
    var file := DatePrefix(fileDate) + slug + ".md";
    var stem := DatePrefix(fileDate) + slug;
    JekyllStem(fileDate, slug);
    PrefixOfJekyllStem(fileDate, slug);
    RestOfLineWhole(slug);
  }

  lemma JekyllStem(fileDate: CivilDate, slug: string)
    requires 1000 <= fileDate.year
    requires forall i :: 0 <= i < |slug| ==> slug[i] != '/' && slug[i] != '\n'
    ensures Stem(Name(DatePrefix(fileDate) + slug + ".md")) == DatePrefix(fileDate) + slug
  {
    var p := DatePrefix(fileDate);
    var file := p + slug + ".md";
    assert |p| == 11;
    assert forall i :: 0 <= i < |p| ==> p[i] != '/' by {
      assert forall i :: 0 <= i < |YearText(fileDate)| ==> IsDigit(YearText(fileDate)[i]);
      assert forall i :: 0 <= i < 2 ==> IsDigit(Pad2(fileDate.month)[i]) && IsDigit(Pad2(fileDate.day)[i]);
    }
    assert forall i :: 0 <= i < |file| ==> file[i] != '/';
    assert RStrip(file, '/') == file;
    LastComponentAfter([], file);
    assert [] + file == file;
    MdStem(p + slug);
  }

  /** A name ending in `.md` has the rest as its stem. */
  lemma MdStem(base: string)
    requires base != []
    ensures Stem(base + ".md") == base
  {
    var file := base + ".md";
    var k := |file| - 3;
    assert file[k] == '.' && file[k + 1] == 'm' && file[k + 2] == 'd';
    forall i | k < i < |file|
      ensures file[i] != '.'
    {
      assert i == k + 1 || i == k + 2;
    }
    LastDotAfter(file, k);
    assert file[..k] == base;
  }

  lemma PrefixOfJekyllStem(fileDate: CivilDate, slug: string)
    requires 1000 <= fileDate.year
    ensures Search(DatePrefix(fileDate) + slug, 0) == Some((0, 11))
  {
    var s := DatePrefix(fileDate) + slug;
    var y, m, d := YearText(fileDate), Pad2(fileDate.month), Pad2(fileDate.day);
    assert s[..4] == y && s[4] == '-';
    assert s[5] == m[0] && s[6] == m[1] && s[7] == '-';
    assert s[8] == d[0] && s[9] == d[1] && s[10] == '-';
    assert DayOrMonth(s, 5) == Some(8);
    assert DayOrMonth(s, 8) == Some(11);
  }

  lemma {:induction false} RestOfLineWhole(s: string)
    requires forall i :: 0 <= i < |s| ==> s[i] != '\n'
    ensures RestOfLine(s) == s
  {
    if s != [] {
      RestOfLineWhole(s[1..]);
    }
  }

  /** A stem without a date prefix gives no permalink: the script fails
      where the package would use its placeholder. */
  lemma ScriptNeedsDatePrefix(blog: Fields, post: Fields, fileName: string, date: Option<CivilDate>)
    requires HasKey(blog, "url") && Get(blog, "url").value.Str? && HasKey(post, "date") && date.Some?
    requires forall k :: 0 <= k <= |Stem(Name(fileName))| ==> PrefixAt(Stem(Name(fileName)), k).None?
    ensures ScriptPermalink(blog, post, fileName, date) == Failure(NoDatePrefix(Stem(Name(fileName))))
    ensures PackagePermalink(blog, post, fileName, date).Success?
  {
  }

  /** The date of the example post `2022-08-01-hello-world.md`, as file
      name prefix and as permalink path. */
  lemma FirstOfAugust()
    ensures DatePrefix(Date(2022, 8, 1)) == "2022-08-01-"
    ensures DatePath(Date(2022, 8, 1)) == "2022/08/01"
  {
    assert Decimal(2) == "2";
    assert Decimal(20) == Decimal(2) + [DigitChar(0)];
    assert Decimal(202) == Decimal(20) + [DigitChar(2)];
    assert Decimal(2022) == Decimal(202) + [DigitChar(2)];
    assert Pad2(8) == "08" && Pad2(1) == "01";
  }
}

=== FILE: registry.dfy ===
/** What the tool sends to the DataCite Metadata Store: the two resource
    addresses and the plain-text body that binds a DOI to its landing page. */
module Registry {

  /** The address the metadata record is put to. */
  function MetadataEndpoint(provider: string, doi: string): (r: string)
    ensures |r| == |provider| + 10 + |doi|
    ensures r[..|provider|] == provider && r[|provider| + 10..] == doi
  {
    provider + "/metadata/" + doi
  }

  /** The address the DOI's URL is put to. */
  function UrlEndpoint(provider: string, doi: string): (r: string)
    ensures |r| == |provider| + 5 + |doi|
    ensures r[..|provider|] == provider && r[|provider| + 5..] == doi
  {
    provider + "/doi/" + doi
  }

  /** The two requests of one registration never go to the same address. */
  lemma EndpointsDiffer(provider: string, doi: string)
    ensures MetadataEndpoint(provider, doi) != UrlEndpoint(provider, doi)
  {
    assert MetadataEndpoint(provider, doi)[|provider| + 1] == 'm';
    assert UrlEndpoint(provider, doi)[|provider| + 1] == 'd';
  }

  /** Distinct DOIs under one provider get distinct addresses. */
  lemma EndpointsInjective(provider: string, a: string, b: string)
    requires a != b
    ensures MetadataEndpoint(provider, a) != MetadataEndpoint(provider, b)
    ensures UrlEndpoint(provider, a) != UrlEndpoint(provider, b)
  {
  }

  /** The indentation of the closing quotes stays behind the URL once the
      template is dedented: eight spaces and no final line break. */
  const Trailer: string := "        "

  /** The content-type comment that opens the body. */
  const Header: string := "#Content-Type:text/plain;charset=UTF-8"

  /** The body of the URL request: a content-type comment line, then
      `doi= <doi>` and `url= <url>`. */
  function UrlPayload(doi: string, url: string): string {
    Header + "\ndoi= " + doi + "\nurl= " + url + Trailer
  }

  /** `str.split('\n')`. */
  function Lines(s: string): (r: seq<string>)
    ensures |r| >= 1
    ensures forall i, j :: 0 <= i < |r| && 0 <= j < |r[i]| ==> r[i][j] != '\n'
    decreases |s|
  {
    if s == [] then [[]]
    else if s[0] == '\n' then [[]] + Lines(s[1..])
    else var rest := Lines(s[1..]); [[s[0]] + rest[0]] + rest[1..]
  }

  predicate SingleLine(s: string) {
    forall i :: 0 <= i < |s| ==> s[i] != '\n'
  }

  lemma {:induction false} LinesOfLine(a: string, rest: string)
    requires SingleLine(a)
    ensures Lines(a + rest) == [a + Lines(rest)[0]] + Lines(rest)[1..]
    decreases |a|
  {
    if a == [] {
      assert a + rest == rest;
      var ls := Lines(rest);
      assert a + ls[0] == ls[0];
      assert ls == [ls[0]] + ls[1..];
    } else {
      var s := a + rest;
      assert s[0] == a[0] && s[0] != '\n';
      assert s[1..] == a[1..] + rest;
      LinesOfLine(a[1..], rest);
      var tail := Lines(s[1..]);
      assert tail[0] == a[1..] + Lines(rest)[0] && tail[1..] == Lines(rest)[1..];
      assert Lines(s) == [[s[0]] + tail[0]] + tail[1..];
      assert [a[0]] + (a[1..] + Lines(rest)[0]) == a + Lines(rest)[0];
    }
  }

  lemma {:induction false} LinesBreak(a: string, rest: string)
    requires SingleLine(a)
    ensures Lines(a + "\n" + rest) == [a] + Lines(rest)
  {
    LinesOfLine(a, "\n" + rest);
    assert ("\n" + rest)[1..] == rest;
    assert a + "\n" + rest == a + ("\n" + rest);
    assert a + [] == a;
  }

  lemma {:induction false} LinesWhole(a: string)
    requires SingleLine(a)
    ensures Lines(a) == [a]
  {
    LinesOfLine(a, []);
    assert a + [] == a;
  }

  /** For a DOI and URL on one line each, the body has exactly three lines,
      and the DOI and the URL read back from the second and third. */
  lemma PayloadReadsBack(doi: string, url: string)
    requires SingleLine(doi) && SingleLine(url)
    ensures var ls := Lines(UrlPayload(doi, url));
      && |ls| == 3
      && ls[0] == Header
      && ls[1] == "doi= " + doi
      && ls[2] == "url= " + url + Trailer
  {
    var head := Header;
    var l1 := "doi= " + doi;
    var l2 := "url= " + url + Trailer;
    assert UrlPayload(doi, url) == head + "\n" + (l1 + "\n" + l2);
    LinesWhole(l2);
    LinesBreak(l1, l2);
    LinesBreak(head, l1 + "\n" + l2);
  }
}

=== FILE: sharing.dfy ===
/** `assembleMetadata` places two of the post's own objects into the record
    rather than copies of them: the post's `version` becomes the record's
    `version`, and its `abstract` becomes the record's
    `descriptions.description.#text`. `merge` recurses into a mapping in
    place, so when such an object is a mapping, an override that names a
    mapping at its place in the record updates the post as well, and the
    post the run writes back carries the override's keys. An override that
    puts anything else there replaces the record's node, and from then on
    the record no longer holds the post's object. This module follows one
    shared mapping through the overrides. (The post's `title` is placed the
    same way, but a run only gets this far with a string title, which no
    merge can change.) */
module Sharing {
  import opened Wrappers
  import opened Json
  import opened DeepMerge
  import opened Metadata
  import opened Calendar

  /** Where the post's `version` sits in the record. */
  const VersionPath: seq<string> := ["version"]

  /** Where the post's `abstract` sits in the record. */
  const AbstractPath: seq<string> := ["descriptions", "description", "#text"]

  /** The value at `path` inside a mapping, if every step is a mapping that
      holds the next key. */
  function At(fs: Fields, path: seq<string>): (r: Option<Value>)
    requires path != []
    ensures |path| == 1 ==> r == Get(fs, path[0])
    decreases |path|
  {
    match Get(fs, path[0])
    case None => None
    case Some(x) =>
      if |path| == 1 then Some(x)
      else if x.Obj? then At(x.fields, path[1..])
      else None
  }

  /** The mappings of `src` along `path` hold each key once, as a Python
      mapping does. */
  predicate UniqueAlong(src: Fields, path: seq<string>)
    requires path != []
    decreases |path|
  {
    && UniqueKeys(src)
    && match Get(src, path[0])
       case Some(Obj(s)) => |path| == 1 || UniqueAlong(s, path[1..])
       case _ => true
  }

  /** The shared mapping `v`, sitting at `path` in the record, after one
      `merge(record, src)`. Some(w): the record still holds it, now `w`.
      None: a value of `src` that is not a mapping, at `path` or on the way
      to it, replaced the record's node. */
  function Follow(v: Fields, src: Fields, path: seq<string>): (r: Option<Fields>)
    requires path != []
    ensures !HasKey(src, path[0]) ==> r == Some(v)
    ensures At(src, path).Some? && !At(src, path).value.Obj? ==> r.None?
    ensures At(src, path).None? ==> r.None? || r == Some(v)
    decreases |path|
  {
    match Get(src, path[0])
    case None => Some(v)
    case Some(s) =>
      if !s.Obj? then None
      else if |path| == 1 then Some(Merge(v, s.fields))
      else Follow(v, s.fields, path[1..])
  }

  /** A mapping at `path` in the source is merged into the shared
      mapping. */
  lemma {:induction false} FollowMerges(v: Fields, src: Fields, path: seq<string>, s: Fields)
    requires path != [] && At(src, path) == Some(Obj(s))
    ensures Follow(v, src, path) == Some(Merge(v, s))
    decreases |path|
  {
    if |path| > 1 {
      FollowMerges(v, Get(src, path[0]).value.fields, path[1..], s);
    }
  }

  /** One override layer: a mapping is merged, anything else merges
      nothing. A falsy override is `{}` to `merge`; any other value that is
      not a mapping fails the run before the post is written back. */
  function Step(v: Fields, extra: Value, path: seq<string>): (r: Option<Fields>)
    requires path != []
    ensures !extra.Obj? ==> r == Some(v)
  {
    if extra.Obj? then Follow(v, extra.fields, path) else Some(v)
  }

  /** The shared mapping after the caller's layer `a` and the post's layer
      `b`, applied in this order: it takes each layer's mapping at `path`
      until a layer lets go of it, and then keeps what it had become. */
  function Settle(v: Fields, a: Value, b: Value, path: seq<string>): (r: Fields)
    requires path != []
  {
    match Step(v, a, path)
    case None => v
    case Some(w) =>
      match Step(w, b, path)
      case None => w
      case Some(x) => x
  }

  /** The record holds the shared mapping after both layers. */
  predicate Attached(v: Fields, a: Value, b: Value, path: seq<string>)
    requires path != []
  {
    Step(v, a, path).Some? && Step(Step(v, a, path).value, b, path).Some?
  }

  /** An entry of the post after both layers: a mapping placed at `path`
      in the record is settled, anything else (or nothing) stays. */
  function Resettled(e: Option<Value>, a: Value, b: Value, path: seq<string>): Option<Value>
    requires path != []
  {
    match e
    case Some(Obj(v)) => Some(Obj(Settle(v, a, b, path)))
    case _ => e
  }

  /** The post with its entry `k` settled. */
  function Reshare(post: Fields, k: string, a: Value, b: Value, path: seq<string>): (r: Fields)
    requires path != []
    ensures Keys(r) == Keys(post)
    ensures Get(r, k) == Resettled(Get(post, k), a, b, path)
    ensures forall k' :: k' != k ==> Get(r, k') == Get(post, k')
    ensures UniqueKeys(post) ==> UniqueKeys(r)
  {
    match Get(post, k)
    case Some(Obj(v)) =>
      assert HasKey(post, k);
      Put(post, k, Obj(Settle(v, a, b, path)))
    case _ => post
  }

  /** The post after the package's `assembleMetadata` with the caller's
      override `additional`: a mapping `version` or `abstract` carries
      what the overrides merged into it; every other entry is as it was. */
  function PostAfterAssembly(post: Fields, additional: Value): (r: Fields)
    ensures Keys(r) == Keys(post)
    ensures Get(r, "version") == Resettled(Get(post, "version"), additional, PostOverride(post), VersionPath)
    ensures Get(r, "abstract") == Resettled(Get(post, "abstract"), additional, PostOverride(post), AbstractPath)
    ensures forall k :: k != "version" && k != "abstract" ==> Get(r, k) == Get(post, k)
    ensures UniqueKeys(post) ==> UniqueKeys(r)
    ensures PostOverride(r) == PostOverride(post)
  {
    var b := PostOverride(post);
    var withVersion := Reshare(post, "version", additional, b, VersionPath);
    Reshare(withVersion, "abstract", additional, b, AbstractPath)
  }

  /** The rewrite keeps every entry in its place, and changes no entry but
      `version` and `abstract`. */
  lemma AssemblyInPlace(post: Fields, additional: Value)
    requires UniqueKeys(post)
    ensures var r := PostAfterAssembly(post, additional);
      && |r| == |post|
      && (forall j :: 0 <= j < |post| ==> r[j].0 == post[j].0)
      && (forall j :: 0 <= j < |post| && post[j].0 != "version" && post[j].0 != "abstract" ==> r[j] == post[j])
  {
    var b := PostOverride(post);
    var withVersion := Reshare(post, "version", additional, b, VersionPath);
    ReshareInPlace(post, "version", additional, b, VersionPath);
    ReshareInPlace(withVersion, "abstract", additional, b, AbstractPath);
  }

  lemma ReshareInPlace(post: Fields, k: string, a: Value, b: Value, path: seq<string>)
    requires path != [] && UniqueKeys(post)
    ensures var r := Reshare(post, k, a, b, path);
      && |r| == |post|
      && (forall j :: 0 <= j < |post| ==> r[j].0 == post[j].0)
      && (forall j :: 0 <= j < |post| && post[j].0 != k ==> r[j] == post[j])
  {
    match Get(post, k)
    case Some(Obj(v)) => PutInPlace(post, k, Obj(Settle(v, a, b, path)));
    case _ =>
  }

  lemma PutInPlace(post: Fields, k: string, x: Value)
    requires UniqueKeys(post) && HasKey(post, k)
    ensures |Put(post, k, x)| == |post|
    ensures forall j :: 0 <= j < |post| ==> Put(post, k, x)[j].0 == post[j].0
    ensures forall j :: 0 <= j < |post| && post[j].0 != k ==> Put(post, k, x)[j] == post[j]
  {
    var i :| 0 <= i < |post| && Keys(post)[i] == k;
    PutPosition(post, k, x, i);
  }

  /** With the shared mapping at `path` in the record, one merge leaves
      the record holding `Follow`'s result there, unless it let go. */
  lemma {:induction false} FollowTracksRecord(dst: Fields, src: Fields, path: seq<string>, v: Fields)
    requires path != [] && At(dst, path) == Some(Obj(v)) && UniqueAlong(src, path)
    requires Follow(v, src, path).Some?
    ensures At(Merge(dst, src), path) == Some(Obj(Follow(v, src, path).value))
    decreases |path|
  {
    MergeGet(dst, src, path[0]);
    match Get(src, path[0])
    case None =>
    case Some(s) =>
      var d := Get(dst, path[0]).value;
      assert Get(Merge(dst, src), path[0]) == Some(Obj(Merge(d.fields, s.fields)));
      if |path| > 1 {
        FollowTracksRecord(d.fields, s.fields, path[1..], v);
      }
  }

  /** The same for one override layer. */
  lemma OverrideTracksRecord(data: Fields, extra: Value, path: seq<string>, v: Fields)
    requires path != [] && At(data, path) == Some(Obj(v)) && Override(data, extra).Success?
    requires extra.Obj? ==> UniqueAlong(extra.fields, path)
    requires Step(v, extra, path).Some?
    ensures At(Override(data, extra).value, path) == Some(Obj(Step(v, extra, path).value))
  {
    if extra.Obj? {
      FollowTracksRecord(data, extra.fields, path, v);
    }
  }

  /** While the record holds the shared mapping through both layers, the
      record's node at `path` and the post's rewritten entry are one and
      the same value. */
  lemma OverridesTrackRecord(data: Fields, a: Value, b: Value, path: seq<string>, v: Fields)
    requires path != [] && At(data, path) == Some(Obj(v))
    requires Overrides(data, a, b).Success?
    requires a.Obj? ==> UniqueAlong(a.fields, path)
    requires b.Obj? ==> UniqueAlong(b.fields, path)
    requires Attached(v, a, b, path)
    ensures At(Overrides(data, a, b).value, path) == Some(Obj(Settle(v, a, b, path)))
  {
    var w := Step(v, a, path).value;
    OverrideTracksRecord(data, a, path, v);
    OverrideTracksRecord(Override(data, a).value, b, path, w);
  }

  /** The record's `version`, after both overrides, is the post's
      rewritten `version`, as long as no override replaced it: `data` are
      the sections, which hold the post's `version` (`AssembledParts`). */
  lemma RecordSharesVersion(data: Fields, post: Fields, additional: Value, v: Fields)
    requires At(data, VersionPath) == Some(Obj(v)) && Get(post, "version") == Some(Obj(v))
    requires Overrides(data, additional, PostOverride(post)).Success?
    requires additional.Obj? ==> UniqueAlong(additional.fields, VersionPath)
    requires PostOverride(post).Obj? ==> UniqueAlong(PostOverride(post).fields, VersionPath)
    requires Attached(v, additional, PostOverride(post), VersionPath)
    ensures At(Overrides(data, additional, PostOverride(post)).value, VersionPath)
      == Get(PostAfterAssembly(post, additional), "version")
  {
    OverridesTrackRecord(data, additional, PostOverride(post), VersionPath, v);
    SharedEntry(post, additional, "version", VersionPath, v);
  }

  /** The record's abstract, after both overrides, is the post's rewritten
      `abstract`, as long as no override replaced it. */
  lemma RecordSharesAbstract(data: Fields, post: Fields, additional: Value, a: Fields)
    requires At(data, AbstractPath) == Some(Obj(a)) && Get(post, "abstract") == Some(Obj(a))
    requires Overrides(data, additional, PostOverride(post)).Success?
    requires additional.Obj? ==> UniqueAlong(additional.fields, AbstractPath)
    requires PostOverride(post).Obj? ==> UniqueAlong(PostOverride(post).fields, AbstractPath)
    requires Attached(a, additional, PostOverride(post), AbstractPath)
    ensures At(Overrides(data, additional, PostOverride(post)).value, AbstractPath)
      == Get(PostAfterAssembly(post, additional), "abstract")
  {
    OverridesTrackRecord(data, additional, PostOverride(post), AbstractPath, a);
    SharedEntry(post, additional, "abstract", AbstractPath, a);
  }

  lemma SharedEntry(post: Fields, additional: Value, k: string, path: seq<string>, v: Fields)
    requires (k, path) == ("version", VersionPath) || (k, path) == ("abstract", AbstractPath)
    requires Get(post, k) == Some(Obj(v))
    ensures Get(PostAfterAssembly(post, additional), k) == Some(Obj(Settle(v, additional, PostOverride(post), path)))
  {
  }

  /** The package's record is the sections under both overrides, and the
      sections hold the post's `version` and `abstract` where the two
      lemmas above look for them. */
  lemma AssembledParts(blog: Fields, post: Fields, author: Fields, date: Option<CivilDate>, additional: Value)
    requires Assemble(blog, post, author, date, additional).Success?
    ensures Sections(blog, post, author, date, true).Success?
    ensures var data := Sections(blog, post, author, date, true).value;
      && Overrides(data, additional, PostOverride(post)).Success?
      && ResourceOf(Assemble(blog, post, author, date, additional).value)
         == Overrides(data, additional, PostOverride(post)).value
      && At(data, VersionPath) == Some(VersionOf(post))
      && (HasKey(post, "abstract") ==> At(data, AbstractPath) == Get(post, "abstract"))
  {
    var data := Sections(blog, post, author, date, true).value;
    AssembleSteps(blog, post, author, date, additional);
    VersionDefault(blog, post, author, date, true);
    DescriptionsIffAbstract(blog, post, author, date, true);
    if HasKey(post, "abstract") {
      AbstractAt(data, Get(post, "abstract").value);
    }
  }

  lemma AbstractAt(data: Fields, x: Value)
    requires Get(data, "descriptions")
      == Some(Obj([("description", Obj([("@descriptionType", Str("Abstract")), ("#text", x)]))]))
    ensures At(data, AbstractPath) == Some(x)
  {
    var d := [("description", Obj([("@descriptionType", Str("Abstract")), ("#text", x)]))];
    var t := [("@descriptionType", Str("Abstract")), ("#text", x)];
    assert Get(t, "#text") == Some(x);
    assert At(t, ["#text"]) == Some(x);
    assert Get(d, "description") == Some(Obj(t));
    assert AbstractPath[1..] == ["description", "#text"] && AbstractPath[1..][1..] == ["#text"];
  }

  /** The post's own override reaches a mapping `version`: the post's
      keys and the override's are merged in the post itself. */
  lemma VersionTakesOverride(post: Fields, additional: Value, v: Fields, s: Fields)
    requires Get(post, "version") == Some(Obj(v))
    requires !additional.Obj?
    requires PostOverride(post).Obj? && Get(PostOverride(post).fields, "version") == Some(Obj(s))
    ensures Get(PostAfterAssembly(post, additional), "version") == Some(Obj(Merge(v, s)))
  {
    PostLayerMerges(Get(post, "version"), v, additional, PostOverride(post).fields, VersionPath, s);
  }

  /** The caller's override reaches a mapping abstract through
      `descriptions.description.#text`. */
  lemma AbstractTakesOverride(post: Fields, a: Fields, s: Fields, additional: Fields)
    requires Get(post, "abstract") == Some(Obj(a))
    requires At(additional, AbstractPath) == Some(Obj(s))
    requires !PostOverride(post).Obj?
    ensures Get(PostAfterAssembly(post, Obj(additional)), "abstract") == Some(Obj(Merge(a, s)))
  {
    CallerLayerMerges(Get(post, "abstract"), a, additional, PostOverride(post), AbstractPath, s);
  }

  lemma CallerLayerMerges(e: Option<Value>, v: Fields, a: Fields, b: Value, path: seq<string>, s: Fields)
    requires e == Some(Obj(v))
    requires path != [] && At(a, path) == Some(Obj(s)) && !b.Obj?
    ensures Resettled(e, Obj(a), b, path) == Some(Obj(Merge(v, s)))
  {
    FollowMerges(v, a, path, s);
  }

  lemma PostLayerMerges(e: Option<Value>, v: Fields, a: Value, b: Fields, path: seq<string>, s: Fields)
    requires e == Some(Obj(v))
    requires path != [] && !a.Obj? && At(b, path) == Some(Obj(s))
    ensures Resettled(e, a, Obj(b), path) == Some(Obj(Merge(v, s)))
  {
    FollowMerges(v, b, path, s);
  }

  /** A caller's override that puts a plain value at `version` makes the
      record let go of the post's mapping: the post's own override then
      lands in the record only, and the post keeps its `version`. */
  lemma ReplacedVersionDetaches(post: Fields, v: Fields, x: Value, additional: Fields)
    requires Get(post, "version") == Some(Obj(v))
    requires Get(additional, "version") == Some(x) && !x.Obj?
    ensures Get(PostAfterAssembly(post, Obj(additional)), "version") == Some(Obj(v))
    ensures !Attached(v, Obj(additional), PostOverride(post), VersionPath)
  {
    assert Step(v, Obj(additional), VersionPath).None?;
  }

  /** A post without override keys comes out of the assembly unchanged. */
  lemma NoOverrideKeepsPost(post: Fields, additional: Value)
    requires !Truthy(additional) && !HasKey(post, "doi-additional-metadata")
    ensures PostAfterAssembly(post, additional) == post
  {
    var b := PostOverride(post);
    assert b == Null;
    assert additional.Obj? ==> additional.fields == [];
    ReshareSame(post, "version", additional, b, VersionPath);
    ReshareSame(post, "abstract", additional, b, AbstractPath);
  }

  /** Layers that name nothing leave the post as it was. */
  lemma ReshareSame(post: Fields, k: string, a: Value, b: Value, path: seq<string>)
    requires path != []
    requires a.Obj? ==> a.fields == []
    requires b.Obj? ==> b.fields == []
    ensures Reshare(post, k, a, b, path) == post
  {
    match Get(post, k)
    case Some(Obj(v)) =>
      SettleUntouched(v, a, b, path);
      ReshareUnchanged(post, k, a, b, path, v);
    case _ =>
  }

  lemma ReshareUnchanged(post: Fields, k: string, a: Value, b: Value, path: seq<string>, v: Fields)
    requires path != [] && Get(post, k) == Some(Obj(v)) && Settle(v, a, b, path) == v
    ensures Reshare(post, k, a, b, path) == post
  {
    PutSame(post, k, Obj(v));
  }

  lemma SettleUntouched(v: Fields, a: Value, b: Value, path: seq<string>)
    requires path != []
    requires a.Obj? ==> a.fields == []
    requires b.Obj? ==> b.fields == []
    ensures Settle(v, a, b, path) == v
  {
    assert Step(v, a, path) == Some(v);
    assert Step(v, b, path) == Some(v);
  }

  /** A post with `version: {major: 1}` whose own override names
      `version: {minor: 2}` comes out with both keys. */
  lemma MajorMinor()
    ensures var post := [("version", Obj([("major", Int(1))])),
                         ("doi-additional-metadata", Obj([("version", Obj([("minor", Int(2))]))]))];
      Get(PostAfterAssembly(post, Null), "version") == Some(Obj([("major", Int(1)), ("minor", Int(2))]))
  {
    var post := [("version", Obj([("major", Int(1))])),
                 ("doi-additional-metadata", Obj([("version", Obj([("minor", Int(2))]))]))];
    VersionTakesOverride(post, Null, [("major", Int(1))], [("minor", Int(2))]);
    MergeMinor();
  }

  lemma MergeMinor()
    ensures Merge([("major", Int(1))], [("minor", Int(2))]) == [("major", Int(1)), ("minor", Int(2))]
  {
    assert MergeKey([("major", Int(1))], "minor", Int(2)) == [("major", Int(1)), ("minor", Int(2))];
  }
}

=== FILE: sources.dfy ===
/** The in-memory side of the tool's inputs and outputs: the blog data
    taken from Jekyll's configuration (`collectBlogData`), and the post's
    front matter after the DOI is written back (`updateBlogpostMarkdown`). */
module Sources {
  import opened Wrappers
  import opened Json
  import opened Errors

  /** `collectBlogData`: the `doi_jekyll` block, with `url` set from the
      top-level `url` of the configuration. */
  function CollectBlogData(config: Fields): (r: Result<Fields, Error>)
    ensures r.Success? <==>
      HasKey(config, "doi_jekyll") && Get(config, "doi_jekyll").value.Obj? && HasKey(config, "url")
  {
    var block :- match Get(config, "doi_jekyll")
                 case None => Failure(MissingKey("doi_jekyll"))
                 case Some(Obj(fs)) => Success(fs)
                 case Some(_) => Failure(NotMapping("doi_jekyll"));
    var url :- match Get(config, "url")
               case None => Failure(MissingKey("url"))
               case Some(u) => Success(u);
    Success(Put(block, "url", url))
  }

  /** The top-level `url` wins over a `url` inside the block; every other key
      of the block keeps its value, and the block's key order is kept, with
      `url` appended only if the block had none. */
  lemma BlogUrlWins(config: Fields, k: string)
    requires CollectBlogData(config).Success?
    ensures var block := Get(config, "doi_jekyll").value.fields;
      var blog := CollectBlogData(config).value;
      && Get(blog, "url") == Get(config, "url")
      && (k != "url" ==> Get(blog, k) == Get(block, k))
      && Keys(blog) == (if HasKey(block, "url") then Keys(block) else Keys(block) + ["url"])
  {
  }

  /** The DOI resolver. */
  const Resolver: string := "https://doi.org/"

  /** `updateBlogpostMarkdown`: the post's `doi` becomes the DOI's resolver
      address. */
  function WriteBack(post: Fields, doi: string): (r: Fields)
    ensures Get(r, "doi") == Some(Str(Resolver + doi))
  {
    Put(post, "doi", Str(Resolver + doi))
  }

  /** Writing the DOI back changes nothing else: every other key keeps its
      value, the key order is kept (`doi` is appended if it was missing),
      and a post with unique keys keeps them unique. */
  lemma WriteBackKeepsRest(post: Fields, doi: string, k: string)
    ensures k != "doi" ==> Get(WriteBack(post, doi), k) == Get(post, k)
    ensures Keys(WriteBack(post, doi)) == if HasKey(post, "doi") then Keys(post) else Keys(post) + ["doi"]
    ensures UniqueKeys(post) ==> UniqueKeys(WriteBack(post, doi))
  {
  }

  /** A `doi` already present (a forced run) is overwritten in place. */
  lemma WriteBackInPlace(post: Fields, doi: string, i: nat)
    requires UniqueKeys(post) && i < |post| && post[i].0 == "doi"
    ensures |WriteBack(post, doi)| == |post|
    ensures WriteBack(post, doi)[i] == ("doi", Str(Resolver + doi))
    ensures forall j :: 0 <= j < |post| && j != i ==> WriteBack(post, doi)[j] == post[j]
  {
    PutPosition(post, "doi", Str(Resolver + doi), i);
  }
}

=== FILE: text.dfy ===
/** The Python string operations the tool relies on: `str.split()`,
    `str.lower()`, `str.rstrip(c)` and decimal formatting of numbers. */
module Text {

  /** Python's `str.isspace()` for one character: the characters `str.split()`
      with no separator splits on (the ASCII controls TAB to CR and FS to US,
      space, NEL, NBSP, and the Unicode space separators and line and
      paragraph separators). */
  predicate IsSpace(c: char) {
    || '\t' <= c <= '\r' || '\U{1C}' <= c <= ' '
    || c == '\U{85}' || c == '\U{A0}' || c == '\U{1680}'
    || '\U{2000}' <= c <= '\U{200A}'
    || c == '\U{2028}' || c == '\U{2029}' || c == '\U{202F}' || c == '\U{205F}' || c == '\U{3000}'
  }

  /** A word of `str.split()`: non-empty and free of whitespace. */
  predicate IsToken(w: string) {
    w != [] && forall i :: 0 <= i < |w| ==> !IsSpace(w[i])
  }

  /** The longest prefix of `s` that holds no whitespace. */
  function Word(s: string): (w: string)
    ensures w <= s
    ensures forall i :: 0 <= i < |w| ==> !IsSpace(w[i])
    ensures |w| == |s| || IsSpace(s[|w|])
  {
    if s == [] || IsSpace(s[0]) then [] else [s[0]] + Word(s[1..])
  }

  /** Python's `s.split()`: the maximal runs of non-whitespace characters,
      in order, duplicates kept, empty strings never produced. */
  function Split(s: string): (ws: seq<string>)
    ensures forall i :: 0 <= i < |ws| ==> IsToken(ws[i])
    decreases |s|
  {
    if s == [] then []
    else if IsSpace(s[0]) then Split(s[1..])
    else
      var w := Word(s);
      assert w != [];
      [w] + Split(s[|w|..])
  }

  /** Python's `" ".join(ws)`. */
  function JoinSpaced(ws: seq<string>): string {
    if ws == [] then []
    else if |ws| == 1 then ws[0]
    else ws[0] + " " + JoinSpaced(ws[1..])
  }

  /** The characters of `s` that are not whitespace, in order. */
  function NonSpaces(s: string): string {
    if s == [] then []
    else (if IsSpace(s[0]) then [] else [s[0]]) + NonSpaces(s[1..])
  }

  function Concat(ws: seq<string>): string {
    if ws == [] then [] else ws[0] + Concat(ws[1..])
  }

  lemma {:induction false} WordOfToken(w: string, rest: string)
    requires IsToken(w)
    requires rest == [] || IsSpace(rest[0])
    ensures Word(w + rest) == w
    decreases |w|
  {
    if |w| > 1 {
      assert (w + rest)[1..] == w[1..] + rest;
      WordOfToken(w[1..], rest);
    } else {
      assert (w + rest)[1..] == rest;
    }
  }

  lemma {:induction false} SplitSkipsSpace(x: string)
    ensures Split(" " + x) == Split(x)
  {
    assert (" " + x)[1..] == x;
  }

  /** Splitting words joined by single spaces gives back the words: the tags
      line `"a b c"` yields exactly `["a", "b", "c"]`. */
  lemma {:induction false} SplitJoin(ws: seq<string>)
    requires forall i :: 0 <= i < |ws| ==> IsToken(ws[i])
    ensures Split(JoinSpaced(ws)) == ws
  {
    if ws == [] {
    } else if |ws| == 1 {
      var w := ws[0];
      assert w + [] == w;
      WordOfToken(w, []);
      assert w[|w|..] == [];
    } else {
      var w, rest := ws[0], JoinSpaced(ws[1..]);
      var s := w + " " + rest;
      assert s == w + (" " + rest);
      WordOfToken(w, " " + rest);
      assert s[|w|..] == " " + rest;
      SplitSkipsSpace(rest);
      SplitJoin(ws[1..]);
    }
  }

  /** A word stops at the first whitespace character. */
  lemma {:induction false} WordBefore(a: string, rest: string)
    requires rest == [] || IsSpace(rest[0])
    ensures Word(a + rest) == Word(a)
    decreases |a|
  {
    if a == [] {
      assert a + rest == rest;
    } else if !IsSpace(a[0]) {
      assert (a + rest)[1..] == a[1..] + rest;
      WordBefore(a[1..], rest);
    }
  }

  /** Whitespace separates: any whitespace character (a tab, a line break, a
      run of spaces) splits the text around it into independent parts. */
  lemma {:induction false} SplitAtSpace(a: string, c: char, b: string)
    requires IsSpace(c)
    ensures Split(a + [c] + b) == Split(a) + Split(b)
    decreases |a|
  {
    var s := a + [c] + b;
    if a == [] {
      assert s == [c] + b && s[1..] == b;
    } else if IsSpace(a[0]) {
      assert s[0] == a[0] && s[1..] == a[1..] + [c] + b;
      SplitAtSpace(a[1..], c, b);
    } else {
      assert s == a + ([c] + b);
      WordBefore(a, [c] + b);
      var w := Word(a);
      assert s[|w|..] == a[|w|..] + [c] + b;
      SplitAtSpace(a[|w|..], c, b);
    }
  }

  /** A single token splits to itself. */
  lemma SplitOfToken(w: string)
    requires IsToken(w)
    ensures Split(w) == [w]
  {
    assert w + [] == w;
    WordOfToken(w, []);
    assert w[|w|..] == [];
  }

  lemma {:induction false} NonSpacesAppend(a: string, b: string)
    ensures NonSpaces(a + b) == NonSpaces(a) + NonSpaces(b)
    decreases |a|
  {
    if a != [] {
      assert (a + b)[1..] == a[1..] + b;
      NonSpacesAppend(a[1..], b);
    } else {
      assert a + b == b;
    }
  }

  lemma {:induction false} NonSpacesOfWord(w: string)
    requires forall i :: 0 <= i < |w| ==> !IsSpace(w[i])
    ensures NonSpaces(w) == w
    decreases |w|
  {
    if w != [] {
      NonSpacesOfWord(w[1..]);
    }
  }

  /** Splitting loses no character but the whitespace: the words, put back
      together, are the input with its whitespace removed. */
  lemma {:induction false} SplitKeepsText(s: string)
    ensures Concat(Split(s)) == NonSpaces(s)
    decreases |s|
  {
    if s != [] && !IsSpace(s[0]) {
      var w := Word(s);
      var u := s[|w|..];
      assert s == w + u;
      NonSpacesAppend(w, u);
      NonSpacesOfWord(w);
      SplitKeepsText(u);
      ConcatCons(w, Split(u));
    } else if s != [] {
      SplitKeepsText(s[1..]);
    }
  }

  lemma ConcatCons(w: string, ws: seq<string>)
    ensures Concat([w] + ws) == w + Concat(ws)
  {
    assert ([w] + ws)[1..] == ws;
  }

  function LowerChar(c: char): char {
    if 'A' <= c <= 'Z' then (c as int - 'A' as int + 'a' as int) as char else c
  }

  /** `str.lower()` on ASCII letters; every other character is kept. */
  function Lower(s: string): (r: string)
    ensures |r| == |s|
    ensures forall i :: 0 <= i < |s| ==> r[i] == LowerChar(s[i])
  {
    if s == [] then [] else [LowerChar(s[0])] + Lower(s[1..])
  }

  /** `s.rstrip(c)`: the longest prefix of `s` that does not end in `c`,
      all removed characters being `c`. */
  function RStrip(s: string, c: char): (r: string)
    ensures r <= s
    ensures r == [] || r[|r| - 1] != c
    ensures forall i :: |r| <= i < |s| ==> s[i] == c
  {
    if s == [] || s[|s| - 1] != c then s else RStrip(s[..|s| - 1], c)
  }

  predicate IsDigit(c: char) {
    '0' <= c <= '9'
  }

  function DigitChar(d: int): char
    requires 0 <= d < 10
  {
    ('0' as int + d) as char
  }

  /** The number a string of decimal digits denotes. */
  function DigitsValue(s: string): nat
    requires forall i :: 0 <= i < |s| ==> IsDigit(s[i])
  {
    if s == [] then 0
    else
      assert IsDigit(s[|s| - 1]);
      10 * DigitsValue(s[..|s| - 1]) + (s[|s| - 1] as int - '0' as int)
  }

  /** `str(n)`: decimal digits with no leading zero. */
  function Decimal(n: nat): (r: string)
    ensures r != []
    ensures forall i :: 0 <= i < |r| ==> IsDigit(r[i])
    ensures DigitsValue(r) == n
    ensures n > 0 ==> r[0] != '0'
  {
    if n < 10 then [DigitChar(n)]
    else
      var r := Decimal(n / 10) + [DigitChar(n % 10)];
      assert r[..|r| - 1] == Decimal(n / 10);
      assert r[|r| - 1] as int - '0' as int == n % 10;
      assert DigitsValue(r) == 10 * (n / 10) + n % 10;
      r
  }

  /** Four-digit numbers print as four digits. */
  lemma {:induction false} DecimalFourDigits(n: nat)
    requires 1000 <= n <= 9999
    ensures |Decimal(n)| == 4
  {
    var a := n / 10;
    var b := a / 10;
    var c := b / 10;
    assert 100 <= a <= 999 && 10 <= b <= 99 && 1 <= c <= 9;
    assert |Decimal(c)| == 1;
    assert |Decimal(b)| == |Decimal(c)| + 1;
    assert |Decimal(a)| == |Decimal(b)| + 1;
    assert |Decimal(n)| == |Decimal(a)| + 1;
  }

  /** `'%02d' % n` for `0 <= n < 100`: two digits, zero-padded. */
  function Pad2(n: nat): (r: string)
    requires n < 100
    ensures |r| == 2
    ensures forall i :: 0 <= i < |r| ==> IsDigit(r[i])
    ensures DigitsValue(r) == n
  {
    if n < 10 then
      var r := ['0', DigitChar(n)];
      assert r[..1] == ['0'] && ['0'][..0] == [];
      assert DigitsValue(['0']) == 0;
      assert r[1] as int - '0' as int == n;
      r
    else
      var r := Decimal(n);
      assert r == Decimal(n / 10) + [DigitChar(n % 10)];
      r
  }
}

=== FILE: utf8.dfy ===
/** UTF-8 encoding of a string (Python's `str.encode()` with its default
    codec). Dafny characters are Unicode scalar values, so every character
    has an encoding. */
module Utf8 {
  import opened Wrappers
  import opened Bytes

  /** A continuation byte `10xxxxxx`. */
  predicate Tail(b: int) {
    0x80 <= b < 0xC0
  }

  /** The one to four bytes of one character: `0xxxxxxx` below U+0080,
      `110xxxxx 10xxxxxx` below U+0800, `1110xxxx` and two continuation
      bytes below U+10000, `11110xxx` and three above; the `x` bits, read
      most significant first, are the code point. */
  function CharBytes(c: char): (r: seq<byte>)
    ensures 1 <= |r| <= 4
    ensures |r| == 1 <==> c as int < 0x80
    ensures |r| == 2 <==> 0x80 <= c as int < 0x800
    ensures |r| == 3 <==> 0x800 <= c as int < 0x10000
    ensures |r| == 1 ==> r[0] == c as int
    ensures |r| == 2 ==>
      0xC0 <= r[0] < 0xE0 && Tail(r[1]) && (r[0] as int - 0xC0) * 64 + (r[1] as int - 0x80) == c as int
    ensures |r| == 3 ==>
      0xE0 <= r[0] < 0xF0 && Tail(r[1]) && Tail(r[2])
      && (r[0] as int - 0xE0) * 4096 + (r[1] as int - 0x80) * 64 + (r[2] as int - 0x80) == c as int
    ensures |r| == 4 ==>
      0xF0 <= r[0] < 0xF8 && Tail(r[1]) && Tail(r[2]) && Tail(r[3])
      && (r[0] as int - 0xF0) * 262144 + (r[1] as int - 0x80) * 4096 + (r[2] as int - 0x80) * 64 + (r[3] as int - 0x80) == c as int
  {
    var n := c as int;
    if n < 0x80 then [n]
    else if n < 0x800 then
      Groups(n); [0xC0 + n / 64, 0x80 + n % 64]
    else if n < 0x10000 then
      Groups(n); [0xE0 + n / 4096, 0x80 + n / 64 % 64, 0x80 + n % 64]
    else
      Groups(n); [0xF0 + n / 262144, 0x80 + n / 4096 % 64, 0x80 + n / 64 % 64, 0x80 + n % 64]
  }

  /** A code point as its six-bit groups, most significant first. */
  lemma Groups(n: nat)
    ensures n / 64 * 64 + n % 64 == n
    ensures n / 4096 * 64 + n / 64 % 64 == n / 64
    ensures n / 262144 * 64 + n / 4096 % 64 == n / 4096
    ensures n / 4096 == n / 64 / 64 && n / 262144 == n / 4096 / 64
  {
  }

  /** A Unicode scalar value: a code point that is not a surrogate. */
  predicate Scalar(v: int) {
    0 <= v < 0xD800 || 0xE000 <= v < 0x110000
  }

  /** The character a decoded value names, if it names one. */
  function CharOf(v: int): Option<char> {
    if Scalar(v) then Some(v as char) else None
  }

  /** The first character of `b` and the number of bytes it takes, read
      from the lead byte and its continuation bytes. */
  function DecodeChar(b: seq<byte>): (r: Option<(char, nat)>)
    ensures r.Some? ==> 1 <= r.value.1 <= |b| && r.value.1 <= 4
  {
    if b == [] then None
    else if b[0] < 0x80 then Some((b[0] as char, 1))
    else if 0xC0 <= b[0] < 0xE0 && 2 <= |b| && Tail(b[1]) then
      match CharOf((b[0] as int - 0xC0) * 64 + (b[1] as int - 0x80))
      case Some(c) => Some((c, 2))
      case None => None
    else if 0xE0 <= b[0] < 0xF0 && 3 <= |b| && Tail(b[1]) && Tail(b[2]) then
      match CharOf((b[0] as int - 0xE0) * 4096 + (b[1] as int - 0x80) * 64 + (b[2] as int - 0x80))
      case Some(c) => Some((c, 3))
      case None => None
    else if 0xF0 <= b[0] < 0xF8 && 4 <= |b| && Tail(b[1]) && Tail(b[2]) && Tail(b[3]) then
      match CharOf((b[0] as int - 0xF0) * 262144 + (b[1] as int - 0x80) * 4096 + (b[2] as int - 0x80) * 64 + (b[3] as int - 0x80))
      case Some(c) => Some((c, 4))
      case None => None
    else None
  }

  /** `b.decode()`: characters one after another; `None` for bytes that
      are not UTF-8. */
  function Decode(b: seq<byte>): Option<string>
    decreases |b|
  {
    if b == [] then Some([])
    else match DecodeChar(b)
      case None => None
      case Some((c, k)) =>
        match Decode(b[k..])
        case None => None
        case Some(s) => Some([c] + s)
  }

  /** A character's bytes decode back to it, whatever follows them. */
  lemma DecodeCharBytes(c: char, rest: seq<byte>)
    ensures DecodeChar(CharBytes(c) + rest) == Some((c, |CharBytes(c)|))
  {
    var r := CharBytes(c);
    var b := r + rest;
    assert b[..|r|] == r;
    assert Scalar(c as int);
    assert (c as int) as char == c;
  }

  /** Decoding undoes `Encode`, for every string. */
  lemma {:induction false} DecodeEncode(s: string)
    ensures Decode(Encode(s)) == Some(s)
    decreases |s|
  {
    if s != [] {
      var r := CharBytes(s[0]);
      DecodeCharBytes(s[0], Encode(s[1..]));
      assert (r + Encode(s[1..]))[|r|..] == Encode(s[1..]);
      DecodeEncode(s[1..]);
      assert [s[0]] + s[1..] == s;
    }
  }

  /** `s.encode()`: the characters' encodings, in order. */
  function Encode(s: string): (r: seq<byte>)
    ensures |s| <= |r| <= 4 * |s|
  {
    if s == [] then [] else CharBytes(s[0]) + Encode(s[1..])
  }

  lemma {:induction false} EncodeAppend(s: string, t: string)
    ensures Encode(s + t) == Encode(s) + Encode(t)
    decreases |s|
  {
    if s == [] {
      assert s + t == t;
    } else {
      assert (s + t)[1..] == s[1..] + t;
      EncodeAppend(s[1..], t);
    }
  }

  /** The first `n` bytes of an encoding are fixed by the first `n`
      characters, since every character takes at least one byte. */
  lemma EncodePrefix(s: string, n: nat)
    requires n <= |s|
    ensures n <= |Encode(s[..n])|
    ensures Encode(s)[..n] == Encode(s[..n])[..n]
  {
    assert s == s[..n] + s[n..];
    EncodeAppend(s[..n], s[n..]);
  }

  /** An ASCII string encodes to its character codes, one byte each. */
  lemma {:induction false} EncodeAscii(s: string)
    requires forall i :: 0 <= i < |s| ==> s[i] as int < 0x80
    ensures |Encode(s)| == |s|
    ensures forall i :: 0 <= i < |s| ==> Encode(s)[i] == s[i] as int
    decreases |s|
  {
    if s != [] {
      EncodeAscii(s[1..]);
      assert Encode(s) == [s[0] as int] + Encode(s[1..]);
    }
  }

  /** `"ä".encode()` is `b"\xc3\xa4"`. */
  lemma Umlaut()
    ensures Encode("\U{E4}") == [0xC3, 0xA4]
  {
    assert Encode("\U{E4}") == CharBytes('\U{E4}') + Encode([]);
  }
}

=== FILE: workflow.dfy ===
/** `main`: one registration run, from the configuration, the post and the
    author file to the requests sent to DataCite and the rewritten post.
    The run is a pure function: the requests and the rewrite come back as
    a list of effects, and DataCite's answers are inputs. */
module Workflow {
  import opened Wrappers
  import opened Json
  import opened Errors
  import opened Text
  import opened Calendar
  import opened Paths
  import opened Metadata
  import opened Sources
  import opened Registry
  import opened Permalink
  import opened Sharing
  import opened DeepMerge
  import Utf8
  import Doi

  /** The pip-installable package, or the stand-alone script. */
  datatype Release = Package | Script

  /** The command-line switches `--force`, `--dry-run` and `--skip-url`. */
  datatype Flags = Flags(force: bool, dryRun: bool, skipUrl: bool)

  /** What a run does to the outside world. */
  datatype Effect =
    | PutMetadata(endpoint: string, record: Value)
    | PutUrl(endpoint: string, payload: string)
    | RewritePost(file: string, post: Fields)

  /** Everything a run reads: credentials, the parsed configuration and
      front matter, the author files by path, the parsed post date, and the
      caller's extra metadata. */
  datatype Inputs = Inputs(
    user: Option<string>, password: Option<string>, config: Fields,
    post: Fields, postFile: string, authorFile: Option<string>, authorsDir: string,
    authors: map<string, Fields>, date: Option<CivilDate>, additional: Value)

  /** Whether DataCite accepts the metadata and the URL request. */
  datatype Replies = Replies(metadataOk: bool, urlOk: bool)

  /** The effects in order, and the DOI or the reason the run stopped. */
  datatype Outcome = Outcome(effects: seq<Effect>, result: Result<string, Error>)

  /** What is known once the record is assembled. */
  datatype Prepared = Prepared(blog: Fields, post: Fields, doi: string, record: Value)

  /** `parseCredentials`: the user is asked for first. */
  function Credentials(user: Option<string>, password: Option<string>): (r: Result<(string, string), Error>)
    ensures r.Success? <==> user.Some? && password.Some?
    ensures r.Success? ==> r.value == (user.value, password.value)
    ensures user.None? ==> r == Failure(MissingUser)
    ensures user.Some? && password.None? ==> r == Failure(MissingPassword)
  {
    match (user, password)
    case (None, _) => Failure(MissingUser)
    case (Some(_), None) => Failure(MissingPassword)
    case (Some(u), Some(p)) => Success((u, p))
  }

  /** `collectAuthorData(post['author'], args)`: the post must name an
      author even when an explicit author file makes the name unused; the
      file found must exist. */
  function AuthorData(post: Fields, authorFile: Option<string>, authorsDir: string, authors: map<string, Fields>)
    : (r: Result<Fields, Error>)
    ensures r.Success? ==> HasKey(post, "author")
    ensures r.Success? && authorFile.Some? && authorFile.value != [] ==>
      authorFile.value in authors && r.value == authors[authorFile.value]
    ensures r.Success? && (authorFile.None? || authorFile.value == []) ==>
      Get(post, "author").value.Str?
      && AuthorPath(None, authorsDir, Get(post, "author").value.s).Success?
      && AuthorPath(None, authorsDir, Get(post, "author").value.s).value in authors
      && r.value == authors[AuthorPath(None, authorsDir, Get(post, "author").value.s).value]
    ensures HasKey(post, "author") && authorFile.Some? && authorFile.value != [] && authorFile.value in authors ==>
      r == Success(authors[authorFile.value])
    ensures (&& HasKey(post, "author") && (authorFile.None? || authorFile.value == [])
             && Get(post, "author").value.Str?
             && AuthorPath(None, authorsDir, Get(post, "author").value.s).Success?
             && AuthorPath(None, authorsDir, Get(post, "author").value.s).value in authors) ==>
      r == Success(authors[AuthorPath(None, authorsDir, Get(post, "author").value.s).value])
  {
    var name :- Required(post, "author");
    var path :- if authorFile.Some? && authorFile.value != [] then Success(authorFile.value)
                else if name.Str? then AuthorPath(authorFile, authorsDir, name.s)
                else Failure(NotText("author"));
    if path in authors then Success(authors[path]) else Failure(AuthorFileMissing(path))
  }

  /** `genDoi(post['title'], blog['suffix_base'], blog['prefix'])`: the three
      values are looked up before the title is encoded. */
  function NewDoi(blog: Fields, post: Fields): (r: Result<string, Error>)
    ensures r.Success? <==>
      HasKey(post, "title") && HasKey(blog, "suffix_base") && HasKey(blog, "prefix")
      && Get(post, "title").value.Str? && Get(blog, "suffix_base").value.Str? && Get(blog, "prefix").value.Str?
    ensures r.Success? ==>
      r.value == Doi.GenDoi(Utf8.Encode(Get(post, "title").value.s), Get(blog, "suffix_base").value.s,
                            Get(blog, "prefix").value.s)
    ensures !HasKey(post, "title") ==> r == Failure(MissingKey("title"))
  {
    var title :- Required(post, "title");
    var base :- Required(blog, "suffix_base");
    var prefix :- Required(blog, "prefix");
    if !title.Str? then Failure(NotText("title"))
    else if !base.Str? then Failure(NotText("suffix_base"))
    else if !prefix.Str? then Failure(NotText("prefix"))
    else Success(Doi.GenDoi(Utf8.Encode(title.s), base.s, prefix.s))
  }

  /** The record each release builds. */
  function Record(release: Release, blog: Fields, post: Fields, author: Fields, date: Option<CivilDate>,
                  additional: Value): Result<Value, Error>
  {
    match release
    case Package => Assemble(blog, post, author, date, additional)
    case Script => ScriptAssemble(blog, post, author, date)
  }

  /** The permalink each release computes. */
  function Link(release: Release, blog: Fields, post: Fields, file: string, date: Option<CivilDate>)
    : Result<string, Error>
  {
    match release
    case Package => PackagePermalink(blog, post, file, date)
    case Script => ScriptPermalink(blog, post, file, date)
  }

  /** The blog data and the author's front matter, after the credentials
      are checked. */
  function Collect(inputs: Inputs): (r: Result<(Fields, Fields), Error>)
    ensures r.Success? ==> Credentials(inputs.user, inputs.password).Success?
    ensures r.Success? ==> CollectBlogData(inputs.config) == Success(r.value.0)
    ensures r.Success? ==>
      AuthorData(inputs.post, inputs.authorFile, inputs.authorsDir, inputs.authors) == Success(r.value.1)
    ensures (&& Credentials(inputs.user, inputs.password).Success?
             && CollectBlogData(inputs.config).Success?
             && AuthorData(inputs.post, inputs.authorFile, inputs.authorsDir, inputs.authors).Success?) ==>
      r.Success?
  {
    var _ :- Credentials(inputs.user, inputs.password);
    var blog :- CollectBlogData(inputs.config);
    var author :- AuthorData(inputs.post, inputs.authorFile, inputs.authorsDir, inputs.authors);
    Success((blog, author))
  }

  /** The post a run holds once the record is built: the package's
      overrides reach into the post's shared `version` and `abstract`
      mappings; the script merges nothing. */
  function PostAfter(release: Release, post: Fields, additional: Value): (r: Fields)
    ensures Keys(r) == Keys(post)
    ensures forall k :: k != "version" && k != "abstract" ==> Get(r, k) == Get(post, k)
    ensures UniqueKeys(post) ==> UniqueKeys(r)
    ensures release.Script? ==> r == post
  {
    match release
    case Package => PostAfterAssembly(post, additional)
    case Script => post
  }

  /** The post with its new DOI, the record built from it, and the post
      as the building left it. */
  function Build(release: Release, blog: Fields, author: Fields, inputs: Inputs, doi: string)
    : (r: Result<Prepared, Error>)
    ensures r.Success? <==>
      Record(release, blog, Put(inputs.post, "doi", Str(doi)), author, inputs.date, inputs.additional).Success?
    ensures r.Success? ==> r.value.blog == blog && r.value.doi == doi
    ensures r.Success? ==> r.value.post == PostAfter(release, Put(inputs.post, "doi", Str(doi)), inputs.additional)
    ensures r.Success? ==> Get(r.value.post, "doi") == Some(Str(doi))
    ensures r.Success? ==>
      Record(release, blog, Put(inputs.post, "doi", Str(doi)), author, inputs.date, inputs.additional)
        == Success(r.value.record)
  {
    var post := Put(inputs.post, "doi", Str(doi));
    var record :- Record(release, blog, post, author, inputs.date, inputs.additional);
    AfterKeepsDoi(release, inputs.post, inputs.additional, doi);
    Success(Prepared(blog, PostAfter(release, post, inputs.additional), doi, record))
  }

  lemma AfterKeepsDoi(release: Release, post: Fields, additional: Value, doi: string)
    ensures Get(PostAfter(release, Put(post, "doi", Str(doi)), additional), "doi") == Some(Str(doi))
  {
    var q := Put(post, "doi", Str(doi));
    assert Get(q, "doi") == Some(Str(doi));
    assert Get(PostAfter(release, q, additional), "doi") == Get(q, "doi");
  }

  /** Everything before the first request: credentials, blog data, author,
      the guard against registering a post twice, the new DOI stored in the
      post, and the record. */
  function Prepare(release: Release, force: bool, inputs: Inputs): (r: Result<Prepared, Error>)
    ensures HasKey(inputs.post, "doi") && !force ==> r.Failure?
    ensures r.Success? ==> Get(r.value.post, "doi") == Some(Str(r.value.doi))
    ensures r.Success? ==> NewDoi(r.value.blog, inputs.post) == Success(r.value.doi)
    ensures r.Success? ==>
      Collect(inputs).Success?
      && r == Build(release, Collect(inputs).value.0, Collect(inputs).value.1, inputs, r.value.doi)
    ensures (&& Collect(inputs).Success? && (!HasKey(inputs.post, "doi") || force)
             && NewDoi(Collect(inputs).value.0, inputs.post).Success?
             && Build(release, Collect(inputs).value.0, Collect(inputs).value.1, inputs,
                      NewDoi(Collect(inputs).value.0, inputs.post).value).Success?) ==>
      r.Success?
  {
    var ba :- Collect(inputs);
    if HasKey(inputs.post, "doi") && !force then Failure(AlreadyRegistered)
    else
      var doi :- NewDoi(ba.0, inputs.post);
      Build(release, ba.0, ba.1, inputs, doi)
  }

  /** The order every run keeps: at most three effects, the metadata
      first; no URL request under `--skip-url`; the post is rewritten only
      as the last step of a successful run, and every successful real run
      ends with it, writing the DOI's resolver address into the post. */
  predicate Orderly(o: Outcome, flags: Flags, file: string) {
    && |o.effects| <= 3
    && (o.effects != [] ==> o.effects[0].PutMetadata?)
    && (flags.skipUrl ==> forall i :: 0 <= i < |o.effects| ==> !o.effects[i].PutUrl?)
    && (forall i :: 0 <= i < |o.effects| && o.effects[i].RewritePost? ==>
          i == |o.effects| - 1 && o.result.Success?)
    && (o.result.Success? && !flags.dryRun ==>
          |o.effects| >= 2 && o.effects[|o.effects| - 1].RewritePost?
          && o.effects[|o.effects| - 1].file == file
          && Get(o.effects[|o.effects| - 1].post, "doi") == Some(Str(Resolver + o.result.value)))
  }

  /** The requests and the rewrite, each one only if the previous succeeded;
      the requests go to the blog's `provider_url`. */
  function Register(release: Release, flags: Flags, inputs: Inputs, replies: Replies, p: Prepared): (r: Outcome)
    ensures flags.dryRun ==> r == Outcome([], Success(p.doi))
    ensures r.result.Success? ==> r.result.value == p.doi
  {
    if flags.dryRun then Outcome([], Success(p.doi))
    else match RequiredText(p.blog, "provider_url")
      case Failure(e) => Outcome([], Failure(e))
      case Success(provider) => Send(release, flags, inputs, replies, p, provider)
  }

  /** Every registration keeps the order, and a successful real one ends by
      writing back the post with the new DOI. */
  lemma RegisterOrderly(release: Release, flags: Flags, inputs: Inputs, replies: Replies, p: Prepared)
    ensures Orderly(Register(release, flags, inputs, replies, p), flags, inputs.postFile)
    ensures var r := Register(release, flags, inputs, replies, p);
      r.result.Success? && !flags.dryRun ==>
        r.effects != [] && r.effects[|r.effects| - 1] == RewritePost(inputs.postFile, WriteBack(p.post, p.doi))
  {
    if !flags.dryRun && RequiredText(p.blog, "provider_url").Success? {
      var provider := RequiredText(p.blog, "provider_url").value;
      RegisterSends(release, flags, inputs, replies, p);
      SendOrderly(release, flags, inputs, replies, p, provider);
    }
  }

  lemma RegisterEndsWithRewrite(release: Release, flags: Flags, inputs: Inputs, replies: Replies, p: Prepared)
    requires !flags.dryRun && Register(release, flags, inputs, replies, p).result.Success?
    ensures var r := Register(release, flags, inputs, replies, p);
      r.effects != [] && r.effects[|r.effects| - 1] == RewritePost(inputs.postFile, WriteBack(p.post, p.doi))
  {
    RegisterOrderly(release, flags, inputs, replies, p);
  }

  /** Each branch of a real run keeps the order. */
  lemma SendOrderly(release: Release, flags: Flags, inputs: Inputs, replies: Replies, p: Prepared, provider: string)
    requires !flags.dryRun
    ensures Orderly(Send(release, flags, inputs, replies, p, provider), flags, inputs.postFile)
    ensures var r := Send(release, flags, inputs, replies, p, provider);
      r.result.Success? ==> r.effects[|r.effects| - 1] == RewritePost(inputs.postFile, WriteBack(p.post, p.doi))
  {
    var m := PutMetadata(MetadataEndpoint(provider, p.doi), p.record);
    var w := RewritePost(inputs.postFile, WriteBack(p.post, p.doi));
    if !replies.metadataOk {
      StoppedInOrder([m], MetadataRejected, flags, inputs.postFile);
    } else if flags.skipUrl {
      SkippedUrlInOrder(m, w, p.doi, flags, inputs.postFile);
    } else {
      match UrlRequest(release, inputs, p, provider)
      case Failure(e) =>
        StoppedInOrder([m], e, flags, inputs.postFile);
      case Success(u) =>
        if !replies.urlOk {
          StoppedInOrder([m, u], UrlRejected, flags, inputs.postFile);
        } else {
          CompletedInOrder(m, u, w, p.doi, flags, inputs.postFile);
        }
    }
  }

  /** A run that stops after one or two requests keeps the order. */
  lemma StoppedInOrder(es: seq<Effect>, e: Error, flags: Flags, file: string)
    requires 1 <= |es| <= 2 && es[0].PutMetadata? && !es[|es| - 1].RewritePost?
    requires flags.skipUrl ==> |es| == 1
    ensures Orderly(Outcome(es, Failure(e)), flags, file)
  {
  }

  /** A run that completes all three steps keeps the order. */
  lemma CompletedInOrder(m: Effect, u: Effect, w: Effect, doi: string, flags: Flags, file: string)
    requires m.PutMetadata? && u.PutUrl? && !flags.skipUrl
    requires w.RewritePost? && w.file == file && Get(w.post, "doi") == Some(Str(Resolver + doi))
    ensures Orderly(Outcome([m, u, w], Success(doi)), flags, file)
  {
    var es := [m, u, w];
    assert es[0] == m && es[1] == u && es[2] == w;
    forall i | 0 <= i < |es| && es[i].RewritePost? ensures i == 2 {
      assert i == 0 || i == 1 || i == 2;
    }
  }

  /** A run that skips the URL request keeps the order. */
  lemma SkippedUrlInOrder(m: Effect, w: Effect, doi: string, flags: Flags, file: string)
    requires m.PutMetadata?
    requires w.RewritePost? && w.file == file && Get(w.post, "doi") == Some(Str(Resolver + doi))
    ensures Orderly(Outcome([m, w], Success(doi)), flags, file)
  {
    var es := [m, w];
    assert es[0] == m && es[1] == w;
    forall i | 0 <= i < |es| ensures !es[i].PutUrl? && (es[i].RewritePost? ==> i == 1) {
      assert i == 0 || i == 1;
    }
  }

  /** The requests of a real run, to the provider's address. */
  function Send(release: Release, flags: Flags, inputs: Inputs, replies: Replies, p: Prepared, provider: string)
    : (r: Outcome)
    requires !flags.dryRun
    ensures r.result.Success? ==> r.result.value == p.doi
    ensures 1 <= |r.effects| <= 3
    ensures forall i :: 0 <= i < |r.effects| && r.effects[i].RewritePost? ==> i == |r.effects| - 1 && r.result.Success?
    ensures flags.skipUrl ==> forall i :: 0 <= i < |r.effects| ==> !r.effects[i].PutUrl?
    ensures r.result.Success? ==> |r.effects| >= 2
    ensures r.effects[0] == PutMetadata(MetadataEndpoint(provider, p.doi), p.record)
    ensures r.result.Success? ==>
      r.effects[|r.effects| - 1] == RewritePost(inputs.postFile, WriteBack(p.post, p.doi))
    ensures !replies.metadataOk ==>
      r == Outcome([PutMetadata(MetadataEndpoint(provider, p.doi), p.record)], Failure(MetadataRejected))
    ensures forall i :: 0 <= i < |r.effects| && r.effects[i].PutUrl? ==> replies.metadataOk
  {
    var metadata := PutMetadata(MetadataEndpoint(provider, p.doi), p.record);
    var rewrite := RewritePost(inputs.postFile, WriteBack(p.post, p.doi));
    if !replies.metadataOk then Outcome([metadata], Failure(MetadataRejected))
    else if flags.skipUrl then Outcome([metadata, rewrite], Success(p.doi))
    else match UrlRequest(release, inputs, p, provider)
      case Failure(e) => Outcome([metadata], Failure(e))
      case Success(url) =>
        if !replies.urlOk then Outcome([metadata, url], Failure(UrlRejected))
        else Outcome([metadata, url, rewrite], Success(p.doi))
  }

  /** `registerUrl`'s request: the permalink is computed first, and a
      failure there means no request. */
  function UrlRequest(release: Release, inputs: Inputs, p: Prepared, provider: string): (r: Result<Effect, Error>)
    ensures r.Success? <==> Link(release, p.blog, p.post, inputs.postFile, inputs.date).Success?
    ensures r.Success? ==> r.value.PutUrl? && r.value.endpoint == UrlEndpoint(provider, p.doi)
    ensures r.Success? ==>
      r.value.payload == UrlPayload(p.doi, Link(release, p.blog, p.post, inputs.postFile, inputs.date).value)
  {
    var link :- Link(release, p.blog, p.post, inputs.postFile, inputs.date);
    Success(PutUrl(UrlEndpoint(provider, p.doi), UrlPayload(p.doi, link)))
  }

  /** A whole run. */
  function Run(release: Release, flags: Flags, inputs: Inputs, replies: Replies): (r: Outcome)
    ensures flags.dryRun ==> r.effects == []
    ensures HasKey(inputs.post, "doi") && !flags.force ==> r.effects == [] && r.result.Failure?
  {
    match Prepare(release, flags.force, inputs)
    case Failure(e) => Outcome([], Failure(e))
    case Success(p) => Register(release, flags, inputs, replies, p)
  }

  /** Every run keeps the order. */
  lemma RunOrderly(release: Release, flags: Flags, inputs: Inputs, replies: Replies)
    ensures Orderly(Run(release, flags, inputs, replies), flags, inputs.postFile)
  {
    match Prepare(release, flags.force, inputs)
    case Failure(_) =>
    case Success(p) => RegisterOrderly(release, flags, inputs, replies, p);
  }

  /** A run whose stages all succeed and whose requests are both accepted
      completes all three steps. */
  lemma RunCompletes(release: Release, force: bool, inputs: Inputs, replies: Replies)
    requires Prepare(release, force, inputs).Success? && replies.metadataOk && replies.urlOk
    requires RequiredText(Prepare(release, force, inputs).value.blog, "provider_url").Success?
    requires var p := Prepare(release, force, inputs).value;
      Link(release, p.blog, p.post, inputs.postFile, inputs.date).Success?
    ensures var r := Run(release, Flags(force, false, false), inputs, replies);
      r.result == Success(Prepare(release, force, inputs).value.doi) && |r.effects| == 3
  {
    var p := Prepare(release, force, inputs).value;
    FullRegistration(release, force, inputs, replies, p);
  }

  /** `main` as written. The package calls `assembleMetadata` without its
      `additional_metadata` argument, a `TypeError` right after the DOI is
      generated, before any request, dry runs included. Both releases test
      the undefined `debug.ok` after the metadata PUT, a `NameError` that
      ends every real run there; the script's dry run never reaches it. So
      no run as written registers a URL or rewrites the post, and only a
      dry run of the script succeeds. */
  function RunAsWritten(release: Release, flags: Flags, inputs: Inputs, replies: Replies): (r: Outcome)
    ensures |r.effects| <= 1
    ensures forall i :: 0 <= i < |r.effects| ==> !r.effects[i].PutUrl? && !r.effects[i].RewritePost?
    ensures release.Package? ==> r.effects == [] && r.result.Failure?
    ensures r.result.Success? ==> release.Script? && flags.dryRun
  {
    if release.Package? then PackageAsWritten(flags.force, inputs)
    else DebugAsWritten(Release.Script, flags, inputs, replies)
  }

  /** The package's `main` as written: it stops at the call of
      `assembleMetadata`, if not before. */
  function PackageAsWritten(force: bool, inputs: Inputs): (r: Outcome)
    ensures r.effects == [] && r.result.Failure?
  {
    match Collect(inputs)
    case Failure(e) => Outcome([], Failure(e))
    case Success(ba) =>
      if HasKey(inputs.post, "doi") && !force then Outcome([], Failure(AlreadyRegistered))
      else match NewDoi(ba.0, inputs.post)
        case Failure(e) => Outcome([], Failure(e))
        case Success(_) => Outcome([], Failure(MissingArgument("additional_metadata")))
  }

  /** `main` with only the `debug.ok` defect, which is the script as
      written (the package's call of `assembleMetadata` fails before): a
      dry run is the intended one; a real run stops at `debug.ok`, right
      after the metadata PUT. */
  function DebugAsWritten(release: Release, flags: Flags, inputs: Inputs, replies: Replies): (r: Outcome)
    ensures flags.dryRun ==> r.effects == []
    ensures !flags.dryRun ==> |r.effects| <= 1 && r.result.Failure?
    ensures forall i :: 0 <= i < |r.effects| ==> r.effects[i].PutMetadata?
  {
    if flags.dryRun then Run(release, flags, inputs, replies)
    else match Prepare(release, flags.force, inputs)
      case Failure(e) => Outcome([], Failure(e))
      case Success(p) => StopAtDebug(p)
  }

  /** The metadata PUT, if the blog names a provider, and then the
      `NameError`. */
  function StopAtDebug(p: Prepared): (r: Outcome)
    ensures |r.effects| <= 1 && r.result.Failure?
    ensures forall i :: 0 <= i < |r.effects| ==> r.effects[i].PutMetadata?
  {
    match RequiredText(p.blog, "provider_url")
    case Failure(e) => Outcome([], Failure(e))
    case Success(provider) =>
      Outcome([PutMetadata(MetadataEndpoint(provider, p.doi), p.record)], Failure(UndefinedName("debug")))
  }

  /** Where the intended package run gets past the DOI, the run as written
      stops with the `TypeError`. */
  lemma PackageAsWrittenFails(flags: Flags, inputs: Inputs, replies: Replies)
    requires Prepare(Package, flags.force, inputs).Success?
    ensures RunAsWritten(Package, flags, inputs, replies) == Outcome([], Failure(MissingArgument("additional_metadata")))
  {
  }

  /** Where a real intended run succeeds, the run with the `debug.ok`
      defect sends the same metadata request first and then stops with the
      `NameError`. */
  lemma DebugAsWrittenFails(release: Release, flags: Flags, inputs: Inputs, replies: Replies)
    requires !flags.dryRun && Run(release, flags, inputs, replies).result.Success?
    ensures var intended := Run(release, flags, inputs, replies);
      && |intended.effects| >= 2
      && DebugAsWritten(release, flags, inputs, replies) == Outcome([intended.effects[0]], Failure(UndefinedName("debug")))
  {
    var p := Prepare(release, flags.force, inputs).value;
    RegisterOrderly(release, flags, inputs, replies, p);
    RegisterSends(release, flags, inputs, replies, p);
  }

  /** The same for the script as written. */
  lemma ScriptAsWrittenFails(flags: Flags, inputs: Inputs, replies: Replies)
    requires !flags.dryRun && Run(Release.Script, flags, inputs, replies).result.Success?
    ensures var intended := Run(Release.Script, flags, inputs, replies);
      && |intended.effects| >= 2
      && RunAsWritten(Release.Script, flags, inputs, replies) == Outcome([intended.effects[0]], Failure(UndefinedName("debug")))
  {
    DebugAsWrittenFails(Release.Script, flags, inputs, replies);
  }

  /** The effects of a run without the URL request. */
  function WithoutUrl(effects: seq<Effect>): (r: seq<Effect>)
    ensures |r| <= |effects|
    ensures forall i :: 0 <= i < |r| ==> !r[i].PutUrl? && r[i] in effects
    ensures forall e :: e in effects && !e.PutUrl? ==> e in r
  {
    if effects == [] then []
    else (if effects[0].PutUrl? then [] else [effects[0]]) + WithoutUrl(effects[1..])
  }

  /** A successful full run: the metadata, then the URL under the same DOI
      pointing at the permalink, then the post rewritten with the DOI. */
  lemma FullRegistration(release: Release, force: bool, inputs: Inputs, replies: Replies, p: Prepared)
    requires replies.metadataOk && replies.urlOk
    requires RequiredText(p.blog, "provider_url").Success?
    requires Link(release, p.blog, p.post, inputs.postFile, inputs.date).Success?
    ensures var provider := RequiredText(p.blog, "provider_url").value;
      var link := Link(release, p.blog, p.post, inputs.postFile, inputs.date).value;
      Register(release, Flags(force, false, false), inputs, replies, p)
        == Outcome([PutMetadata(MetadataEndpoint(provider, p.doi), p.record),
                    PutUrl(UrlEndpoint(provider, p.doi), UrlPayload(p.doi, link)),
                    RewritePost(inputs.postFile, WriteBack(p.post, p.doi))], Success(p.doi))
  {
  }

  /** `--skip-url` drops the URL request and nothing else, for any run whose
      full version succeeds. */
  lemma SkipUrlDropsOnlyUrl(release: Release, force: bool, inputs: Inputs, replies: Replies)
    requires Run(release, Flags(force, false, false), inputs, replies).result.Success?
    ensures Run(release, Flags(force, false, true), inputs, replies).effects
      == WithoutUrl(Run(release, Flags(force, false, false), inputs, replies).effects)
    ensures Run(release, Flags(force, false, true), inputs, replies).result
      == Run(release, Flags(force, false, false), inputs, replies).result
  {
    var p := Prepare(release, force, inputs).value;
    SkipUrlStep(release, force, inputs, replies, p);
  }

  lemma {:induction false} SkipUrlStep(release: Release, force: bool, inputs: Inputs, replies: Replies, p: Prepared)
    requires Register(release, Flags(force, false, false), inputs, replies, p).result.Success?
    ensures Register(release, Flags(force, false, true), inputs, replies, p).effects
      == WithoutUrl(Register(release, Flags(force, false, false), inputs, replies, p).effects)
    ensures Register(release, Flags(force, false, true), inputs, replies, p).result
      == Register(release, Flags(force, false, false), inputs, replies, p).result
  {
    RegisterSucceeded(release, force, inputs, replies, p);
    FullRegistration(release, force, inputs, replies, p);
    SkipRegistration(release, force, inputs, replies, p);
    var provider := RequiredText(p.blog, "provider_url").value;
    var link := Link(release, p.blog, p.post, inputs.postFile, inputs.date).value;
    var metadata := PutMetadata(MetadataEndpoint(provider, p.doi), p.record);
    var url := PutUrl(UrlEndpoint(provider, p.doi), UrlPayload(p.doi, link));
    var rewrite := RewritePost(inputs.postFile, WriteBack(p.post, p.doi));
    WithoutTheUrl(metadata, url, rewrite);
  }

  lemma WithoutTheUrl(a: Effect, u: Effect, b: Effect)
    requires !a.PutUrl? && u.PutUrl? && !b.PutUrl?
    ensures WithoutUrl([a, u, b]) == [a, b]
  {
    var full := [a, u, b];
    assert full[1..] == [u, b] && full[2..] == [b] && full[3..] == [];
    assert WithoutUrl([b]) == [b];
    assert WithoutUrl([u, b]) == [b];
  }

  /** What a successful full run needed: a provider address, both replies
      positive, and a permalink. */
  lemma RegisterSucceeded(release: Release, force: bool, inputs: Inputs, replies: Replies, p: Prepared)
    requires Register(release, Flags(force, false, false), inputs, replies, p).result.Success?
    ensures RequiredText(p.blog, "provider_url").Success? && replies.metadataOk && replies.urlOk
    ensures Link(release, p.blog, p.post, inputs.postFile, inputs.date).Success?
  {
  }

  /** With `--skip-url`, an accepted metadata record is followed by the
      rewrite alone. */
  lemma SkipRegistration(release: Release, force: bool, inputs: Inputs, replies: Replies, p: Prepared)
    requires replies.metadataOk
    requires RequiredText(p.blog, "provider_url").Success?
    ensures var provider := RequiredText(p.blog, "provider_url").value;
      Register(release, Flags(force, false, true), inputs, replies, p)
        == Outcome([PutMetadata(MetadataEndpoint(provider, p.doi), p.record),
                    RewritePost(inputs.postFile, WriteBack(p.post, p.doi))], Success(p.doi))
  {
  }

  /** A dry run sends nothing and rewrites nothing, and reports the DOI a
      real run would register. */
  lemma DryRunPreviews(release: Release, force: bool, skipUrl: bool, inputs: Inputs, replies: Replies)
    requires Run(release, Flags(force, false, skipUrl), inputs, replies).result.Success?
    ensures Run(release, Flags(force, true, skipUrl), inputs, replies)
      == Outcome([], Run(release, Flags(force, false, skipUrl), inputs, replies).result)
  {
  }

  /** The stages of a successful preparation, each one's result handed to
      the next. */
  lemma PrepareSteps(release: Release, force: bool, inputs: Inputs)
    requires Prepare(release, force, inputs).Success?
    ensures Collect(inputs).Success?
    ensures var p := Prepare(release, force, inputs).value;
      var author := Collect(inputs).value.1;
      && p.blog == Collect(inputs).value.0
      && p.post == PostAfter(release, Put(inputs.post, "doi", Str(p.doi)), inputs.additional)
      && Record(release, p.blog, Put(inputs.post, "doi", Str(p.doi)), author, inputs.date, inputs.additional)
         == Success(p.record)
  {
  }

  /** The record sent names the DOI it is registered under, unless an
      override rewrites the identifier. */
  lemma RecordNamesTheDoi(release: Release, force: bool, inputs: Inputs)
    requires Prepare(release, force, inputs).Success?
    requires release.Package? ==>
      (inputs.additional.Obj? ==> UniqueKeys(inputs.additional.fields) && !HasKey(inputs.additional.fields, "identifier"))
      && (PostOverride(inputs.post).Obj? ==>
            UniqueKeys(PostOverride(inputs.post).fields) && !HasKey(PostOverride(inputs.post).fields, "identifier"))
    ensures var p := Prepare(release, force, inputs).value;
      Get(ResourceOf(p.record), "identifier") == Some(Obj([("@identifierType", Str("DOI")), ("#text", Str(p.doi))]))
  {
    PrepareSteps(release, force, inputs);
    var p := Prepare(release, force, inputs).value;
    var author := Collect(inputs).value.1;
    OverrideAfterDoi(inputs.post, p.doi);
    RecordIdentifier(release, p.blog, Put(inputs.post, "doi", Str(p.doi)), author, inputs.date, inputs.additional, p.doi);
  }

  /** Setting the post's `doi` leaves its own override as it was. */
  lemma OverrideAfterDoi(post: Fields, doi: string)
    ensures PostOverride(Put(post, "doi", Str(doi))) == PostOverride(post)
  {
    assert Get(Put(post, "doi", Str(doi)), "doi-additional-metadata") == Get(post, "doi-additional-metadata");
  }

  lemma RecordIdentifier(release: Release, blog: Fields, post: Fields, author: Fields, date: Option<CivilDate>,
                         additional: Value, doi: string)
    requires Record(release, blog, post, author, date, additional).Success?
    requires Get(post, "doi") == Some(Str(doi))
    requires release.Package? ==>
      (additional.Obj? ==> UniqueKeys(additional.fields) && !HasKey(additional.fields, "identifier"))
      && (PostOverride(post).Obj? ==>
            UniqueKeys(PostOverride(post).fields) && !HasKey(PostOverride(post).fields, "identifier"))
    ensures Get(ResourceOf(Record(release, blog, post, author, date, additional).value), "identifier")
      == Some(Obj([("@identifierType", Str("DOI")), ("#text", Str(doi))]))
  {
    match release
    case Package =>
      AssembleSteps(blog, post, author, date, additional);
      OverrideUntouched(Sections(blog, post, author, date, true).value, additional, PostOverride(post), "identifier");
      IdentifierVerbatim(blog, post, author, date, true);
    case Script =>
      IdentifierVerbatim(blog, post, author, date, false);
  }

  /** The script registers the metadata before it finds that the post's
      file name has no date prefix; it then stops without the URL and
      without rewriting the post, where the package goes on to both. */
  lemma ScriptStopsAfterMetadata(force: bool, inputs: Inputs, replies: Replies, p: Prepared)
    requires replies.metadataOk && replies.urlOk
    requires RequiredText(p.blog, "provider_url").Success?
    requires HasKey(p.blog, "url") && Get(p.blog, "url").value.Str? && HasKey(p.post, "date") && inputs.date.Some?
    requires forall k :: 0 <= k <= |Stem(Name(inputs.postFile))| ==> PrefixAt(Stem(Name(inputs.postFile)), k).None?
    ensures var r := Register(Script, Flags(force, false, false), inputs, replies, p);
      |r.effects| == 1 && r.effects[0].PutMetadata?
      && r.result == Failure(NoDatePrefix(Stem(Name(inputs.postFile))))
    ensures var r := Register(Package, Flags(force, false, false), inputs, replies, p);
      |r.effects| == 3 && r.result == Success(p.doi)
  {
    ScriptNeedsDatePrefix(p.blog, p.post, inputs.postFile, inputs.date);
    assert Link(Script, p.blog, p.post, inputs.postFile, inputs.date)
      == Failure(NoDatePrefix(Stem(Name(inputs.postFile))));
    ScriptStops(force, inputs, replies, p);
    assert Link(Package, p.blog, p.post, inputs.postFile, inputs.date).Success?;
    FullRegistration(Package, force, inputs, replies, p);
  }

  lemma ScriptStops(force: bool, inputs: Inputs, replies: Replies, p: Prepared)
    requires replies.metadataOk
    requires RequiredText(p.blog, "provider_url").Success?
    requires Link(Script, p.blog, p.post, inputs.postFile, inputs.date).Failure?
    ensures var r := Register(Script, Flags(force, false, false), inputs, replies, p);
      |r.effects| == 1 && r.effects[0].PutMetadata?
      && r.result == Failure(Link(Script, p.blog, p.post, inputs.postFile, inputs.date).error)
  {
    var flags := Flags(force, false, false);
    var provider := RequiredText(p.blog, "provider_url").value;
    RegisterSends(Script, flags, inputs, replies, p);
    UrlRequestFails(Script, inputs, p, provider);
    SendUrlFails(Script, flags, inputs, replies, p, provider);
  }

  lemma RegisterSends(release: Release, flags: Flags, inputs: Inputs, replies: Replies, p: Prepared)
    requires !flags.dryRun && RequiredText(p.blog, "provider_url").Success?
    ensures Register(release, flags, inputs, replies, p)
      == Send(release, flags, inputs, replies, p, RequiredText(p.blog, "provider_url").value)
  {
  }

  lemma UrlRequestFails(release: Release, inputs: Inputs, p: Prepared, provider: string)
    requires Link(release, p.blog, p.post, inputs.postFile, inputs.date).Failure?
    ensures UrlRequest(release, inputs, p, provider)
      == Failure(Link(release, p.blog, p.post, inputs.postFile, inputs.date).error)
  {
  }

  lemma SendUrlFails(release: Release, flags: Flags, inputs: Inputs, replies: Replies, p: Prepared, provider: string)
    requires !flags.dryRun && !flags.skipUrl && replies.metadataOk
    requires UrlRequest(release, inputs, p, provider).Failure?
    ensures Send(release, flags, inputs, replies, p, provider)
      == Outcome([PutMetadata(MetadataEndpoint(provider, p.doi), p.record)],
                 Failure(UrlRequest(release, inputs, p, provider).error))
  {
  }

  /** The front matter a run writes back, if it ends by rewriting the post. */
  function Written(o: Outcome): (r: Option<Fields>)
    ensures r.Some? <==> o.effects != [] && o.effects[|o.effects| - 1].RewritePost?
  {
    if o.effects != [] && o.effects[|o.effects| - 1].RewritePost? then Some(o.effects[|o.effects| - 1].post)
    else None
  }

  /** A successful real run writes back the post it read, with `doi` set
      to the resolver address of the new DOI; the package's post also
      carries what the overrides merged into its shared mappings. */
  lemma RunWritesBack(release: Release, flags: Flags, inputs: Inputs, replies: Replies)
    requires !flags.dryRun
    requires Run(release, flags, inputs, replies).result.Success?
    ensures var r := Run(release, flags, inputs, replies);
      Written(r) == Some(WriteBack(PostAfter(release, Put(inputs.post, "doi", Str(r.result.value)), inputs.additional),
                                   r.result.value))
  {
    PrepareSteps(release, flags.force, inputs);
    var p := Prepare(release, flags.force, inputs).value;
    var r := Run(release, flags, inputs, replies);
    assert r == Register(release, flags, inputs, replies, p);
    RegisterWritesBack(release, flags, inputs, replies, p);
    assert r.result.value == p.doi;
  }

  /** A package run on a post whose `version` is a mapping, and whose own
      override names a mapping `version`, writes back the two merged: the
      override went into the very mapping the post holds. */
  lemma WrittenVersionMerged(flags: Flags, inputs: Inputs, replies: Replies, v: Fields, s: Fields)
    requires !flags.dryRun
    requires Run(Package, flags, inputs, replies).result.Success?
    requires Get(inputs.post, "version") == Some(Obj(v)) && !inputs.additional.Obj?
    requires PostOverride(inputs.post).Obj? && Get(PostOverride(inputs.post).fields, "version") == Some(Obj(s))
    ensures var r := Run(Package, flags, inputs, replies);
      Written(r).Some? && Get(Written(r).value, "version") == Some(Obj(Merge(v, s)))
  {
    var r := Run(Package, flags, inputs, replies);
    RunWritesBack(Package, flags, inputs, replies);
    VersionWrittenBack(inputs.post, inputs.additional, r.result.value, v, s);
  }

  lemma VersionWrittenBack(post: Fields, additional: Value, doi: string, v: Fields, s: Fields)
    requires Get(post, "version") == Some(Obj(v)) && !additional.Obj?
    requires PostOverride(post).Obj? && Get(PostOverride(post).fields, "version") == Some(Obj(s))
    ensures Get(WriteBack(PostAfter(Package, Put(post, "doi", Str(doi)), additional), doi), "version")
      == Some(Obj(Merge(v, s)))
  {
    var q := Put(post, "doi", Str(doi));
    assert Get(q, "version") == Get(post, "version");
    assert Get(q, "doi-additional-metadata") == Get(post, "doi-additional-metadata");
    VersionTakesOverride(q, additional, v, s);
    WriteBackKeepsRest(PostAfterAssembly(q, additional), doi, "version");
  }

  lemma RegisterWritesBack(release: Release, flags: Flags, inputs: Inputs, replies: Replies, p: Prepared)
    requires !flags.dryRun
    requires Register(release, flags, inputs, replies, p).result.Success?
    ensures Written(Register(release, flags, inputs, replies, p)) == Some(WriteBack(p.post, p.doi))
  {
    var o := Register(release, flags, inputs, replies, p);
    RegisterEndsWithRewrite(release, flags, inputs, replies, p);
    LastRewrite(o, inputs.postFile, WriteBack(p.post, p.doi));
  }

  lemma LastRewrite(o: Outcome, file: string, post: Fields)
    requires o.effects != [] && o.effects[|o.effects| - 1] == RewritePost(file, post)
    ensures Written(o) == Some(post)
  {
  }

  /** A forced run on a post that already has a DOI rewrites that entry in
      place: the post keeps its length and the order of its keys. The
      script changes no other entry; the package changes no other entry
      but the shared `version` and `abstract`. */
  lemma ForcedRewriteInPlace(release: Release, skipUrl: bool, inputs: Inputs, replies: Replies, i: nat)
    requires UniqueKeys(inputs.post) && i < |inputs.post| && inputs.post[i].0 == "doi"
    requires Run(release, Flags(true, false, skipUrl), inputs, replies).result.Success?
    ensures var r := Run(release, Flags(true, false, skipUrl), inputs, replies);
      && Written(r).Some?
      && |Written(r).value| == |inputs.post|
      && Written(r).value[i] == ("doi", Str(Resolver + r.result.value))
      && (forall j :: 0 <= j < |inputs.post| ==> Written(r).value[j].0 == inputs.post[j].0)
      && (forall j :: 0 <= j < |inputs.post| && j != i && (release.Script? || !Shared(inputs.post[j].0))
            ==> Written(r).value[j] == inputs.post[j])
  {
    var r := Run(release, Flags(true, false, skipUrl), inputs, replies);
    RunWritesBack(release, Flags(true, false, skipUrl), inputs, replies);
    RewriteTwiceInPlace(release, inputs.post, inputs.additional, r.result.value, i);
  }

  /** The keys whose values the package's record may share with the post. */
  predicate Shared(k: string) {
    k == "version" || k == "abstract"
  }

  lemma RewriteTwiceInPlace(release: Release, post: Fields, additional: Value, doi: string, i: nat)
    requires UniqueKeys(post) && i < |post| && post[i].0 == "doi"
    ensures var written := WriteBack(PostAfter(release, Put(post, "doi", Str(doi)), additional), doi);
      && |written| == |post|
      && written[i] == ("doi", Str(Resolver + doi))
      && (forall j :: 0 <= j < |post| ==> written[j].0 == post[j].0)
      && (forall j :: 0 <= j < |post| && j != i && (release.Script? || !Shared(post[j].0)) ==> written[j] == post[j])
  {
    var q := Put(post, "doi", Str(doi));
    PutPosition(post, "doi", Str(doi), i);
    var after := PostAfter(release, q, additional);
    AfterInPlace(release, q, additional);
    WriteBackInPlace(after, doi, i);
    ChainInPlace(post, q, after, WriteBack(after, doi), i, release.Script?);
  }

  /** Three rewrites that each keep the keys in place and change no entry
      but `i` (the middle one, with `script` off, also the shared ones)
      together change no other entry either. */
  lemma ChainInPlace(post: Fields, q: Fields, after: Fields, written: Fields, i: nat, script: bool)
    requires |q| == |post| && |after| == |post| && |written| == |post| && i < |post|
    requires q[i].0 == post[i].0 && after[i].0 == q[i].0 && written[i].0 == after[i].0
    requires forall j :: 0 <= j < |post| && j != i ==> q[j] == post[j]
    requires forall j :: 0 <= j < |post| ==> after[j].0 == q[j].0
    requires forall j :: 0 <= j < |post| && (script || !Shared(q[j].0)) ==> after[j] == q[j]
    requires forall j :: 0 <= j < |post| && j != i ==> written[j] == after[j]
    ensures forall j :: 0 <= j < |post| ==> written[j].0 == post[j].0
    ensures forall j :: 0 <= j < |post| && j != i && (script || !Shared(post[j].0)) ==> written[j] == post[j]
  {
  }

  lemma AfterInPlace(release: Release, post: Fields, additional: Value)
    requires UniqueKeys(post)
    ensures var after := PostAfter(release, post, additional);
      && |after| == |post|
      && (forall j :: 0 <= j < |post| ==> after[j].0 == post[j].0)
      && (forall j :: 0 <= j < |post| && (release.Script? || !Shared(post[j].0)) ==> after[j] == post[j])
  {
    if release.Package? {
      AssemblyInPlace(post, additional);
    }
  }
}

=== FILE: wrappers.dfy ===
/** Failure-compatible Option and Result datatypes used throughout the model.
    A Python `None` return is `None`; a Python exception or `sys.exit()` on
    the data path is a `Failure` carrying the reason. */
module Wrappers {

  datatype Option<+T> = None | Some(value: T) {
    predicate IsFailure() { None? }

    function PropagateFailure<U>(): Option<U>
      requires None?
    {
      None
    }

    function Extract(): T
      requires Some?
    {
      value
    }
  }

  datatype Result<+T, +E> = Success(value: T) | Failure(error: E) {
    predicate IsFailure() { Failure? }

    function PropagateFailure<U>(): Result<U, E>
      requires Failure?
    {
      Failure(error)
    }

    function Extract(): T
      requires Success?
    {
      value
    }
  }
}
